=== FILE: README.md ===
# MLM compensation engine — a Dafny model

This project models the compensation engine of the AIMLM backend and the
state logic around it, as pure functions over an immutable in-memory
database (`Domain.Db`: sequences of users, MLM profiles, closure-table
hierarchy edges, business centers, bonuses, wallets, transactions, cart
items, activities, exchange rates and the generation-bonus matrix).

What is covered:

- **The repository layer.** `BaseDAO` is modelled twice. `Repository.Table` gives its
  string-keyed semantics: field validation, `find_one_or_none`,
  `find_all` with operators and paging, `update`, `delete`, `count`,
  `add`. `Repository.Where`/`First` are the typed default-argument calls
  the services make (skip 0, limit 100).
- **The user DAO.** `UserDao` covers the cash and PV updates and
  `authenticate`. The password check is a parameter.
- **The MLM services.** These are:
  - hierarchy (closure chain, active lines);
  - binary tree placement;
  - binary bonus;
  - generation bonus;
  - sponsor bonus;
  - rank promotion;
  - club;
  - wallet;
  - purchase;
  - sale;
  - exchange rate;
  - the `on_product_purchase` orchestrator.
- **The user routes.** These are signup and the two delete endpoints, as
  state transitions.
- **The user schemas.** These are the password, phone, postcode, address,
  blocked-domain and wallet balance validators.
- **The OpenAI query route.** This covers the sliding-window rate limiter,
  the query guards and the reply truncation.

Money is `real`. `Money.Quantize` is `Decimal.quantize(Decimal("0.01"))`
under round-half-even. Primary keys are naturals; a fresh key
(`Domain.NextId`) stands for `uuid4()`. Because uuid4 keys do not collide
across tables, signup draws the user key and the profile key from one
supply, `Domain.PersonIds`, every person-id column of the database. The
consequence the model relies on is `Domain.IdsApart`: no profile key,
center owner or rank-history key is a user key. Signup, the delete
cascade, center placement and rank promotion keep it. The clock is a `Date` (or a
`real` number of seconds for the rate limiter) passed in by the caller.
Random referral tokens and password hashes are parameters too.

Each operation is atomic: an `Err` result leaves the database as it was.
The orchestrator is the one place where a failure keeps writes. Its
`MlmService.Outcome` reports the state after the last step that
completed: a later step that raises does not undo the earlier steps'
writes. Writes made inside the failing step itself are not reported (see
"Left out").

## Model

| member | source | states |
|---|---|---|
| Money.RoundHalfEven | backend/app/api/services/binary_bonus_service.py:30 | the integer within one half of x, and an exact tie goes to the even neighbour |
| Money.Quantize | backend/app/api/services/binary_bonus_service.py:30 | the result is a whole number of cents within half a cent of x |
| Money.QuantizeIdempotent | backend/app/api/services/exchange_rate_service.py:47 | an amount already in cents is left unchanged by quantization |
| Money.QuantizeTwice | backend/app/api/services/exchange_rate_service.py:47 | quantizing twice is quantizing once |
| Money.QuantizeMonotone | backend/app/api/services/generation_bonus_service.py:73 | a larger exact amount never quantizes to a smaller one |
| Money.QuantizeNonNegative | backend/app/api/services/binary_bonus_service.py:30 | a non-negative amount quantizes to a non-negative one |
| Money.QuantizePositive | backend/app/api/services/generation_bonus_service.py:73-76 | a positive quantized amount comes from an exact amount of at least half a cent |
| Repository.ValidateFields | backend/app/core/postgres/base.py:22-27 | no error iff every key is a model field; the error names exactly the unknown keys |
| Repository.FindOneOrNone | backend/app/core/postgres/base.py:38-47 | invalid keys raise; otherwise the first row matching every equality filter, or None iff no row matches |
| Repository.FindById | backend/app/core/postgres/base.py:29-32 | a row with that primary key, or None iff no row has it |
| Repository.Page | backend/app/core/postgres/base.py:129-131 | row i of the page is row skip + i of the input; the page has min(limit, rows left after skip) rows, none when skip reaches the end |
| Repository.FindAll | backend/app/core/postgres/base.py:87-131 | limit over 1000 raises first, then invalid keys, then unsupported operators. Otherwise: the rows satisfying every non-None condition ("in"/"not_in" as membership), in storage order, paged |
| Repository.Update | backend/app/core/postgres/base.py:137-159 | invalid filter or value keys, or no match, raise; otherwise only the first match changes, and only in the supplied fields |
| Repository.Delete | backend/app/core/postgres/base.py:165-183 | an empty filter or an invalid key raises; otherwise exactly the matching rows are removed and their number returned |
| Repository.Count | backend/app/core/postgres/base.py:189-198 | the number of rows matching the non-None equality filters, all rows when every filter is None |
| Repository.Add | backend/app/core/postgres/base.py:53-62 | invalid keys raise; otherwise the row is appended and nothing else changes |
| Repository.Where | backend/app/core/postgres/base.py:87-131 | the first 100 rows satisfying the predicate, all of them when there are at most 100 |
| Repository.First | backend/app/core/postgres/base.py:38-47 | the first row satisfying the predicate (no earlier row satisfies it), None iff there is none |
| UserDao.FindUser | backend/app/core/postgres/base.py:29-32 | the user with that id, None iff there is none |
| UserDao.Authenticate | backend/app/core/postgres/dao.py:15-22 | None for an unknown e-mail or a failed password check, otherwise a user with that e-mail whose hash verifies |
| UserDao.UpdateCashBalance | backend/app/core/postgres/dao.py:24-31 | ValueError iff the user is missing; otherwise exactly the first row with that id gets old cash + amount |
| UserDao.UpdatePvBalance | backend/app/core/postgres/dao.py:33-39 | the same for the PV balance |
| UserDao.CashUpdateEffect | backend/app/core/postgres/dao.py:30-31 | after a cash update the user's cash is old + amount; every other user's cash, every PV, and which ids exist are unchanged |
| UserDao.PvUpdateEffect | backend/app/core/postgres/dao.py:38-39 | after a PV update the user's PV is old + amount; other PVs, all cash and which ids exist are unchanged |
| UserDao.CashCanGoNegative | backend/app/core/postgres/dao.py:30 | no floor: a debit larger than the balance succeeds and leaves it negative |
| UserDao.TotalCashAfterCashUpdate | backend/app/core/postgres/dao.py:30-31 | a cash update adds exactly its amount to the users' total cash |
| UserDao.TotalCashAfterPvUpdate | backend/app/core/postgres/dao.py:38-39 | a PV update leaves the users' total cash unchanged |
| UserDao.CashUpdateMoves | backend/app/core/postgres/dao.py:24-31 | for an existing user the update succeeds and moves only that user's cash |
| UserDao.PvUpdateMoves | backend/app/core/postgres/dao.py:33-39 | for an existing user the update succeeds and moves only that user's PV |
| Profiles.ProfileOf | backend/app/api/services/binary_tree_service.py:16 | the first profile of the user, None iff the user has none |
| Periods.MonthWindow | backend/app/api/services/rank_promotion_service.py:62-70 | from the first of this month (inclusive) to the first of the next (exclusive), December rolling into January |
| Periods.WindowsAdjacent | backend/app/api/services/rank_promotion_service.py:62-70 | each window ends where the next begins, and every date in the window has this window |
| Periods.PeriodKey | backend/app/api/services/rank_promotion_service.py:72-75 | year digits, a dash, then at least two month digits |
| Periods.PeriodKeyRoundTrip | backend/app/api/services/rank_promotion_service.py:72-75 | reading the key back gives the year and month it was made from |
| Periods.PeriodKeyInjective | backend/app/api/services/rank_promotion_service.py:72-75 | two dates share a key iff they are in the same month of the same year |
| Hierarchy.CreateChainAsWritten | backend/app/api/services/hierarchy_service.py:16-31 | as written: copies only the sponsor's first 100 ancestor rows one level deeper, then adds (sponsor, new, 1) |
| Hierarchy.CreateChain | backend/app/api/services/hierarchy_service.py:16-31 | appends only: (A, new, L+1) for every row (A, sponsor, L) and (sponsor, new, 1); old rows are kept and every new row ends at the new user |
| Hierarchy.CreateChainKeepsClosed | backend/app/api/services/hierarchy_service.py:16-31 | a level-annotated transitive closure stays one after chaining a fresh user |
| Hierarchy.ChainPair | backend/app/api/services/hierarchy_service.py:20-31 | any two chained rows of the new table have their composite row |
| Hierarchy.AsWrittenWithinLimit | backend/app/api/services/hierarchy_service.py:20 | with at most 100 ancestor rows the as-written chain is the full one |
| Hierarchy.AsWrittenBreaksClosure | backend/app/api/services/hierarchy_service.py:20 | with more than 100 distinct ancestors the as-written chain is no longer a closure |
| Hierarchy.CountActiveLinesAsWritten | backend/app/api/services/hierarchy_service.py:41-63 | as written: 0 when the user has no descendant rows, otherwise BaseDAO's invalid-field error for the three suffixed keys |
| Hierarchy.CountActiveLines | backend/app/api/services/hierarchy_service.py:33-67 | never more than the user's distinct descendants, 0 with no descendant rows |
| Hierarchy.CountActiveLinesLoop | backend/app/api/services/hierarchy_service.py:47-67 | the source's loop, stopping at the first qualifying record per line, computes the set-based count |
| Hierarchy.CountAntitoneInThreshold | backend/app/api/services/hierarchy_service.py:58-63 | a higher threshold never yields more active lines |
| Hierarchy.ExtraRecordForActiveLine | backend/app/api/services/hierarchy_service.py:64-66 | another qualifying record for an already active line leaves the count unchanged |
| BinaryTree.MainCenter | backend/app/api/services/binary_tree_service.py:24-25 | among the owner's (first 100) centers, the first numbered 1; None iff none of them is numbered 1 |
| BinaryTree.ChildAt | backend/app/api/services/binary_tree_service.py:31-38 | the child on that side of the parent, None iff there is none |
| BinaryTree.AutoPlaceUser | backend/app/api/services/binary_tree_service.py:15-56 | places iff the user has a profile with a placement sponsor, the sponsor has a profile and a center 1 with a free side; otherwise nothing is created. The one appended center is exactly (fresh id, the user's profile id, number 1, parent = the sponsor's center 1, left when that side is free else right, volumes 0 and 0) |
| BinaryTree.AutoPlaceKeepsSlots | backend/app/api/services/binary_tree_service.py:31-44 | placement never gives a parent two children on the same side |
| BinaryTree.PlacementOccupiesSlot | backend/app/api/services/binary_tree_service.py:31-56 | after a placement the chosen side of the parent holds the new center, and the user's profile owns a center, so a later run skips it |
| BinaryTree.PlaceEach | backend/app/api/services/binary_tree_service.py:69-80 | old centers kept and one new center per placed user; the k-th new center is owned by the k-th placed user's profile; placed ids come from the eligible profiles |
| BinaryTree.RunPlacementCron | backend/app/api/services/binary_tree_service.py:58-80 | the returned ids are 1-CARAT profiles' users; the k-th appended center is owned by the k-th returned user's profile, and old centers are kept |
| BinaryTree.PlaceEachSplit | backend/app/api/services/binary_tree_service.py:69-80 | the loop over the profiles is the loop over the first i of them followed by the loop over the rest, from the table the first part left |
| BinaryTree.PlaceEachPlacesReady | backend/app/api/services/binary_tree_service.py:69-80 | completeness: an eligible profile that owns no center and can be placed when the loop reaches it is among the placed users |
| BinaryTree.CronPlacesReady | backend/app/api/services/binary_tree_service.py:58-80 | the same for the cron: every 1-CARAT profile among the first 100 that is ready when reached is placed |
| BinaryTree.PlaceEachKeepsSlots | backend/app/api/services/binary_tree_service.py:69-80 | the cron loop keeps at most one center per side of a parent |
| BinaryTree.RunPlacementCronKeepsSlots | backend/app/api/services/binary_tree_service.py:58-80 | the whole cron keeps at most one center per side of a parent |
| BinaryTree.AutoPlaceKeepsOwnersApart | backend/app/api/services/binary_tree_service.py:46-53 | the new center is owned by a profile key, so no center owner becomes a user key |
| BinaryTree.CronKeepsOwnersApart | backend/app/api/services/binary_tree_service.py:58-80 | the same for the whole cron |
| BinaryBonus.CenterPayout | backend/app/api/services/binary_bonus_service.py:25-37 | left and right are the volumes with a missing one read as 0; the payout volume is the smaller side; the bonus is that volume × 10% rounded half-even to cents |
| BinaryBonus.PayoutNonNegative | backend/app/api/services/binary_bonus_service.py:26-30 | non-negative volumes give a non-negative bonus |
| BinaryBonus.PayoutExamples | backend/app/api/services/binary_bonus_service.py:26-30 | left 700 and right 300 pay 30.00; a missing side pays 0 |
| BinaryBonus.Assign | backend/app/api/services/binary_bonus_service.py:32 | dict assignment: the key maps to the new entry, other keys keep theirs, keys stay unique; an existing key keeps its position and a new key is appended last |
| BinaryBonus.Collect | backend/app/api/services/binary_bonus_service.py:25-37 | every center's number is a key, and every entry is some center's payout |
| BinaryBonus.AssignKeys | backend/app/api/services/binary_bonus_service.py:32 | the keys after one assignment are the old keys followed by the new key, deduplicated in first-appearance order |
| BinaryBonus.CollectLastWins | backend/app/api/services/binary_bonus_service.py:25-37 | every entry is the payout of the last center with its number; an entry kept from before has a number no center writes |
| BinaryBonus.CollectKeys | backend/app/api/services/binary_bonus_service.py:25-37 | the keys are the old keys then the centers' numbers, each kept once at its first appearance |
| BinaryBonus.Calculate | backend/app/api/services/binary_bonus_service.py:21-39 | the keys are the numbers of the owner's first 100 centers, unique and in order of first appearance; each entry is the payout of the last of those centers with its number |
| BinaryBonus.ProcessBinaryImpactAsWritten | backend/app/api/services/binary_bonus_service.py:41-67 | as written: fails with a missing-argument error iff some center owned by the user's id pays a positive bonus, before any write |
| BinaryBonus.AsWrittenPaysNothing | backend/app/api/services/binary_bonus_service.py:22 | when no center's owner id equals the given id, nothing is paid or written |
| BinaryBonus.AsWrittenPaysNoUser | backend/app/api/services/binary_bonus_service.py:22 | under the key discipline (centers are owned by profile keys, never user keys), the as-written call pays nothing and writes nothing for every existing user |
| BinaryBonus.Pay | backend/app/api/services/binary_bonus_service.py:46-72 | the issued list is the positive-bonus entries in order, and the transactions gain exactly one COMPLETED BONUS_PAYMENT from the company account to the user per issued entry, carrying its bonus and its center's note. The wallet total is kept and the issued total is the sum of positive bonuses. A failure is one of the wallet errors and only happens when some bonus is positive |
| BinaryBonus.Transfer | backend/app/api/services/binary_bonus_service.py:52-57 | one center's transfer: the wallet total is kept and exactly one company-to-user BONUS_PAYMENT with the center's bonus and note is logged; failures are the wallet errors |
| BinaryBonus.PayTotal | backend/app/api/services/binary_bonus_service.py:49-50 | the sum of the positive bonuses is non-negative, and 0 when none is positive |
| BinaryBonus.PayingHead | backend/app/api/services/binary_bonus_service.py:49-57 | a positive first entry is issued first and adds its bonus to the total |
| BinaryBonus.SkippedHead | backend/app/api/services/binary_bonus_service.py:49-50 | a non-positive first entry is skipped: it adds nothing to the issued list or the total |
| BinaryBonus.PayStep | backend/app/api/services/binary_bonus_service.py:52-72 | one logged payment followed by the logged payments of the rest is the logged payments of the whole list |
| BinaryBonus.PayingPaid | backend/app/api/services/binary_bonus_service.py:46-72 | a transfer for the first entry followed by the payment of the rest pays the whole list |
| BinaryBonus.SkippedPaid | backend/app/api/services/binary_bonus_service.py:46-50 | skipping a non-positive first entry and paying the rest pays the whole list |
| BinaryBonus.PayOutcome | backend/app/api/services/binary_bonus_service.py:46-72 | for a payee other than the company account: paying succeeds iff no bonus is positive, or both BONUS wallets exist and the company holds at least the positive sum. On success the company's balance falls and the user's rises by exactly that sum |
| BinaryBonus.IssuedArePositive | backend/app/api/services/binary_bonus_service.py:49-50 | every issued entry has a positive bonus |
| BinaryBonus.BonusesOf | backend/app/api/services/binary_bonus_service.py:60-67 | one paid RUB BINARY record of the user per issued entry, with its bonus and the period, in order; the records sum to the issued total |
| BinaryBonus.ProcessBinaryImpact | backend/app/api/services/binary_bonus_service.py:41-78 | with no profile nothing happens. Otherwise the issued entries are exactly the positive payouts of the profile's centers, in order. Bonuses gain exactly one paid RUB BINARY record per entry for the user in the current period, and transactions gain one company payment per entry. The reported total is the sum of the positive payouts, and the wallet total is kept; a failure is a wallet error and needs a positive payout |
| BinaryBonus.ProcessBinaryImpactOutcome | backend/app/api/services/binary_bonus_service.py:41-78 | for a user with a profile: the call succeeds iff no payout is positive or both BONUS wallets exist and the company can cover the positive sum; on success the company pays exactly that sum to the user |
| BinaryBonus.NoPositiveBonusWritesNothing | backend/app/api/services/binary_bonus_service.py:49-50 | centers with bonus ≤ 0 are skipped: with no positive bonus the database is unchanged |
| BinaryBonus.BonusTotalAppend | backend/app/api/services/binary_bonus_service.py:77 | the total of concatenated records is the sum of the totals |
| GenerationBonus.ResolvePeriod | backend/app/api/services/generation_bonus_service.py:34-36 | an empty period key becomes the current "YYYY-MM", any other is kept |
| GenerationBonus.MatrixEntryFor | backend/app/api/services/generation_bonus_service.py:65-70 | the first matrix row for (rank, generation), None iff there is none |
| GenerationBonus.Percent | backend/app/api/services/generation_bonus_service.py:73 | in cents, within half a cent of amount × percentage / 100 |
| GenerationBonus.Share | backend/app/api/services/generation_bonus_service.py:54-73 | a share exists iff the row is at most 7 levels up and the upline has a profile and a matrix row for its rank and generation; it is the quantized percentage |
| GenerationBonus.UplineGrants | backend/app/api/services/generation_bonus_service.py:54-86 | every record is a well-formed grant from some upline's share, every eligible upline with a positive share gets one, and there is at most one record per upline row |
| GenerationBonus.Grants | backend/app/api/services/generation_bonus_service.py:47-86 | every record comes from one binary bonus through an eligible upline row, every positive eligible share yields one, and there are at most 100 records per bonus |
| GenerationBonus.UplineGrantsExact | backend/app/api/services/generation_bonus_service.py:54-86 | exactly one record per upline row with a positive share, in the order of the rows: the k-th record is that row's grant |
| GenerationBonus.GrantsAppend | backend/app/api/services/generation_bonus_service.py:47-86 | the grants of two bonus lists in a row are the grants of the first followed by those of the second |
| GenerationBonus.GrantsOfOne | backend/app/api/services/generation_bonus_service.py:47-86 | one binary bonus yields exactly the records of its recipient's first 100 upline rows |
| GenerationBonus.NoGrantBeyondSeventh | backend/app/api/services/generation_bonus_service.py:55-57 | every recipient is an upline at most 7 levels up |
| GenerationBonus.SeventhGenerationPaid | backend/app/api/services/generation_bonus_service.py:55-57 | an eligible level-7 upline with a positive share receives a record |
| GenerationBonus.CalculateAsWritten | backend/app/api/services/generation_bonus_service.py:28-92 | as written: fails on the undeclared GENERATION type iff any record would be built; nothing is saved |
| GenerationBonus.Calculate | backend/app/api/services/generation_bonus_service.py:28-92 | the returned records are exactly the grants of the period's paid BINARY bonuses (each a paid RUB GENERATION record to an eligible upline at most 7 levels up with a positive share, and every such share is granted), and they are exactly what is appended |
| GenerationBonus.CalculateDoesNotFeedItself | backend/app/api/services/generation_bonus_service.py:39-43 | the records it adds are never inputs of a later run in the same period |
| GenerationBonus.AddShares | backend/app/api/services/generation_bonus_service.py:114-133 | every eligible share, zero included, is added to its generation's entry |
| GenerationBonus.AddAll | backend/app/api/services/generation_bonus_service.py:112-133 | each generation's entry grows by the sum of all bonuses' eligible shares |
| GenerationBonus.CalculateForUser | backend/app/api/services/generation_bonus_service.py:94-135 | keys are generations of eligible uplines (1..7), values the summed shares of the user's paid BINARY bonuses of the period |
| SponsorBonus.DetailFor | backend/app/api/services/sponsor_bonus_service.py:28-37 | the detail of a descendant with a profile: its volume (missing = 0) and 5% of it rounded to cents |
| SponsorBonus.Details | backend/app/api/services/sponsor_bonus_service.py:27-37 | one detail per first-level row whose descendant has a profile, in order |
| SponsorBonus.Calculate | backend/app/api/services/sponsor_bonus_service.py:18-42 | the details are exactly those of the user's first 100 level-1 rows whose descendant has a profile, in order; total = rounded sum of the unrounded bonuses |
| SponsorBonus.PaidNearRaw | backend/app/api/services/sponsor_bonus_service.py:32-36 | the paid sum is within half a cent per detail of the unrounded sum |
| SponsorBonus.TotalNearPaid | backend/app/api/services/sponsor_bonus_service.py:32-40 | the reported total differs from what is paid by at most half a cent per detail plus half a cent |
| SponsorBonus.TotalDiffersFromDetails | backend/app/api/services/sponsor_bonus_service.py:32-40 | three 0.14-PV descendants are paid 0.01 each, 0.03 in all, while the total reads 0.02; no value is a half-cent tie |
| SponsorBonus.Records | backend/app/api/services/sponsor_bonus_service.py:48-55 | one paid RUB SPONSOR record per detail, period "30 days", in order |
| SponsorBonus.Credit | backend/app/api/services/sponsor_bonus_service.py:46-47 | fails with "User not found" iff some detail's user is missing |
| SponsorBonus.CreditEffect | backend/app/api/services/sponsor_bonus_service.py:46-47 | each user's cash grows by exactly what the details credit to them; PV does not move |
| SponsorBonus.Distribute | backend/app/api/services/sponsor_bonus_service.py:44-55 | fails iff a detail's user is missing; otherwise users' cash and the appended records change, and nothing else |
| SponsorBonus.DistributeCash | backend/app/api/services/sponsor_bonus_service.py:44-55 | cash moves as the details say; a user who is no level-1 descendant of the caller, the caller included, gets nothing |
| SponsorBonus.DistributeRepeats | backend/app/api/services/sponsor_bonus_service.py:44-55 | no already-paid check: a second call succeeds, credits the same amounts again and appends the same records again |
| RankPromotion.RequirementsOrdered | backend/app/api/services/rank_promotion_service.py:19-27 | ranks are tried in declaration order with strictly rising thresholds |
| RankPromotion.FirstGranted | backend/app/api/services/rank_promotion_service.py:37-58 | the first requirement, from position k on, that is not the current rank and has three active lines |
| RankPromotion.CheckAndPromote | backend/app/api/services/rank_promotion_service.py:29-60 | no profile or no qualifying rank: nothing written, None. Otherwise the first qualifying rank is written to the profile and one history row is appended; that row holds the profile id, the new rank and the previous club and volumes |
| RankPromotion.PromotionTarget | backend/app/api/services/rank_promotion_service.py:19-58 | every promotion lands on 1 CARAT, or on 2 CARAT for a 1-CARAT user |
| RankPromotion.RankCanGoDown | backend/app/api/services/rank_promotion_service.py:37-39 | a user above 1 CARAT with three lines active at 500 is moved down to 1 CARAT |
| RankPromotion.PromotionKeepsIdsApart | backend/app/api/services/rank_promotion_service.py:49-57 | promotion keeps profile keys and rank-history keys apart from user keys: the history row it adds holds the profile key |
| ClubService.DetermineClub | backend/app/api/services/club_service.py:13-26 | DIAMOND iff 15000 ≤ v < 25000, GOLD iff 5000 ≤ v < 15000, CRYSTAL iff 2000 ≤ v < 5000, otherwise PREMIER |
| ClubService.DetermineClubIsTable | backend/app/api/services/club_service.py:17-26 | agrees with the first-matching-threshold reading of the table, falling back to PREMIER |
| ClubService.ClubBoundaries | backend/app/api/services/club_service.py:17-26 | 5000 → GOLD, 4999.99 → CRYSTAL, 25000 → PREMIER, 1999.99 → PREMIER |
| ClubService.ClubNotMonotone | backend/app/api/services/club_service.py:17-26 | some larger volume gets a lower club |
| ClubService.CheckAndUpdateUserClub | backend/app/api/services/club_service.py:28-46 | no profile: nothing. Otherwise the determined club is reported; when it is the stored one nothing is written, else only the first profile's current_club changes |
| ClubService.UpdateClubIdempotent | backend/app/api/services/club_service.py:39-44 | an immediate second call writes nothing and reports the same club |
| Wallets.FindWallet | backend/app/api/services/wallet_service.py:34-35 | the first wallet of that user and type, None iff there is none |
| Wallets.UpdateBalance | backend/app/api/services/wallet_service.py:40-41 | fails iff the wallet is missing; otherwise the same wallets, that wallet's balance and the total both up by amount |
| Wallets.UpdateBalanceElsewhere | backend/app/api/services/wallet_service.py:40-41 | every other wallet's existence and balance is untouched |
| Wallets.UpdateTwice | backend/app/api/services/wallet_service.py:60-61 | two updates in a row succeed iff both wallets existed; their effects on balances and total add up |
| Wallets.CreditBonus | backend/app/api/services/wallet_service.py:22-23 | only the user's BONUS balance changes, by amount, and every other wallet keeps its balance; fails iff that wallet is missing |
| Wallets.CreateDefaultWallets | backend/app/api/services/wallet_service.py:25-31 | appends exactly a BONUS then a GIFT wallet of the user in the currency, with fresh ids; the total is unchanged |
| Wallets.DefaultWalletsFound | backend/app/api/services/wallet_service.py:25-31 | afterwards both wallets of a walletless user are found, with zero balance |
| Wallets.TransferToGift | backend/app/api/services/wallet_service.py:33-41 | refuses (400) when BONUS < amount. Otherwise it succeeds iff both wallets exist, BONUS falls and GIFT rises by amount, and the total is kept |
| Wallets.MoveFunds | backend/app/api/services/wallet_service.py:43-76 | a missing source raises AttributeError; BONUS < amount refuses (400); a missing target raises ValueError. On success the source falls and the target rises by amount, every wallet keeps its owner, type and currency, the total is kept, and exactly one COMPLETED transaction (buyer = source, seller = target) is logged |
| Wallets.SameWalletsTrans | backend/app/api/services/wallet_service.py:64-65 | two balance-only changes compose into one |
| Wallets.SameWalletsFind | backend/app/api/services/wallet_service.py:64-65 | a balance-only change keeps which wallets exist |
| Wallets.MoveFundsAsWritten | backend/app/api/services/wallet_service.py:43-76 | as written: every call fails. A missing source gives AttributeError and a short balance 400, both before any write; when both wallets exist and the balance suffices, the missing achievement_id is refused after both balances were updated |
| Wallets.AsWrittenNeverLogs | backend/app/api/services/wallet_service.py:64-76 | every move the corrected version completes fails as written with the balances already moved; every other move fails the same way in both |
| PurchaseService.FindProduct | backend/app/api/services/purchase_service.py:55 | the product with that id, None iff there is none |
| PurchaseService.ValidateProduct | backend/app/api/services/purchase_service.py:53-58 | accepted iff the product exists and is active, else 409 |
| PurchaseService.RemoveFromCart | backend/app/api/services/purchase_service.py:105-110 | exactly the user's cart rows for that product are removed; the other rows keep their order |
| PurchaseService.Settle | backend/app/api/services/purchase_service.py:83-87 | the buyer's PV rises by pv_value and cash falls by price; every other balance is unchanged |
| PurchaseService.SettleMoves | backend/app/api/services/purchase_service.py:85-86 | the PV update then the cash update of an existing user both succeed and compose |
| PurchaseService.ProcessPurchase | backend/app/api/services/purchase_service.py:33-110 | 409, 404, 400 in that order before any write. On success it writes one PURCHASE interaction and one COMPLETED PURCHASE transaction, settles the balances and clears the cart rows, and the response carries the new balances |
| PurchaseService.PurchaseKeepsCashNonNegative | backend/app/api/services/purchase_service.py:67-70 | a successful purchase never leaves the buyer's cash negative |
| SaleService.ValidateSeller | backend/app/api/services/sale_service.py:138-142 | accepted iff the user exists and is a distributor, else 403 |
| SaleService.ValidateProduct | backend/app/api/services/sale_service.py:144-148 | accepted iff the product exists and is active, else 404 |
| SaleService.TransactionKind | backend/app/api/services/sale_service.py:87-88 | NETWORK_SALE iff a network sale, RETAIL_SALE otherwise |
| SaleService.SellerShare | backend/app/api/services/sale_service.py:96 | half the price on a network sale, 30% otherwise |
| SaleService.SplitAddsUp | backend/app/api/services/sale_service.py:96-104 | seller share + company share = price, neither negative for a non-negative price |
| SaleService.SaleMoves | backend/app/api/services/sale_service.py:93-100 | the three balance updates succeed for existing users and move exactly the stated amounts |
| SaleService.ProcessSale | backend/app/api/services/sale_service.py:46-158 | 403, 404, 404, 400 in that order before any write. On success: the buyer pays the price, the seller gets the share and the PV, and the company the rest, so total cash plus company balance is kept. One COMPLETED transaction is logged, and bonuses are requested iff the sale is a network sale |
| SaleService.ProcessSaleAsWritten | backend/app/api/services/sale_service.py:37-44 | as written: every call fails with a NameError before any check or write |
| SaleService.AsWrittenRefusesAdmissibleSales | backend/app/api/services/sale_service.py:44 | every sale the checks admit is refused as written |
| ExchangeRates.FindRate | backend/app/api/services/exchange_rate_service.py:18-21 | the first row for the ordered pair, None iff there is none |
| ExchangeRates.GetRate | backend/app/api/services/exchange_rate_service.py:14-26 | 1 for a currency to itself; otherwise the stored rate, ValueError iff the pair has no row |
| ExchangeRates.SetRate | backend/app/api/services/exchange_rate_service.py:28-43 | afterwards the pair reads the new rate, every other pair reads as before, and no duplicate pair is created |
| ExchangeRates.SetThenGet | backend/app/api/services/exchange_rate_service.py:28-43 | after set_rate(a, b, r) with a ≠ b, get_rate(a, b) = r and every other pair, the reverse included, is unchanged |
| ExchangeRates.Convert | backend/app/api/services/exchange_rate_service.py:45-47 | fails iff get_rate fails; otherwise amount × rate quantized to cents; same currency just quantizes |
| ExchangeRates.ConvertSameCurrency | backend/app/api/services/exchange_rate_service.py:45-47 | converting a whole-cent amount to its own currency gives it back |
| MlmService.OnProductPurchaseAsWritten | backend/app/api/services/mlm_service.py:18-31 | as written: the sponsor step runs, then the missing method raises; binary and rank steps never run, sponsor writes stay in the session |
| MlmService.AsWrittenFailsAfterWrites | backend/app/api/services/mlm_service.py:22-25 | with at least one sponsor detail, the call fails after bonus records were already added |
| MlmService.OnProductPurchase | backend/app/api/services/mlm_service.py:18-31 | steps run in order sponsor, generation, binary, rank; a sponsor failure stops everything and is reported with the state from before the call |
| MlmService.BonusStepsFrame | backend/app/api/services/mlm_service.py:25-28 | the generation and binary steps only append bonuses and move wallet money: users, profiles, history, edges, activities and the wallet total are kept |
| MlmService.GenerationStepKeeps | backend/app/api/services/mlm_service.py:25 | the generation step only appends bonuses |
| MlmService.BinaryStepKeeps | backend/app/api/services/mlm_service.py:28 | the binary step only appends bonuses and moves money between wallets, keeping their total |
| MlmService.SponsorCash | backend/app/api/services/mlm_service.py:22 | the sponsor step's cash movement for every user at once |
| MlmService.CompletedRun | backend/app/api/services/mlm_service.py:22-31 | a completed run is the four steps composed, each keyed by the buyer |
| MlmService.PurchaseBonusesInOrder | backend/app/api/services/mlm_service.py:22-28 | the sponsor records come first, followed by the later steps' records, none lost or reordered |
| MlmService.PurchaseMovesCash | backend/app/api/services/mlm_service.py:22-28 | only the sponsor step moves users' cash, and the wallet total is kept |
| MlmService.PurchaseRankAsIfFirst | backend/app/api/services/mlm_service.py:30-31 | the rank check, run last, sees the profiles, history, hierarchy and activities as before the call |
| UserRoutes.Register | backend/app/api/routes/users.py:159-219 | 400 for a taken e-mail, then 400 for a missing code, then 404 for an unknown one, before any write. Otherwise: the user with a key that is no person id of the database, the sponsor's id and an 8-character code is appended; for a non-client, also a BASIC/NEWBIE/PREMIER profile placed under the sponsor and the corrected hierarchy chain (`Hierarchy.CreateChain`, every ancestor row; see Left out); nothing else changes |
| UserRoutes.RegisterKeepsEmailsUnique | backend/app/api/routes/users.py:173-199 | signup keeps e-mails unique across users |
| UserRoutes.Purge | backend/app/api/routes/users.py:145-155 | exactly the rows referring to the user are removed from every cascaded table, including edges where the user is ancestor or descendant, and the remaining rows keep their order. Wallets, centers, products, rates and the matrix are untouched |
| UserRoutes.PurgeIdempotent | backend/app/api/routes/users.py:145-155 | deleting twice is deleting once |
| UserRoutes.DeleteMe | backend/app/api/routes/users.py:129-156 | 404 when the caller's row is missing, 403 for an admin; otherwise the cascade |
| UserRoutes.DeleteUser | backend/app/api/routes/users.py:296-332 | 404 for a missing target, 403 when the target is the caller; otherwise the cascade |
| UserRoutes.PurgeUnreferenced | backend/app/api/routes/users.py:145-155 | the cascade leaves a database that never mentions the id unchanged |
| UserRoutes.DeleteUndoesRegister | backend/app/api/routes/users.py:159-219 | deleting a user right after signup restores the database |
| UserRoutes.FreshIsUnreferenced | backend/app/api/routes/users.py:145-155 | a key that is no person id is referred to by no row the cascade filters |
| UserRoutes.RegisterKeepsIdsApart | backend/app/api/routes/users.py:193-210 | signup keeps the key discipline: the new user key and the new profile key are both drawn outside every person id |
| UserRoutes.PurgeKeepsIdsApart | backend/app/api/routes/users.py:145-155 | the cascade only removes rows, so it keeps the key discipline |
| UserRoutes.PurgeKeepsRankHistory | backend/app/api/routes/users.py:151 | the cascade filters rank history by the user key, but the rows hold profile keys, so for an existing user it removes none of them |

| UserSchemas.Password | backend/app/schemas/users.py:139-147 | accepted unchanged iff at least 8 characters with an uppercase letter and a digit; the errors come in that order |
| UserSchemas.Phone | backend/app/schemas/users.py:149-155 | accepted unchanged iff it starts with '+' and has at least 10 characters; the '+' check comes first |
| UserSchemas.Postcode | backend/app/schemas/users.py:132-137 | accepted iff the stripped, upper-cased value has 3 to 12 characters from [A-Z0-9 -]; that value is returned |
| UserSchemas.PostcodeIdempotent | backend/app/schemas/users.py:132-137 | re-validating a stored postcode returns it unchanged |
| UserSchemas.Title | backend/app/schemas/users.py:130 | str.title(): a letter is lower-cased after a letter and upper-cased otherwise |
| UserSchemas.TitleIdempotent | backend/app/schemas/users.py:130 | title-casing twice is title-casing once |
| UserSchemas.Address | backend/app/schemas/users.py:123-130 | accepted iff the stripped value uses only word characters, whitespace and "-,.#" and has a comma; the title-cased value is returned |
| UserSchemas.AddressIdempotent | backend/app/schemas/users.py:123-130 | re-validating a stored address returns it unchanged |
| UserSchemas.Email | backend/app/schemas/users.py:55-86 | refused iff the part after the last '@' is tempmail.com or example.com (case-sensitive), unless whitelisted and the address lower-cases to admin@example.com |
| UserSchemas.DomainCaseMatters | backend/app/schemas/users.py:60-62 | a capitalised blocked domain passes |
| UserSchemas.AdminAddressOnlyWhitelisted | backend/app/schemas/users.py:176-187 | the admin address passes the signup schema but not the update schema |
| UserSchemas.Balance | backend/app/schemas/users.py:16-25 | accepted unchanged iff non-negative, in cents and within the digit bound |
| UserSchemas.OptionalBalance | backend/app/schemas/users.py:33-41 | an absent balance passes; a present one is validated as a balance |
| QueryGuard.Recent | backend/app/api/routes/openai.py:94-96 | exactly the timestamps later than now − 60 |
| QueryGuard.IsRateLimited | backend/app/api/routes/openai.py:89-102 | prunes to the window. It refuses iff 10 or more timestamps remain, recording nothing; otherwise it appends now. Other users' entries are untouched |
| QueryGuard.RateLimitBounded | backend/app/api/routes/openai.py:89-102 | a user who held at most 10 timestamps, none later than now, holds at most 10 afterwards, all within the last 60 seconds: the log never grows past the limit |
| QueryGuard.RefusalIsStable | backend/app/api/routes/openai.py:98-99 | refusing again at the same instant changes nothing |
| QueryGuard.AcceptedCallCounts | backend/app/api/routes/openai.py:101-102 | an accepted call counts against the user for the next 60 seconds |
| QueryGuard.CheckQuery | backend/app/api/routes/openai.py:114-118 | accepted unchanged iff not blank and at most 500 characters; blankness is checked first |
| QueryGuard.Truncate | backend/app/api/routes/openai.py:131-132 | a prefix of at most 5000 characters, equal to the text iff it is that short |
| QueryGuard.TruncateIdempotent | backend/app/api/routes/openai.py:131-132 | cutting twice is cutting once |
| QueryGuard.Query | backend/app/api/routes/openai.py:108-159 | guards, then the rate limiter, both before the reply is used. Accepted iff both pass; an accepted call logs and returns the cut reply, with a warning iff it was cut |

## Left out

- HTTP plumbing, authentication and JWT, and the bcrypt password check. The check is a parameter of `UserDao.Authenticate`, and hashes are parameters of `UserRoutes.Register`.
- Commit, rollback and concurrency. Each operation is one atomic transition. In particular, `delete_user`'s 500 rollback path and row-lock races are not modelled.
- `order_by` of `find_all`. Rows come back in storage order.
- `add_many`, which no service of the core calls.
- The `BaseDAO` constructor's missing-model check, which is a class-definition error.
- Repository.FindAll: it states that `"in"`/`"not_in"` are membership tests on the operand sequence; SQL NULL semantics inside `in_` are not modelled.
- The WalletDAO methods `get_user_wallet` and `update_balance`, and the model classes, are not part of this model's sources. Wallets are modelled as a table whose first row for (user, type) is the one read and updated. A missing wallet surfaces as the `AttributeError` the service would hit on `None.balance`.
- Float arithmetic. Money is exact `real`, and `round(x, 2)` is computed on the exact value. Python's `round` of a binary float can differ from this near half-cent ties, and responses' `float(...)` conversions are dropped.
- SponsorBonus.Calculate: its bonuses and total are stated over exact rationals, not IEEE doubles, for the reason above.
- Time zones, and `datetime.utcnow` vs `datetime.now(timezone.utc)`. The clock is one `Date` parameter.
- `call_openai_api`, `filter_openai_response` and the upstream errors. The reply text is a parameter of `QueryGuard.Query`, and the broad `except Exception` answer is not modelled.
- QueryGuard.Query: a refused call discards the pruned log, while the source keeps the pruned list. Pruning again at the next call gives the same window, so the rate-limit decisions are the same.
- The `/history` route of the query module, which is a plain read.
- UserSchemas.Email: the `email_validator` syntax check and its normalisation are an external library. The model keeps only the blocked-domain rule and returns the input.
- UserSchemas.Balance: the pydantic wording of the `ge`, `max_digits` and `decimal_places` errors is not modelled. The model reports a single balance error, and it is the field constraint, not the validator, that refuses a negative balance.
- Character classes are ASCII. Python's `\w`, `\s`, `isupper`, `isdigit` and `str.title` also accept other Unicode letters, digits and spaces.
- The admin-only dependency of `delete_user` (`get_current_active_superuser`), which belongs to the auth layer.
- The `PurchaseDAO` deletion in both delete routes. That model is not part of this model's sources, and the transactions bought by the user are removed through `buyer_id`.
- `SaleService._distribute_mlm_bonuses` calls `MLMService.distribute_mlm_bonuses`, which `mlm_service.py` does not define. `update_company_balance` is not defined in `dao.py` either. The model records the bonus request as a flag on the receipt, and credits the company account as a field of the database.
- `withdraw` of the wallet service, which has no body.
- The generation step inside `MlmService.OnProductPurchase` runs `calculate` for the current period. The source names a method that does not exist, so which generation behaviour was meant is a reading.
- PurchaseService.ProcessPurchase: the model assumes the purchase transaction fits the `transactions` table. As written, `_create_transaction` (backend/app/api/services/purchase_service.py:89-103) passes both `user_id` and `status`. The `Transaction` of models/common.py:112-135 declares no `user_id`, and the one of models/core.py:153-163 declares no `status`. Either way, BaseDAO's field check (backend/app/core/postgres/base.py:22-27, 57) raises ValueError after the balances were already updated. The model logs one COMPLETED PURCHASE transaction with the buyer as its buyer instead.
- SaleService.ProcessSale: the model assumes `TransactionCreate` gets what it needs and that the buyer carries a sponsor id. As written, `_create_transaction` (backend/app/api/services/sale_service.py:111-127) never passes the `user_id` that `TransactionCreate` in backend/app/schemas/core_schemas.py:293-297 requires. Also, `buyer.sponsor_id` (sale_service.py:54) is a field of `UserMLM` (models/mlm.py:26), not of `User`. The model reads the buyer's sponsor from the user row and logs a transaction from buyer to seller.
- SaleService.ValidateSeller: `is_distributor` (sale_service.py:140) is declared on no model, so the source raises AttributeError for any existing user. The model treats it as a boolean field of the user.
- UserRoutes.Register: `user_dict["sponsor_id"]` (backend/app/api/routes/users.py:198) is not a field of `User` (models/user.py:46-60), so `user_dao.add` would raise ValueError. The model stores the sponsor's id on the new user row, as the route evidently intends.
- The `user_id` of `Bonus`, `UserActivity` and `UserRankHistory` is a foreign key to `user_mlm.id` (models/mlm.py:61, 73, 85). The bonus services write `users.id` into `Bonus.user_id`, and the model keeps that; `UserActivity.user_id` is read as a user key too. Rank promotion writes `user_mlm.id` into `UserRankHistory.user_id` (rank_promotion_service.py:51), and so does the model. Both delete routes filter rank history by the user's `users.id` (users.py:151, 326), so they leave the user's history rows in place (`UserRoutes.PurgeKeepsRankHistory`). Foreign-key constraints themselves are not modelled.
- UserRoutes.Register: it builds the new user's chain with the corrected `Hierarchy.CreateChain`. The route (users.py:212) calls `create_chain_for_new_user`, which reads the sponsor's ancestor rows with `find_all`'s default limit of 100 (hierarchy_service.py:20, base.py:90). For a sponsor with more than 100 ancestor rows, signup as written stores only 100 of them one level deeper. That chain is `Hierarchy.CreateChainAsWritten`; `Hierarchy.AsWrittenWithinLimit` shows the two agree at 100 rows or fewer, and `Hierarchy.AsWrittenBreaksClosure` shows the difference beyond that.
- RankPromotion.CheckAndPromote: it uses the corrected `Hierarchy.CountActiveLines`. As written, any user with a descendant row makes the line count raise ValueError (hierarchy_service.py:58-63), so the rank step of `MlmService.OnProductPurchase` would fail for every such user.
- Imports that do not resolve are read as intended. `dao.py:8` imports `Product`, `Transaction`, `CartItem` and `UserProductInteraction` from `models/user.py`, which defines none of them. `schemas/mlm.py:10`, `club_service.py:5` and `users.py:25` import `ClubType` from `gamification_types`, but it is defined in `common_types.py:41`. `dao.py` also defines none of these DAO classes, which the core imports from it: `ExchangeRateDAO` (exchange_rate_service.py:6); `BusinessCenterDAO` (binary_tree_service.py:5, binary_bonus_service.py:5); `UserHierarchyDAO` (hierarchy_service.py:6, sponsor_bonus_service.py:4, generation_bonus_service.py:10, users.py:18); `UserActivityDAO` (hierarchy_service.py:6, users.py:17); `UserRankHistoryDAO` (rank_promotion_service.py:7, users.py:17); `GenerationBonusMatrixDAO` (generation_bonus_service.py:12); `PurchaseDAO` (users.py:17); `WalletDAO` (wallet_service.py:7). As written, these make the service modules and the users routes fail at import. Through mlm_service.py:4, which imports binary_bonus_service.py, this reaches sale_service.py:8, so a sale fails there before the `BonusDAO` NameError in the Findings table. Every "as written" member assumes these imports load.
- BinaryBonus.PayOutcome: stated only for a payee other than the company account. When the company pays itself the balances do not move, and this case is not stated.
- BinaryBonus.PayOutcome: the success condition is stated over exact amounts. The source converts each bonus to `float` and back (binary_bonus_service.py:36, 47), so `Decimal(30.1)` is 30.1000000000000014…; a company balance exactly equal to the sum due is then refused by the balance check (wallet_service.py:56), which the model accepts.
- MlmService.OnProductPurchase: a step that fails midway is reported with the state from before that step. The source keeps the failing step's earlier writes in the session: a binary payout that fails on its second transfer keeps the first transfer and its bonus record, and a sponsor step that fails on a later descendant keeps the earlier credits. Whether the request then commits is outside the model, so these partial writes are not reported.
- BinaryBonus.Pay: the note text is a parameter, given the center number. `ProcessBinaryImpact` passes the source's "Бинарный бонус из центра N".

## Findings

| source | as written | input that shows it | evidently intended | confidence | as-written member | corrected member |
|---|---|---|---|---|---|---|
| backend/app/api/services/hierarchy_service.py:20 | the sponsor's ancestor rows are read with `find_all`'s default limit of 100, so only 100 are copied | a sponsor with 101 distinct ancestors: the new user gets 101 of its 102 ancestor rows, and the closure breaks | copy every ancestor row, keeping the table a transitive closure | not executed | Hierarchy.CreateChainAsWritten (Hierarchy.AsWrittenBreaksClosure) | Hierarchy.CreateChain (Hierarchy.CreateChainKeepsClosed) |
| backend/app/api/services/hierarchy_service.py:58-63 | the filter keys `period_start__gte`, `period_end__lte`, `personal_volume__gte` are not UserActivity fields, so `_validate_fields` raises | any user with one descendant row: the call raises ValueError | compare period and volume as the suffixes name, counting lines with a qualifying activity | not executed | Hierarchy.CountActiveLinesAsWritten | Hierarchy.CountActiveLines (Hierarchy.CountActiveLinesLoop, Hierarchy.CountAntitoneInThreshold) |
| backend/app/api/services/binary_bonus_service.py:22 | centers are looked up by `owner_id == user_id`, but placement stores the profile id as owner (binary_tree_service.py:48); the transfer also omits the required `transaction_type` | a user whose profile owns a center with volumes 700/300: nothing is paid. Had the ids matched, the call would fail with a missing-argument error | look centers up by the user's profile id and log the transfer as a bonus payment, through the corrected `Wallets.MoveFunds` | not executed | BinaryBonus.ProcessBinaryImpactAsWritten (BinaryBonus.AsWrittenPaysNothing, BinaryBonus.AsWrittenPaysNoUser) | BinaryBonus.ProcessBinaryImpact |
| backend/app/api/services/generation_bonus_service.py:82 | `BonusType.GENERATION` is not a member of the enumeration | any period with one paid BINARY bonus whose recipient has an eligible upline with a positive share: AttributeError, nothing saved | a GENERATION bonus type | not executed | GenerationBonus.CalculateAsWritten | GenerationBonus.Calculate (GenerationBonus.Grants) |
| backend/app/api/services/mlm_service.py:25 | the generation service has no `calculate_and_apply` | any purchase whose sponsor step succeeds: AttributeError after the sponsor credits and records were written, and the binary and rank steps never run | run the generation calculation, then the binary and rank steps | not executed | MlmService.OnProductPurchaseAsWritten (MlmService.AsWrittenFailsAfterWrites) | MlmService.OnProductPurchase (MlmService.PurchaseBonusesInOrder) |
| backend/app/api/services/sale_service.py:44 | `BonusDAO` is used but not imported | any sale, even one passing every check: NameError while building the service | import `BonusDAO` | not executed | SaleService.ProcessSaleAsWritten (SaleService.AsWrittenRefusesAdmissibleSales) | SaleService.ProcessSale |
| backend/app/api/services/wallet_service.py:64-75 | `TransactionCreate` is built without `achievement_id`, which the schema (backend/app/schemas/common.py:69-74) declares as a required field | any move whose source holds enough and whose target has a BONUS wallet: both balances are updated, then validation fails and no transaction is logged | pass `achievement_id=None` and log the move | not executed | Wallets.MoveFundsAsWritten (Wallets.AsWrittenNeverLogs) | Wallets.MoveFunds |

Observed behaviour, modelled as written and not corrected:

- A rank check can move a user down (`RankPromotion.RankCanGoDown`).
- The club table falls back to PREMIER below 2000, so the club is not monotone in volume (`ClubService.ClubNotMonotone`).
- The sponsor bonus credits the level-1 descendants rather than the sponsor, and a repeated call pays again (`SponsorBonus.DistributeCash`, `SponsorBonus.DistributeRepeats`).
- The reported sponsor total can differ from what is paid (`SponsorBonus.TotalDiffersFromDetails`).
- No wallet or user balance has a floor (`UserDao.CashCanGoNegative`), and `move_funds_and_log_transaction` accepts a negative amount.

=== FILE: binary_bonus.dfy ===
/** BinaryBonusService: the per-center payout from the weaker leg, and its
    payment from the company account. */
module BinaryBonus {
  import opened Wrappers
  import opened Seqs
  import opened Money
  import opened Text
  import opened Domain
  import opened Profiles
  import opened Periods
  import opened Wallets
  import Repository
  import BinaryTree

  /** 10% of the weaker side. */
  const BonusRate: real := 0.10

  /** One value of the result dict, with its key. */
  datatype CenterBonus = CenterBonus(centerNumber: int, left: real, right: real, payoutVolume: real, bonus: real)

  /** `volume or Decimal(0)`. */
  function VolumeOrZero(v: Option<real>): real
  {
    match v
    case None => 0.0
    case Some(x) => x
  }

  function Min(a: real, b: real): real
  {
    if a <= b then a else b
  }

  /** The payout of one center. */
  function CenterPayout(c: Center): (r: CenterBonus)
    ensures r.centerNumber == c.centerNumber
    ensures r.left == VolumeOrZero(c.leftVolume) && r.right == VolumeOrZero(c.rightVolume)
    ensures r.bonus == Quantize(r.payoutVolume * BonusRate)
    ensures r.payoutVolume <= r.left && r.payoutVolume <= r.right
    ensures r.payoutVolume == r.left || r.payoutVolume == r.right
    ensures IsCents(r.bonus)
  {
    var left := VolumeOrZero(c.leftVolume);
    var right := VolumeOrZero(c.rightVolume);
    var payout := Min(left, right);
    CenterBonus(c.centerNumber, left, right, payout, Quantize(payout * BonusRate))
  }

  /** With non-negative volumes the bonus is non-negative. */
  lemma PayoutNonNegative(c: Center)
    requires VolumeOrZero(c.leftVolume) >= 0.0 && VolumeOrZero(c.rightVolume) >= 0.0
    ensures CenterPayout(c).bonus >= 0.0
  {
    QuantizeNonNegative(Min(VolumeOrZero(c.leftVolume), VolumeOrZero(c.rightVolume)) * BonusRate);
  }

  /** Left 700 and right 300 pay 30.00; missing volumes count as 0. */
  lemma PayoutExamples()
    ensures CenterPayout(Center(1, 1, 1, None, None, Some(700.0), Some(300.0))).bonus == 30.0
    ensures CenterPayout(Center(1, 1, 1, None, None, None, Some(300.0))).bonus == 0.0
  {
    QuantizeIdempotent(30.0);
    QuantizeIdempotent(0.0);
  }

  /** The result keys are distinct, as dict keys are. */
  ghost predicate UniqueKeys(rs: seq<CenterBonus>)
  {
    forall i, j :: 0 <= i < j < |rs| ==> rs[i].centerNumber != rs[j].centerNumber
  }

  /** The keys of the dict, in its order. */
  function Keys(rs: seq<CenterBonus>): (r: seq<int>)
    ensures |r| == |rs| && forall i :: 0 <= i < |rs| ==> r[i] == rs[i].centerNumber
    decreases |rs|
  {
    if |rs| == 0 then [] else [rs[0].centerNumber] + Keys(rs[1..])
  }

  /** The center numbers of `cs`, in order. */
  function Numbers(cs: seq<Center>): (r: seq<int>)
    ensures |r| == |cs| && forall i :: 0 <= i < |cs| ==> r[i] == cs[i].centerNumber
    decreases |cs|
  {
    if |cs| == 0 then [] else [cs[0].centerNumber] + Numbers(cs[1..])
  }

  /** `result[key] = value`: replaces the entry with that key in place, or
      appends a new one. */
  function Assign(rs: seq<CenterBonus>, e: CenterBonus): (r: seq<CenterBonus>)
    requires UniqueKeys(rs)
    ensures UniqueKeys(r)
    ensures Keys(r) == if HasKey(rs, e.centerNumber) then Keys(rs) else Keys(rs) + [e.centerNumber]
    ensures e in r
    ensures forall x :: x in r ==> x == e || (x in rs && x.centerNumber != e.centerNumber)
    ensures forall x :: x in rs && x.centerNumber != e.centerNumber ==> x in r
    ensures forall x :: x in rs ==> HasKey(r, x.centerNumber)
  {
    var k := Repository.FirstIndex(rs, (x: CenterBonus) => x.centerNumber == e.centerNumber);
    match k
    case None =>
      assert Keys(rs + [e]) == Keys(rs) + [e.centerNumber];
      rs + [e]
    case Some(i) =>
      var r := rs[i := e];
      assert r[i] == e;
      assert rs[i] in rs && Keys(r) == Keys(rs);
      assert forall x :: x in rs && x.centerNumber != e.centerNumber ==> x in r by {
        forall x | x in rs && x.centerNumber != e.centerNumber ensures x in r {
          var j :| 0 <= j < |rs| && rs[j] == x;
          assert r[j] == x;
        }
      }
      r
  }

  ghost predicate HasKey(rs: seq<CenterBonus>, key: int)
  {
    exists x :: x in rs && x.centerNumber == key
  }

  /** `x` is the payout of one of `cs`. */
  ghost predicate FromCenters(x: CenterBonus, cs: seq<Center>)
  {
    exists c :: c in cs && x == CenterPayout(c)
  }

  /** The loop of `calculate` over the centers, writing into the dict. */
  function Collect(cs: seq<Center>, acc: seq<CenterBonus>): (r: seq<CenterBonus>)
    requires UniqueKeys(acc)
    ensures UniqueKeys(r)
    ensures forall x :: x in acc ==> HasKey(r, x.centerNumber)
    ensures forall c :: c in cs ==> HasKey(r, c.centerNumber)
    ensures forall x :: x in r ==> x in acc || FromCenters(x, cs)
    decreases |cs|
  {
    if |cs| == 0 then acc
    else
      var e := CenterPayout(cs[0]);
      var acc' := Assign(acc, e);
      var r := Collect(cs[1..], acc');
      CollectStep(cs, acc, acc', r);
      r
  }

  /** The bookkeeping of one iteration of `Collect`. */
  lemma CollectStep(cs: seq<Center>, acc: seq<CenterBonus>, acc': seq<CenterBonus>, r: seq<CenterBonus>)
    requires |cs| > 0 && UniqueKeys(acc)
    requires acc' == Assign(acc, CenterPayout(cs[0]))
    requires forall x :: x in acc' ==> HasKey(r, x.centerNumber)
    requires forall c :: c in cs[1..] ==> HasKey(r, c.centerNumber)
    requires forall x :: x in r ==> x in acc' || FromCenters(x, cs[1..])
    ensures forall x :: x in acc ==> HasKey(r, x.centerNumber)
    ensures forall c :: c in cs ==> HasKey(r, c.centerNumber)
    ensures forall x :: x in r ==> x in acc || FromCenters(x, cs)
  {
    var e := CenterPayout(cs[0]);
    forall x | x in acc
      ensures HasKey(r, x.centerNumber)
    {
      var y :| y in acc' && y.centerNumber == x.centerNumber;
    }
    forall c | c in cs
      ensures HasKey(r, c.centerNumber)
    {
      if c == cs[0] {
        assert e in acc';
      } else {
        assert c in cs[1..];
      }
    }
    forall x | x in r
      ensures x in acc || FromCenters(x, cs)
    {
      if x in acc' {
        if x == e {
          assert cs[0] in cs;
        }
      } else {
        var d :| d in cs[1..] && x == CenterPayout(d);
        assert d in cs;
      }
    }
  }

  /** `x` is the payout of the last of `cs` with its center number: a later
      assignment to the same key overwrites an earlier one. */
  ghost predicate LastFor(x: CenterBonus, cs: seq<Center>)
  {
    exists i :: 0 <= i < |cs| && x == CenterPayout(cs[i])
      && forall j :: i < j < |cs| ==> cs[j].centerNumber != x.centerNumber
  }

  /** The last write among `cs[1..]` is still the last among `cs`. */
  lemma LastForShift(x: CenterBonus, cs: seq<Center>)
    requires |cs| > 0 && LastFor(x, cs[1..])
    ensures LastFor(x, cs)
  {
    var i :| 0 <= i < |cs[1..]| && x == CenterPayout(cs[1..][i])
      && forall j :: i < j < |cs[1..]| ==> cs[1..][j].centerNumber != x.centerNumber;
    assert cs[i + 1] == cs[1..][i];
    assert forall j :: i + 1 < j < |cs| ==> cs[j] == cs[1..][j - 1];
  }

  /** Every value of the dict is the last write to its key; values still
      from `acc` have keys no center of `cs` writes. */
  lemma {:induction false} CollectLastWins(cs: seq<Center>, acc: seq<CenterBonus>)
    requires UniqueKeys(acc)
    ensures forall x :: x in Collect(cs, acc) ==>
      LastFor(x, cs) || (x in acc && forall c :: c in cs ==> c.centerNumber != x.centerNumber)
    decreases |cs|
  {
    if |cs| > 0 {
      var e := CenterPayout(cs[0]);
      var acc' := Assign(acc, e);
      CollectLastWins(cs[1..], acc');
      forall x | x in Collect(cs, acc)
        ensures LastFor(x, cs) || (x in acc && forall c :: c in cs ==> c.centerNumber != x.centerNumber)
      {
        assert x in Collect(cs[1..], acc');
        if LastFor(x, cs[1..]) {
          LastForShift(x, cs);
        } else if x == e {
          assert forall j :: 0 < j < |cs| ==> cs[j] in cs[1..];
          assert LastFor(x, cs) by { assert x == CenterPayout(cs[0]); }
        } else {
          assert forall c :: c in cs ==> c == cs[0] || c in cs[1..];
        }
      }
    }
  }

  /** One assignment, in deduplication terms. */
  lemma AssignKeys(acc: seq<CenterBonus>, e: CenterBonus)
    requires UniqueKeys(acc)
    ensures Keys(Assign(acc, e)) == Dedup(Keys(acc) + [e.centerNumber])
  {
    var k := e.centerNumber;
    DedupOfDistinct(Keys(acc));
    assert (Keys(acc) + [k])[..|Keys(acc)|] == Keys(acc);
    assert HasKey(acc, k) <==> k in Keys(acc) by {
      if HasKey(acc, k) {
        var y :| y in acc && y.centerNumber == k;
        var i :| 0 <= i < |acc| && acc[i] == y;
        assert Keys(acc)[i] == k;
      }
    }
  }

  /** The dict's keys are the center numbers in the order they were first
      written: a new key is appended, a repeated key keeps its place. */
  lemma {:induction false} CollectKeys(cs: seq<Center>, acc: seq<CenterBonus>)
    requires UniqueKeys(acc)
    ensures Keys(Collect(cs, acc)) == Dedup(Keys(acc) + Numbers(cs))
    decreases |cs|
  {
    if |cs| == 0 {
      DedupOfDistinct(Keys(acc));
      assert Keys(acc) + Numbers(cs) == Keys(acc);
    } else {
      var k, a, n := cs[0].centerNumber, Keys(acc), Numbers(cs[1..]);
      var acc' := Assign(acc, CenterPayout(cs[0]));
      assert Collect(cs, acc) == Collect(cs[1..], acc');
      CollectKeys(cs[1..], acc');
      AssignKeys(acc, CenterPayout(cs[0]));
      assert Keys(Collect(cs, acc)) == Dedup(Dedup(a + [k]) + n);
      DedupPrefix(a + [k], n);
      assert Numbers(cs) == [k] + n;
      AppendAssoc(a, [k], n);
    }
  }

  /** `calculate(owner)`: the payout of every center `owner` owns (among the
      first 100), keyed by center number, the last center winning a repeated
      number, the keys in the order of their first appearance. */
  function Calculate(centers: seq<Center>, owner: Id): (r: seq<CenterBonus>)
    ensures UniqueKeys(r)
    ensures forall c :: c in Repository.Where(centers, BinaryTree.OwnedBy(owner)) ==> HasKey(r, c.centerNumber)
    ensures forall x :: x in r ==> exists c :: c in centers && c.ownerId == owner && x == CenterPayout(c)
    ensures forall x :: x in r ==> LastFor(x, Repository.Where(centers, BinaryTree.OwnedBy(owner)))
    ensures Keys(r) == Dedup(Numbers(Repository.Where(centers, BinaryTree.OwnedBy(owner))))
  {
    var owned := Repository.Where(centers, BinaryTree.OwnedBy(owner));
    var r := Collect(owned, []);
    CollectLastWins(owned, []);
    CollectKeys(owned, []);
    assert Keys([]) + Numbers(owned) == Numbers(owned);
    assert forall x :: x in r ==> exists c :: c in centers && c.ownerId == owner && x == CenterPayout(c) by {
      forall x | x in r ensures exists c :: c in centers && c.ownerId == owner && x == CenterPayout(c) {
        assert FromCenters(x, owned);
        var c :| c in owned && x == CenterPayout(c);
      }
    }
    r
  }

  /** One entry of `bonuses_issued`. */
  datatype Issued = Issued(center: int, bonus: real)

  /** The dict `process_binary_impact` returns. */
  datatype Report = Report(userId: Id, issued: seq<Issued>, total: real)

  function IssuedTotal(issued: seq<Issued>): real
  {
    if |issued| == 0 then 0.0 else issued[0].bonus + IssuedTotal(issued[1..])
  }

  function BonusTotal(bs: seq<Bonus>): real
  {
    if |bs| == 0 then 0.0 else bs[0].amount + BonusTotal(bs[1..])
  }

  lemma {:induction false} BonusTotalAppend(a: seq<Bonus>, b: seq<Bonus>)
    ensures BonusTotal(a + b) == BonusTotal(a) + BonusTotal(b)
    decreases |a|
  {
    if |a| == 0 {
      assert a + b == b;
    } else {
      assert (a + b)[1..] == a[1..] + b;
      BonusTotalAppend(a[1..], b);
    }
  }

  const MissingArgument: string :=
    "move_funds_and_log_transaction() missing 1 required positional argument: 'transaction_type'"

  /** `process_binary_impact` as written: the centers are looked up with the
      user id as owner, and the transfer call omits the required transaction
      type, so the first positive bonus raises before anything is written. */
  function ProcessBinaryImpactAsWritten(db: Db, u: Id): (r: Result<(Db, Report), Failure>)
    ensures r.Err? <==> exists x :: x in Calculate(db.centers, u) && x.bonus > 0.0
    ensures r.Err? ==> r.error == TypeError(MissingArgument)
    ensures r.Ok? ==> r.value == (db, Report(u, [], 0.0))
  {
    var rs := Calculate(db.centers, u);
    if exists x :: x in rs && x.bonus > 0.0 then Err(TypeError(MissingArgument))
    else Ok((db, Report(u, [], 0.0)))
  }

  /** Centers are owned by profile ids: when no center's owner equals the
      user id, the as-written service finds nothing and pays nothing, even
      if the user's own profile owns paying centers. */
  lemma AsWrittenPaysNothing(db: Db, u: Id)
    requires forall c :: c in db.centers ==> c.ownerId != u
    ensures ProcessBinaryImpactAsWritten(db, u) == Ok((db, Report(u, [], 0.0)))
    ensures Calculate(db.centers, u) == []
  {
  }

  /** Under the key discipline that signup, placement, deletion and
      promotion keep, no center is owned by a user key, so the as-written
      service pays nothing to any user. */
  lemma AsWrittenPaysNoUser(db: Db, x: User)
    requires IdsApart(db)
    requires x in db.users
    ensures ProcessBinaryImpactAsWritten(db, x.id) == Ok((db, Report(x.id, [], 0.0)))
  {
    AsWrittenPaysNothing(db, x.id);
  }

  /** The note of each transfer. */
  function Note(center: int): string
  {
    "Бинарный бонус из центра " + IntToString(center)
  }

  /** The entries the loop pays: those with a positive bonus. */
  predicate Paying(e: CenterBonus)
  {
    e.bonus > 0.0
  }

  /** The `bonuses_issued` entries for the given payouts, in order. */
  function IssuedOf(es: seq<CenterBonus>): (r: seq<Issued>)
    ensures |r| == |es|
    decreases |es|
  {
    if |es| == 0 then []
    else [Issued(es[0].centerNumber, es[0].bonus)] + IssuedOf(es[1..])
  }

  /** The sum of the positive bonuses among the payouts. */
  function PayTotal(es: seq<CenterBonus>): (r: real)
    ensures r >= 0.0
    ensures (forall e :: e in es ==> !Paying(e)) ==> r == 0.0
    decreases |es|
  {
    if |es| == 0 then 0.0
    else (if Paying(es[0]) then es[0].bonus else 0.0) + PayTotal(es[1..])
  }

  /** `tx` is the completed bonus payment of the issued entry `i` from the
      company to `u`, noted with `note` of its center number. */
  ghost predicate PaidFromCompany(tx: Transaction, u: Id, i: Issued, note: int -> string)
  {
    tx == Transaction(tx.id, CompanyAccount, Some(u), i.bonus, 0.0, BonusPayment, Completed, None, note(i.center))
  }

  /** `txs'` extends the log `txs` by one company-to-`u` payment per issued
      entry, in order. */
  ghost predicate Logged(txs: seq<Transaction>, txs': seq<Transaction>, u: Id, issued: seq<Issued>, note: int -> string)
  {
    && |txs'| == |txs| + |issued| && txs'[..|txs|] == txs
    && forall k :: 0 <= k < |issued| ==> PaidFromCompany(txs'[|txs| + k], u, issued[k], note)
  }

  /** The failures a transfer can end with. */
  predicate TransferFailure(f: Failure)
  {
    f == AttributeError("balance") || f == HttpError(400, "Not enough funds") || f == ValueError("Wallet not found")
  }

  /** One transfer of the loop: the bonus of `e` from the company account
      to `u`'s BONUS wallet, noted with `note` of the center number. */
  function Transfer(ws: seq<Wallet>, txs: seq<Transaction>, u: Id, e: CenterBonus, note: int -> string)
    : (r: Result<(seq<Wallet>, seq<Transaction>), Failure>)
    ensures r.Ok? ==> Total(r.value.0) == Total(ws)
    ensures r.Ok? ==> |r.value.1| == |txs| + 1 && r.value.1[..|txs|] == txs
    ensures r.Ok? ==> PaidFromCompany(r.value.1[|txs|], u, Issued(e.centerNumber, e.bonus), note)
    ensures r.Err? ==> TransferFailure(r.error)
  {
    MoveFunds(ws, txs, CompanyAccount, u, e.bonus, BonusPayment, 0.0, None, note(e.centerNumber))
  }

  /** The paid BINARY bonus record written for each issued entry, in order. */
  function BonusesOf(issued: seq<Issued>, u: Id, period: string): (r: seq<Bonus>)
    ensures |r| == |issued|
    ensures forall k :: 0 <= k < |r| ==> r[k] == Bonus(u, Binary, issued[k].bonus, Rub, period, true)
    ensures BonusTotal(r) == IssuedTotal(issued)
    decreases |issued|
  {
    if |issued| == 0 then []
    else
      var r := [Bonus(u, Binary, issued[0].bonus, Rub, period, true)] + BonusesOf(issued[1..], u, period);
      assert r[1..] == BonusesOf(issued[1..], u, period);
      r
  }

  /** What a completed payment loop over `es` leaves behind, starting from
      the wallets `ws` and the log `txs`: the issued list is the positive
      bonuses in order, their sum is the sum due, the wallet total is kept,
      and the log grows by one company-to-`u` transfer per issued entry. */
  ghost predicate Paid(es: seq<CenterBonus>, ws: seq<Wallet>, txs: seq<Transaction>, u: Id, note: int -> string,
                       out: (seq<Wallet>, seq<Transaction>, seq<Issued>))
  {
    && out.2 == IssuedOf(Select(es, Paying))
    && IssuedTotal(out.2) == PayTotal(es)
    && Total(out.0) == Total(ws)
    && Logged(txs, out.1, u, out.2, note)
  }

  /** The payment loop: each positive bonus is moved from the company
      account and reported as issued, in order. The note of each transfer
      is `note` of its center number. */
  function Pay(es: seq<CenterBonus>, ws: seq<Wallet>, txs: seq<Transaction>, u: Id, note: int -> string)
    : (r: Result<(seq<Wallet>, seq<Transaction>, seq<Issued>), Failure>)
    ensures r.Ok? ==> Paid(es, ws, txs, u, note, r.value)
    ensures r.Err? ==> TransferFailure(r.error) && PayTotal(es) > 0.0
    decreases |es|
  {
    if |es| == 0 then Ok((ws, txs, []))
    else
      var e := es[0];
      if !Paying(e) then
        var r := Pay(es[1..], ws, txs, u, note);
        if r.Ok? then SkippedPaid(es, ws, txs, u, note, r.value); r else SkippedHead(es); r
      else
        PayingHead(es);
        match Transfer(ws, txs, u, e, note)
        case Err(f) => Err(f)
        case Ok(moved) =>
          match Pay(es[1..], moved.0, moved.1, u, note)
          case Err(f) => Err(f)
          case Ok(rest) =>
            PayingPaid(es, ws, txs, u, note, moved, rest);
            Ok((rest.0, rest.1, [Issued(e.centerNumber, e.bonus)] + rest.2))
  }

  /** A skipped entry leaves a completed loop over the rest complete. */
  lemma SkippedPaid(es: seq<CenterBonus>, ws: seq<Wallet>, txs: seq<Transaction>, u: Id, note: int -> string,
                    out: (seq<Wallet>, seq<Transaction>, seq<Issued>))
    requires |es| > 0 && !Paying(es[0])
    requires Paid(es[1..], ws, txs, u, note, out)
    ensures Paid(es, ws, txs, u, note, out)
  {
    SkippedHead(es);
  }

  /** A paid entry followed by a completed loop over the rest completes the
      loop over all of `es`. */
  lemma PayingPaid(es: seq<CenterBonus>, ws: seq<Wallet>, txs: seq<Transaction>, u: Id, note: int -> string,
                   moved: (seq<Wallet>, seq<Transaction>), rest: (seq<Wallet>, seq<Transaction>, seq<Issued>))
    requires |es| > 0 && Paying(es[0])
    requires Total(moved.0) == Total(ws)
    requires |moved.1| == |txs| + 1 && moved.1[..|txs|] == txs
    requires PaidFromCompany(moved.1[|txs|], u, Issued(es[0].centerNumber, es[0].bonus), note)
    requires Paid(es[1..], moved.0, moved.1, u, note, rest)
    ensures Paid(es, ws, txs, u, note, (rest.0, rest.1, [Issued(es[0].centerNumber, es[0].bonus)] + rest.2))
  {
    var first := Issued(es[0].centerNumber, es[0].bonus);
    var issued := [first] + rest.2;
    PayingHead(es);
    assert issued == IssuedOf(Select(es, Paying));
    assert issued[1..] == rest.2;
    assert IssuedTotal(issued) == PayTotal(es);
    assert Total(rest.0) == Total(ws);
    PayStep(txs, moved.1, rest.1, u, note, first, rest.2);
  }

  /** A paying first entry heads the issued list and adds to the sum due. */
  lemma PayingHead(es: seq<CenterBonus>)
    requires |es| > 0 && Paying(es[0])
    ensures IssuedOf(Select(es, Paying)) == [Issued(es[0].centerNumber, es[0].bonus)] + IssuedOf(Select(es[1..], Paying))
    ensures PayTotal(es) == es[0].bonus + PayTotal(es[1..])
  {
    assert Select(es, Paying) == [es[0]] + Select(es[1..], Paying);
  }

  /** A first entry that does not pay changes neither. */
  lemma SkippedHead(es: seq<CenterBonus>)
    requires |es| > 0 && !Paying(es[0])
    ensures IssuedOf(Select(es, Paying)) == IssuedOf(Select(es[1..], Paying))
    ensures PayTotal(es) == PayTotal(es[1..])
  {
  }

  /** One paying iteration of `Pay`: the transfer's log entry composed with
      the log of the rest of the loop. */
  lemma PayStep(txs: seq<Transaction>, txs1: seq<Transaction>, txs2: seq<Transaction>,
                u: Id, note: int -> string, first: Issued, rest: seq<Issued>)
    requires |txs1| == |txs| + 1 && txs1[..|txs|] == txs
    requires PaidFromCompany(txs1[|txs|], u, first, note)
    requires Logged(txs1, txs2, u, rest, note)
    ensures Logged(txs, txs2, u, [first] + rest, note)
  {
    assert txs2[..|txs|] == txs2[..|txs1|][..|txs|];
    assert txs2[|txs|] == txs2[..|txs1|][|txs|];
  }

  /** Whether the loop pays everything is decided by the payee's and the
      company's BONUS wallets and the company balance against the sum due;
      on success the company pays exactly that sum to the payee. */
  lemma {:induction false} PayOutcome(es: seq<CenterBonus>, ws: seq<Wallet>, txs: seq<Transaction>, u: Id, note: int -> string)
    requires u != CompanyAccount
    ensures Pay(es, ws, txs, u, note).Ok? <==>
      || (forall e :: e in es ==> !Paying(e))
      || (&& FindWallet(ws, CompanyAccount, BonusWallet).Some? && FindWallet(ws, u, BonusWallet).Some?
          && Balance(ws, CompanyAccount, BonusWallet) >= PayTotal(es))
    ensures Pay(es, ws, txs, u, note).Ok? ==>
      && Balance(Pay(es, ws, txs, u, note).value.0, CompanyAccount, BonusWallet) == Balance(ws, CompanyAccount, BonusWallet) - PayTotal(es)
      && Balance(Pay(es, ws, txs, u, note).value.0, u, BonusWallet) == Balance(ws, u, BonusWallet) + PayTotal(es)
    decreases |es|
  {
    if |es| > 0 {
      var e := es[0];
      assert e in es;
      assert forall x :: x in es[1..] ==> x in es;
      if !Paying(e) {
        PayOutcome(es[1..], ws, txs, u, note);
        assert (forall x :: x in es ==> !Paying(x)) <==> (forall x :: x in es[1..] ==> !Paying(x)) by {
          assert forall x :: x in es ==> x == e || x in es[1..];
        }
      } else {
        var mv := MoveFunds(ws, txs, CompanyAccount, u, e.bonus, BonusPayment, 0.0, None, note(e.centerNumber));
        if mv.Ok? {
          var ws1 := mv.value.0;
          SameWalletsFind(ws, ws1, CompanyAccount, BonusWallet);
          SameWalletsFind(ws, ws1, u, BonusWallet);
          PayOutcome(es[1..], ws1, mv.value.1, u, note);
        }
      }
    }
  }

  /** Every issued entry has a positive bonus. */
  lemma {:induction false} IssuedArePositive(es: seq<CenterBonus>)
    ensures forall i :: i in IssuedOf(Select(es, Paying)) ==> i.bonus > 0.0
    decreases |es|
  {
    if |es| > 0 {
      IssuedArePositive(es[1..]);
      if Paying(es[0]) {
        PayingHead(es);
      } else {
        SkippedHead(es);
      }
    }
  }

  /** `process_binary_impact` with the centers looked up by the user's
      profile id and the transfer typed as a bonus payment. */
  function ProcessBinaryImpact(db: Db, u: Id, now: Date): (r: Result<(Db, Report), Failure>)
    requires ValidDate(now)
    ensures ProfileOf(db.profiles, u).None? ==> r == Ok((db, Report(u, [], 0.0)))
    ensures ProfileOf(db.profiles, u).Some? ==>
      var due := Calculate(db.centers, ProfileOf(db.profiles, u).value.id);
      && (r.Ok? ==> r.value.1.issued == IssuedOf(Select(due, Paying)) && r.value.1.total == PayTotal(due))
      && (r.Err? ==> TransferFailure(r.error) && PayTotal(due) > 0.0)
    ensures r.Ok? ==> r.value.0 == db.(wallets := r.value.0.wallets, transactions := r.value.0.transactions, bonuses := r.value.0.bonuses)
    ensures r.Ok? ==> r.value.1.userId == u && r.value.1.total == IssuedTotal(r.value.1.issued)
    ensures r.Ok? ==> forall i :: i in r.value.1.issued ==> i.bonus > 0.0
    ensures r.Ok? ==> r.value.0.bonuses == db.bonuses + BonusesOf(r.value.1.issued, u, PeriodKey(now))
    ensures r.Ok? ==> Logged(db.transactions, r.value.0.transactions, u, r.value.1.issued, Note)
    ensures r.Ok? ==> Total(r.value.0.wallets) == Total(db.wallets)
  {
    match ProfileOf(db.profiles, u)
    case None => Ok((db, Report(u, [], 0.0)))
    case Some(p) =>
      var rs := Calculate(db.centers, p.id);
      match Pay(rs, db.wallets, db.transactions, u, Note)
      case Err(f) => Err(f)
      case Ok(paid) =>
        IssuedArePositive(rs);
        Ok((db.(wallets := paid.0, transactions := paid.1, bonuses := db.bonuses + BonusesOf(paid.2, u, PeriodKey(now))),
            Report(u, paid.2, IssuedTotal(paid.2))))
  }

  /** For a payee other than the company, the service pays every positive
      center bonus exactly when both BONUS wallets exist and the company
      balance covers their sum, and then moves that sum. */
  lemma ProcessBinaryImpactOutcome(db: Db, u: Id, now: Date)
    requires ValidDate(now) && u != CompanyAccount
    requires ProfileOf(db.profiles, u).Some?
    ensures var due := Calculate(db.centers, ProfileOf(db.profiles, u).value.id);
      var r := ProcessBinaryImpact(db, u, now);
      && (r.Ok? <==>
          || (forall e :: e in due ==> !Paying(e))
          || (&& FindWallet(db.wallets, CompanyAccount, BonusWallet).Some? && FindWallet(db.wallets, u, BonusWallet).Some?
              && Balance(db.wallets, CompanyAccount, BonusWallet) >= PayTotal(due)))
      && (r.Ok? ==>
          && Balance(r.value.0.wallets, CompanyAccount, BonusWallet) == Balance(db.wallets, CompanyAccount, BonusWallet) - PayTotal(due)
          && Balance(r.value.0.wallets, u, BonusWallet) == Balance(db.wallets, u, BonusWallet) + PayTotal(due))
  {
    var due := Calculate(db.centers, ProfileOf(db.profiles, u).value.id);
    PayOutcome(due, db.wallets, db.transactions, u, Note);
  }

  /** Centers whose bonus is not positive are skipped: with no positive
      bonus nothing is written. */
  lemma NoPositiveBonusWritesNothing(db: Db, u: Id, now: Date)
    requires ValidDate(now)
    requires ProfileOf(db.profiles, u).Some?
    requires forall x :: x in Calculate(db.centers, ProfileOf(db.profiles, u).value.id) ==> x.bonus <= 0.0
    ensures ProcessBinaryImpact(db, u, now).Ok?
    ensures ProcessBinaryImpact(db, u, now).value.0 == db
  {
    var rs := Calculate(db.centers, ProfileOf(db.profiles, u).value.id);
    PayNothing(rs, db.wallets, db.transactions, u, Note);
    assert db.bonuses + [] == db.bonuses;
  }

  lemma {:induction false} PayNothing(es: seq<CenterBonus>, ws: seq<Wallet>, txs: seq<Transaction>, u: Id, note: int -> string)
    requires forall x :: x in es ==> x.bonus <= 0.0
    ensures Pay(es, ws, txs, u, note) == Ok((ws, txs, []))
    decreases |es|
  {
    if |es| > 0 {
      assert es[0] in es;
      assert forall x :: x in es[1..] ==> x in es;
      PayNothing(es[1..], ws, txs, u, note);
    }
  }
}

=== FILE: binary_tree.dfy ===
/** BinaryTreeService: placement of a user's first business center under the
    placement sponsor's first center, and the placement cron. */
module BinaryTree {
  import opened Wrappers
  import opened Domain
  import opened Profiles
  import Repository
  import Seqs

  function OwnedBy(owner: Id): Center -> bool
  {
    (c: Center) => c.ownerId == owner
  }

  /** The sponsor's center number 1 among the (at most 100) centers
      `find_all(filters={"owner_id": ...})` returns. */
  function MainCenter(centers: seq<Center>, owner: Id): (r: Option<Center>)
    ensures r.Some? ==> r.value in centers && r.value.ownerId == owner && r.value.centerNumber == 1
    ensures var owned := Repository.Where(centers, OwnedBy(owner));
      r.None? <==> forall c :: c in owned ==> c.centerNumber != 1
    ensures var owned := Repository.Where(centers, OwnedBy(owner));
      r.Some? ==> exists i :: 0 <= i < |owned| && owned[i] == r.value && forall j :: 0 <= j < i ==> owned[j].centerNumber != 1
  {
    var owned := Repository.Where(centers, OwnedBy(owner));
    match Repository.FirstIndex(owned, (c: Center) => c.centerNumber == 1)
    case None => None
    case Some(i) => Some(owned[i])
  }

  /** The child of `parent` on `side`, if any. */
  function ChildAt(centers: seq<Center>, parent: Id, side: Side): (r: Option<Center>)
    ensures r.Some? ==> r.value in centers && r.value.parentId == Some(parent) && r.value.position == Some(side)
    ensures r.None? <==> forall c :: c in centers ==> !(c.parentId == Some(parent) && c.position == Some(side))
  {
    Repository.First(centers, (c: Center) => c.parentId == Some(parent) && c.position == Some(side))
  }

  /** At most one center sits on each side of a parent. */
  ghost predicate NoSharedSlot(centers: seq<Center>)
  {
    forall i, j :: 0 <= i < |centers| && 0 <= j < |centers| && i != j && centers[i].parentId.Some? ==>
      !(centers[i].parentId == centers[j].parentId && centers[i].position == centers[j].position)
  }

  /** Whether `auto_place_user` finds a free slot for `u`: the profile, its
      placement sponsor's profile and that sponsor's center number 1 exist,
      and one of that center's sides is free. */
  predicate CanPlace(profiles: seq<Profile>, centers: seq<Center>, u: Id)
  {
    && ProfileOf(profiles, u).Some?
    && ProfileOf(profiles, u).value.placementSponsorId.Some?
    && ProfileOf(profiles, ProfileOf(profiles, u).value.placementSponsorId.value).Some?
    && var sponsor := ProfileOf(profiles, ProfileOf(profiles, u).value.placementSponsorId.value).value;
       && MainCenter(centers, sponsor.id).Some?
       && !(ChildAt(centers, MainCenter(centers, sponsor.id).value.id, Left).Some?
            && ChildAt(centers, MainCenter(centers, sponsor.id).value.id, Right).Some?)
  }

  /** `auto_place_user`: the new center table and the new center's id. */
  function AutoPlaceUser(profiles: seq<Profile>, centers: seq<Center>, u: Id): (r: (seq<Center>, Option<Id>))
    ensures r.1.Some? <==> CanPlace(profiles, centers, u)
    ensures r.1.None? ==> r.0 == centers
    ensures r.1.Some? ==>
      && |r.0| == |centers| + 1
      && r.0[..|centers|] == centers
      && r.0[|centers|].id == r.1.value
      && r.1.value !in CenterIds(centers)
      && r.0[|centers|].ownerId == ProfileOf(profiles, u).value.id
      && r.0[|centers|].centerNumber == 1
      && r.0[|centers|].parentId.Some?
      && r.0[|centers|].position.Some?
      && (forall c :: c in centers ==>
            !(c.parentId == r.0[|centers|].parentId && c.position == r.0[|centers|].position))
      && (r.0[|centers|].position == Some(Right) ==> ChildAt(centers, r.0[|centers|].parentId.value, Left).Some?)
    ensures r.1.Some? ==>
      var me := ProfileOf(profiles, u).value;
      var root := MainCenter(centers, ProfileOf(profiles, me.placementSponsorId.value).value.id).value;
      var side := if ChildAt(centers, root.id, Left).None? then Left else Right;
      r.0[|centers|] == Center(r.1.value, me.id, 1, Some(root.id), Some(side), Some(0.0), Some(0.0))
  {
    match ProfileOf(profiles, u)
    case None => (centers, None)
    case Some(me) =>
      match me.placementSponsorId
      case None => (centers, None)
      case Some(s) =>
        match ProfileOf(profiles, s)
        case None => (centers, None)
        case Some(sponsor) =>
          match MainCenter(centers, sponsor.id)
          case None => (centers, None)
          case Some(root) =>
            var left := ChildAt(centers, root.id, Left);
            var right := ChildAt(centers, root.id, Right);
            if left.Some? && right.Some? then (centers, None)
            else
              var side := if left.None? then Left else Right;
              var id := NextId(CenterIds(centers));
              (centers + [Center(id, me.id, 1, Some(root.id), Some(side), Some(0.0), Some(0.0))], Some(id))
  }

  /** Placement never puts two centers on the same side of a parent. */
  lemma AutoPlaceKeepsSlots(profiles: seq<Profile>, centers: seq<Center>, u: Id)
    requires NoSharedSlot(centers)
    ensures NoSharedSlot(AutoPlaceUser(profiles, centers, u).0)
  {
    var r := AutoPlaceUser(profiles, centers, u);
    if r.1.Some? {
      var cs := r.0;
      var n := |centers|;
      forall i, j | 0 <= i < |cs| && 0 <= j < |cs| && i != j && cs[i].parentId.Some?
        ensures !(cs[i].parentId == cs[j].parentId && cs[i].position == cs[j].position)
      {
        if i == n {
          assert cs[j] == centers[j];
          assert centers[j] in centers;
        } else if j == n {
          assert cs[i] == centers[i];
          assert centers[i] in centers;
        } else {
          assert cs[i] == centers[i] && cs[j] == centers[j];
        }
      }
    }
  }

  /** After a placement the chosen slot holds the new center, and the
      user's profile owns a center, so a later cron run skips it. */
  lemma PlacementOccupiesSlot(profiles: seq<Profile>, centers: seq<Center>, u: Id)
    requires AutoPlaceUser(profiles, centers, u).1.Some?
    ensures var r := AutoPlaceUser(profiles, centers, u);
      var c := r.0[|centers|];
      ChildAt(r.0, c.parentId.value, c.position.value) == Some(c)
    ensures |Repository.Where(AutoPlaceUser(profiles, centers, u).0, OwnedBy(ProfileOf(profiles, u).value.id))| > 0
  {
    var r := AutoPlaceUser(profiles, centers, u);
    var c := r.0[|centers|];
    assert r.0 == centers + [c];
    assert c in r.0;
    assert c in Seqs.Select(r.0, OwnedBy(ProfileOf(profiles, u).value.id));
  }

  function HasRank(rank: Rank): Profile -> bool
  {
    (p: Profile) => p.currentRank == rank
  }

  /** One iteration of the cron's loop: the table after it and the ids it
      placed, none when the profile already owns a center or cannot be placed. */
  function Step(p: Profile, profiles: seq<Profile>, centers: seq<Center>): (r: (seq<Center>, seq<Id>))
    ensures |r.0| == |centers| + |r.1| && r.0[..|centers|] == centers
    ensures r.1 == [] || r.1 == [p.userId]
    ensures r.1 == [p.userId] <==> |Repository.Where(centers, OwnedBy(p.id))| == 0 && CanPlace(profiles, centers, p.userId)
    ensures |r.1| == 1 ==>
      ProfileOf(profiles, p.userId).Some? && r.0[|centers|].ownerId == ProfileOf(profiles, p.userId).value.id
  {
    if |Repository.Where(centers, OwnedBy(p.id))| > 0 then (centers, [])
    else
      var step := AutoPlaceUser(profiles, centers, p.userId);
      (step.0, if step.1.Some? then [p.userId] else [])
  }

  /** The loop of `run_placement_cron` over the eligible profiles: profiles
      that already own a center are skipped; the others are placed, and
      the user ids of those placed are collected. */
  function PlaceEach(eligible: seq<Profile>, profiles: seq<Profile>, centers: seq<Center>): (r: (seq<Center>, seq<Id>))
    ensures |r.0| == |centers| + |r.1|
    ensures r.0[..|centers|] == centers
    ensures |r.1| <= |eligible|
    ensures forall x :: x in r.1 ==> exists p :: p in eligible && p.userId == x
    ensures forall k :: 0 <= k < |r.1| ==>
      ProfileOf(profiles, r.1[k]).Some? && r.0[|centers| + k].ownerId == ProfileOf(profiles, r.1[k]).value.id
    decreases |eligible|
  {
    if |eligible| == 0 then (centers, [])
    else
      var st := Step(eligible[0], profiles, centers);
      var rest := PlaceEach(eligible[1..], profiles, st.0);
      PlaceEachStep(eligible, profiles, centers, st, rest);
      (rest.0, st.1 + rest.1)
  }

  /** The bookkeeping of one iteration of `PlaceEach`: the facts about the
      step and about the rest of the loop compose. */
  lemma PlaceEachStep(eligible: seq<Profile>, profiles: seq<Profile>, centers: seq<Center>,
                      st: (seq<Center>, seq<Id>), rest: (seq<Center>, seq<Id>))
    requires |eligible| > 0
    requires |st.0| == |centers| + |st.1| && st.0[..|centers|] == centers
    requires st.1 == [] || st.1 == [eligible[0].userId]
    requires |st.1| == 1 ==>
      ProfileOf(profiles, eligible[0].userId).Some? && st.0[|centers|].ownerId == ProfileOf(profiles, eligible[0].userId).value.id
    requires |rest.0| == |st.0| + |rest.1| && rest.0[..|st.0|] == st.0
    requires |rest.1| <= |eligible| - 1
    requires forall x :: x in rest.1 ==> exists p :: p in eligible[1..] && p.userId == x
    requires forall k :: 0 <= k < |rest.1| ==>
      ProfileOf(profiles, rest.1[k]).Some? && rest.0[|st.0| + k].ownerId == ProfileOf(profiles, rest.1[k]).value.id
    ensures |rest.0| == |centers| + |st.1 + rest.1| && rest.0[..|centers|] == centers
    ensures |st.1 + rest.1| <= |eligible|
    ensures forall x :: x in st.1 + rest.1 ==> exists p :: p in eligible && p.userId == x
    ensures forall k :: 0 <= k < |st.1 + rest.1| ==>
      ProfileOf(profiles, (st.1 + rest.1)[k]).Some?
      && rest.0[|centers| + k].ownerId == ProfileOf(profiles, (st.1 + rest.1)[k]).value.id
  {
    PlacedFromEligible(eligible, st.1, rest.1);
    assert rest.0[..|centers|] == centers by {
      assert rest.0[..|centers|] == rest.0[..|st.0|][..|centers|];
    }
    if |st.1| == 1 {
      assert rest.0[|centers|] == st.0[|centers|];
    }
  }

  /** Ids drawn from the tail of `eligible`, after at most its head's id,
      are all ids of `eligible`. */
  lemma PlacedFromEligible(eligible: seq<Profile>, head: seq<Id>, tail: seq<Id>)
    requires |eligible| > 0
    requires head == [] || head == [eligible[0].userId]
    requires forall x :: x in tail ==> exists q :: q in eligible[1..] && q.userId == x
    ensures forall x :: x in head + tail ==> exists q :: q in eligible && q.userId == x
  {
    forall x | x in head + tail ensures exists q :: q in eligible && q.userId == x {
      if x in tail {
        var q :| q in eligible[1..] && q.userId == x;
        assert q in eligible;
      } else {
        assert x == eligible[0].userId && eligible[0] in eligible;
      }
    }
  }

  /** `run_placement_cron`: places every 1-CARAT profile (among the first 100)
      that owns no center yet. */
  function RunPlacementCron(profiles: seq<Profile>, centers: seq<Center>): (r: (seq<Center>, seq<Id>))
    ensures |r.0| == |centers| + |r.1|
    ensures r.0[..|centers|] == centers
    ensures forall x :: x in r.1 ==> exists p :: p in profiles && p.userId == x && p.currentRank == Carat1
    ensures forall k :: 0 <= k < |r.1| ==>
      ProfileOf(profiles, r.1[k]).Some? && r.0[|centers| + k].ownerId == ProfileOf(profiles, r.1[k]).value.id
  {
    var eligible := Repository.Where(profiles, HasRank(Carat1));
    PlaceEach(eligible, profiles, centers)
  }

  /** The center table the cron's loop sees when it reaches `eligible[i]`. */
  function TableAt(eligible: seq<Profile>, profiles: seq<Profile>, centers: seq<Center>, i: nat): seq<Center>
    requires i <= |eligible|
  {
    PlaceEach(eligible[..i], profiles, centers).0
  }

  /** The loop over `eligible` is the loop over its first `i` profiles
      followed by the loop over the rest, from the table the first part left. */
  lemma {:induction false} PlaceEachSplit(eligible: seq<Profile>, profiles: seq<Profile>, centers: seq<Center>, i: nat)
    requires i <= |eligible|
    ensures var first := PlaceEach(eligible[..i], profiles, centers);
      var rest := PlaceEach(eligible[i..], profiles, first.0);
      PlaceEach(eligible, profiles, centers) == (rest.0, first.1 + rest.1)
    decreases i
  {
    if i == 0 {
      assert eligible[..0] == [] && eligible[0..] == eligible;
      assert PlaceEach([], profiles, centers) == (centers, []);
      assert [] + PlaceEach(eligible, profiles, centers).1 == PlaceEach(eligible, profiles, centers).1;
    } else {
      var pre := eligible[..i];
      var st := Step(eligible[0], profiles, centers);
      assert pre[0] == eligible[0];
      assert pre[1..] == eligible[1..][..i - 1];
      assert eligible[i..] == eligible[1..][i - 1..];
      var a := PlaceEach(pre[1..], profiles, st.0);
      var b := PlaceEach(eligible[i..], profiles, a.0);
      var whole := PlaceEach(eligible[1..], profiles, st.0);
      assert PlaceEach(eligible, profiles, centers) == (whole.0, st.1 + whole.1);
      assert PlaceEach(pre, profiles, centers) == (a.0, st.1 + a.1);
      PlaceEachSplit(eligible[1..], profiles, st.0, i - 1);
      assert whole == (b.0, a.1 + b.1);
      AppendAssoc(st.1, a.1, b.1);
    }
  }

  lemma AppendAssoc(x: seq<Id>, y: seq<Id>, z: seq<Id>)
    ensures x + (y + z) == (x + y) + z
  {
  }

  /** Completeness of the cron's loop: an eligible profile that owns no
      center and can be placed when the loop reaches it is placed. */
  lemma PlaceEachPlacesReady(eligible: seq<Profile>, profiles: seq<Profile>, centers: seq<Center>, i: nat)
    requires i < |eligible|
    requires |Repository.Where(TableAt(eligible, profiles, centers, i), OwnedBy(eligible[i].id))| == 0
    requires CanPlace(profiles, TableAt(eligible, profiles, centers, i), eligible[i].userId)
    ensures eligible[i].userId in PlaceEach(eligible, profiles, centers).1
  {
    PlaceEachSplit(eligible, profiles, centers, i);
    var t := TableAt(eligible, profiles, centers, i);
    assert eligible[i..][0] == eligible[i];
    assert Step(eligible[i], profiles, t).1 == [eligible[i].userId];
    assert eligible[i].userId in PlaceEach(eligible[i..], profiles, t).1;
  }

  /** The same for `run_placement_cron`: every 1-CARAT profile among the
      first 100 that owns no center and can be placed at its turn is placed. */
  lemma CronPlacesReady(profiles: seq<Profile>, centers: seq<Center>, i: nat)
    requires i < |Repository.Where(profiles, HasRank(Carat1))|
    requires var eligible := Repository.Where(profiles, HasRank(Carat1));
      && |Repository.Where(TableAt(eligible, profiles, centers, i), OwnedBy(eligible[i].id))| == 0
      && CanPlace(profiles, TableAt(eligible, profiles, centers, i), eligible[i].userId)
    ensures Repository.Where(profiles, HasRank(Carat1))[i].userId in RunPlacementCron(profiles, centers).1
  {
    PlaceEachPlacesReady(Repository.Where(profiles, HasRank(Carat1)), profiles, centers, i);
  }

  /** The cron keeps at most one center on each side of a parent. */
  lemma {:induction false} PlaceEachKeepsSlots(eligible: seq<Profile>, profiles: seq<Profile>, centers: seq<Center>)
    requires NoSharedSlot(centers)
    ensures NoSharedSlot(PlaceEach(eligible, profiles, centers).0)
    decreases |eligible|
  {
    if |eligible| > 0 {
      var p := eligible[0];
      if |Repository.Where(centers, OwnedBy(p.id))| == 0 {
        AutoPlaceKeepsSlots(profiles, centers, p.userId);
      }
      PlaceEachKeepsSlots(eligible[1..], profiles, Step(p, profiles, centers).0);
    }
  }

  lemma RunPlacementCronKeepsSlots(profiles: seq<Profile>, centers: seq<Center>)
    requires NoSharedSlot(centers)
    ensures NoSharedSlot(RunPlacementCron(profiles, centers).0)
  {
    PlaceEachKeepsSlots(Repository.Where(profiles, HasRank(Carat1)), profiles, centers);
  }

  /** Placement names the user's profile as owner, so it keeps center
      owners apart from user keys. */
  lemma AutoPlaceKeepsOwnersApart(users: seq<User>, profiles: seq<Profile>, centers: seq<Center>, u: Id)
    requires ProfilesApart(users, profiles) && OwnersApart(users, centers)
    ensures OwnersApart(users, AutoPlaceUser(profiles, centers, u).0)
  {
    var r := AutoPlaceUser(profiles, centers, u);
    forall c, x | c in r.0 && x in users ensures c.ownerId != x.id {
      var i :| 0 <= i < |r.0| && r.0[i] == c;
      if i < |centers| {
        assert r.0[..|centers|][i] == c;
      } else {
        assert ProfileOf(profiles, u).value in profiles;
      }
    }
  }

  /** The same for the whole cron run. */
  lemma CronKeepsOwnersApart(users: seq<User>, profiles: seq<Profile>, centers: seq<Center>)
    requires ProfilesApart(users, profiles) && OwnersApart(users, centers)
    ensures OwnersApart(users, RunPlacementCron(profiles, centers).0)
  {
    var r := RunPlacementCron(profiles, centers);
    forall c, x | c in r.0 && x in users ensures c.ownerId != x.id {
      var i :| 0 <= i < |r.0| && r.0[i] == c;
      if i < |centers| {
        assert r.0[..|centers|][i] == c;
      } else {
        var k := i - |centers|;
        assert ProfileOf(profiles, r.1[k]).value in profiles;
      }
    }
  }
}

=== FILE: club.dfy ===
/** ClubService: club from group volume, and the stored-club update. */
module ClubService {
  import opened Wrappers
  import opened Domain
  import opened Profiles

  /** The thresholds, tried from the top; PREMIER is also the fallback. */
  const ClubThresholds: seq<(real, Club)> :=
    [(25000.0, Premier), (15000.0, DiamondClub), (5000.0, GoldClub), (2000.0, CrystalClub)]

  /** Reference reading of a threshold table: the club of the first row whose
      threshold the volume reaches, else the fallback. */
  function FromTable(table: seq<(real, Club)>, v: real, fallback: Club): Club
  {
    if |table| == 0 then fallback
    else if v >= table[0].0 then table[0].1
    else FromTable(table[1..], v, fallback)
  }

  /** `determine_club`. */
  function DetermineClub(v: real): (c: Club)
    ensures c == DiamondClub <==> 15000.0 <= v < 25000.0
    ensures c == GoldClub <==> 5000.0 <= v < 15000.0
    ensures c == CrystalClub <==> 2000.0 <= v < 5000.0
    ensures c == Premier <==> v < 2000.0 || 25000.0 <= v
  {
    if v >= 25000.0 then Premier
    else if v >= 15000.0 then DiamondClub
    else if v >= 5000.0 then GoldClub
    else if v >= 2000.0 then CrystalClub
    else Premier
  }

  lemma DetermineClubIsTable(v: real)
    ensures DetermineClub(v) == FromTable(ClubThresholds, v, Premier)
  {
    var t0 := ClubThresholds;
    var t1 := [(15000.0, DiamondClub), (5000.0, GoldClub), (2000.0, CrystalClub)];
    var t2 := [(5000.0, GoldClub), (2000.0, CrystalClub)];
    var t3 := [(2000.0, CrystalClub)];
    assert t0[1..] == t1 && t1[1..] == t2 && t2[1..] == t3 && t3[1..] == [];
    assert FromTable(t3, v, Premier) == if v >= 2000.0 then CrystalClub else Premier;
    assert FromTable(t2, v, Premier) == if v >= 5000.0 then GoldClub else FromTable(t3, v, Premier);
    assert FromTable(t1, v, Premier) == if v >= 15000.0 then DiamondClub else FromTable(t2, v, Premier);
  }

  /** Boundaries are inclusive. */
  lemma ClubBoundaries()
    ensures DetermineClub(5000.0) == GoldClub
    ensures DetermineClub(4999.99) == CrystalClub
    ensures DetermineClub(25000.0) == Premier
    ensures DetermineClub(1999.99) == Premier
  {
  }

  /** Declaration position of a club in ClubType. */
  function ClubIndex(c: Club): nat
  {
    match c
    case Premier => 0
    case GoldClub => 1
    case CrystalClub => 2
    case DiamondClub => 3
  }

  /** More volume can mean a lower club, both at 25000 and between 4999.99
      and 5000. */
  lemma ClubNotMonotone()
    ensures exists v1: real, v2: real :: v1 < v2 && ClubIndex(DetermineClub(v1)) > ClubIndex(DetermineClub(v2))
  {
    assert ClubIndex(DetermineClub(24999.99)) > ClubIndex(DetermineClub(25000.0));
  }

  /** `check_and_update_user_club`: the stored profiles and the club reported. */
  function CheckAndUpdateUserClub(profiles: seq<Profile>, u: Id): (r: (seq<Profile>, Option<Club>))
    ensures ProfileOf(profiles, u).None? ==> r == (profiles, None)
    ensures ProfileOf(profiles, u).Some? ==> r.1 == Some(DetermineClub(ProfileOf(profiles, u).value.groupVolume))
    ensures ProfileOf(profiles, u).Some? && ProfileOf(profiles, u).value.currentClub == r.1.value ==> r.0 == profiles
    ensures ProfileOf(profiles, u).Some? ==>
      OnlyChanged(profiles, r.0, ProfileIndex(profiles, u).value,
                  ProfileOf(profiles, u).value.(currentClub := r.1.value))
  {
    match ProfileIndex(profiles, u)
    case None => (profiles, None)
    case Some(i) =>
      var p := profiles[i];
      var club := DetermineClub(p.groupVolume);
      if club != p.currentClub then (profiles[i := p.(currentClub := club)], Some(club))
      else
        assert profiles[i := p.(currentClub := club)] == profiles;
        (profiles, Some(p.currentClub))
  }

  /** A second call right after the first writes nothing and reports the same club. */
  lemma UpdateClubIdempotent(profiles: seq<Profile>, u: Id)
    ensures CheckAndUpdateUserClub(CheckAndUpdateUserClub(profiles, u).0, u)
         == (CheckAndUpdateUserClub(profiles, u).0, CheckAndUpdateUserClub(profiles, u).1)
  {
    var r := CheckAndUpdateUserClub(profiles, u);
    match ProfileIndex(profiles, u)
    case None =>
    case Some(i) =>
      var ps := r.0;
      assert ps[i].userId == u;
      assert forall j :: 0 <= j < i ==> ps[j].userId != u;
      assert ProfileIndex(ps, u) == Some(i);
  }
}

=== FILE: domain.dfy ===
/** Records and enumerations of the MLM backend, and the in-memory database
    the services act on. Every table is a sequence in storage order. */
module Domain {
  import opened Wrappers

  /** Primary keys (UUIDs in the source) are opaque naturals. The company
      account UUID 00000000-0000-0000-0000-000000000001 is the number 1. */
  type Id = nat

  const CompanyAccount: Id := 1

  /** MLMRankType, in declaration order. */
  datatype Rank =
    | Newbie | Bronze | Silver | Gold | Carat1 | Carat2 | Carat3 | Crystal | Rubin
    | Sapphire | Emerald | Diamond | BlackDiamond | RedDiamond | GreenDiamond
    | BlueDiamond | VioletDiamond | PurpleDiamond

  /** ClubType, in declaration order. */
  datatype Club = Premier | GoldClub | CrystalClub | DiamondClub

  /** BonusType. `Generation` is written by the generation-bonus service but
      is NOT a member of the source's enumeration; see `Declared`. */
  datatype BonusType =
    | Mentor | Retail | Accumulative | Binary | Development | Sponsor | Matching
    | Leadership | Generation

  /** Whether the source's BonusType enumeration declares this member. */
  predicate Declared(t: BonusType)
  {
    !t.Generation?
  }

  datatype ContractType = Basic | Startup | Business

  /** The transaction kinds the services write (`Purchase` is the
      purchase-service enumeration's member, the others TransactionType's). */
  datatype TransactionType = Purchase | RetailSale | NetworkSale | BonusPayment

  datatype TransactionStatus = Pending | Failed | Completed

  datatype Currency = Rub | Eur | Kzt | Try | Uzs

  datatype WalletType = BonusWallet | GiftWallet

  datatype Role = Client | Manager | MentorRole | Distributor | Admin

  datatype Side = Left | Right

  datatype InteractionType = PurchaseInteraction

  /** Calendar date; the clock is a parameter of every operation that reads it. */
  datatype Date = Date(year: nat, month: nat, day: nat)

  predicate DateLe(a: Date, b: Date)
  {
    a.year < b.year || (a.year == b.year && (a.month < b.month || (a.month == b.month && a.day <= b.day)))
  }

  datatype User = User(
    id: Id,
    email: string,
    role: Role,
    referralCode: string,
    sponsorId: Option<Id>,
    passwordHash: string,
    cashBalance: real,
    pvBalance: real,
    isDistributor: bool)

  datatype Profile = Profile(
    id: Id,
    userId: Id,
    contractType: ContractType,
    currentRank: Rank,
    currentClub: Club,
    personalVolume: real,
    groupVolume: real,
    accumulatedVolume: real,
    binaryVolumeLeft: real,
    binaryVolumeRight: real,
    sponsorId: Option<Id>,
    placementSponsorId: Option<Id>,
    mentorId: Option<Id>)

  /** Closure-table row: `ancestor` is `level` sponsorship steps above `descendant`. */
  datatype Edge = Edge(ancestor: Id, descendant: Id, level: int)

  /** Binary-tree node. Volumes may be NULL in storage. */
  datatype Center = Center(
    id: Id,
    ownerId: Id,
    centerNumber: int,
    parentId: Option<Id>,
    position: Option<Side>,
    leftVolume: Option<real>,
    rightVolume: Option<real>)

  datatype Activity = Activity(userId: Id, periodStart: Date, periodEnd: Date, personalVolume: real)

  datatype Bonus = Bonus(
    userId: Id,
    bonusType: BonusType,
    amount: real,
    currency: Currency,
    period: string,
    isPaid: bool)

  datatype RankHistory = RankHistory(
    userId: Id,
    rank: Rank,
    club: Club,
    period: string,
    groupVolume: real,
    personalVolume: real)

  datatype MatrixEntry = MatrixEntry(rank: Rank, generation: int, percentage: real)

  datatype Wallet = Wallet(id: Id, userId: Id, currency: Currency, kind: WalletType, balance: real)

  datatype Transaction = Transaction(
    id: Id,
    buyerId: Id,
    sellerId: Option<Id>,
    cashAmount: real,
    pvAmount: real,
    kind: TransactionType,
    status: TransactionStatus,
    productId: Option<Id>,
    note: string)

  datatype Product = Product(id: Id, price: real, pvValue: real, isActive: bool)

  datatype CartItem = CartItem(userId: Id, productId: Id)

  datatype Interaction = Interaction(userId: Id, productId: Id, kind: InteractionType, pvAwarded: real)

  datatype ExchangeRate = ExchangeRate(fromCurrency: Currency, toCurrency: Currency, rate: real)

  /** The whole database. `companyBalance` is the company's cash account
      credited with the company share of a sale. */
  datatype Db = Db(
    users: seq<User>,
    profiles: seq<Profile>,
    edges: seq<Edge>,
    centers: seq<Center>,
    activities: seq<Activity>,
    bonuses: seq<Bonus>,
    history: seq<RankHistory>,
    matrix: seq<MatrixEntry>,
    wallets: seq<Wallet>,
    transactions: seq<Transaction>,
    products: seq<Product>,
    cart: seq<CartItem>,
    interactions: seq<Interaction>,
    rates: seq<ExchangeRate>,
    companyBalance: real)

  /** The exception (or HTTP error) an operation ends with. */
  datatype Failure =
    | ValueError(message: string)
    | HttpError(status: nat, detail: string)
    | AttributeError(name: string)
    | TypeError(message: string)
    | NameError(name: string)
    /** A Pydantic schema rejected its input; `field` names the field. */
    | ValidationError(field: string)

  function MaxOf(ids: seq<Id>): (m: Id)
    ensures forall i :: 0 <= i < |ids| ==> ids[i] <= m
  {
    if |ids| == 0 then 0
    else var rest := MaxOf(ids[1..]); if ids[0] > rest then ids[0] else rest
  }

  /** A key not yet used: stands for the source's `uuid4()`. */
  function NextId(ids: seq<Id>): (r: Id)
    ensures r !in ids
    ensures r > 0
  {
    MaxOf(ids) + 1
  }

  /** One id column of a table, in storage order. */
  function Column<T>(xs: seq<T>, f: T -> Id): (r: seq<Id>)
    ensures |r| == |xs|
    ensures forall x :: x in xs ==> f(x) in r
    decreases |xs|
  {
    if |xs| == 0 then [] else [f(xs[0])] + Column(xs[1..], f)
  }

  /** Every id the database holds in a column that names a person: user
      and profile keys and every user or profile reference. A key drawn
      outside this list is as fresh as a `uuid4()` across tables. */
  function PersonIds(db: Db): seq<Id>
  {
    UserIds(db.users) + ProfileIds(db.profiles)
    + Column(db.profiles, (p: Profile) => p.userId)
    + Column(db.centers, (c: Center) => c.ownerId)
    + Column(db.history, (h: RankHistory) => h.userId)
    + Column(db.interactions, (x: Interaction) => x.userId)
    + Column(db.cart, (x: CartItem) => x.userId)
    + Column(db.activities, (x: Activity) => x.userId)
    + Column(db.transactions, (t: Transaction) => t.buyerId)
    + Column(db.bonuses, (b: Bonus) => b.userId)
    + Column(db.edges, (e: Edge) => e.ancestor)
    + Column(db.edges, (e: Edge) => e.descendant)
  }

  /** No profile key is also a user key. */
  ghost predicate ProfilesApart(users: seq<User>, profiles: seq<Profile>)
  {
    forall p, x :: p in profiles && x in users ==> p.id != x.id
  }

  /** Every center owner is a profile key (`user_mlm.id`), never a user key. */
  ghost predicate OwnersApart(users: seq<User>, centers: seq<Center>)
  {
    forall c, x :: c in centers && x in users ==> c.ownerId != x.id
  }

  /** Rank-history rows name profiles (`user_mlm.id`), never user keys. */
  ghost predicate HistoryApart(users: seq<User>, history: seq<RankHistory>)
  {
    forall h, x :: h in history && x in users ==> h.userId != x.id
  }

  /** The key discipline uuid4 gives the source for free: the columns that
      hold `user_mlm.id` never hold a `users.id`. */
  ghost predicate IdsApart(db: Db)
  {
    && ProfilesApart(db.users, db.profiles)
    && OwnersApart(db.users, db.centers)
    && HistoryApart(db.users, db.history)
  }

  function UserIds(users: seq<User>): seq<Id> { seq(|users|, i requires 0 <= i < |users| => users[i].id) }
  function ProfileIds(ps: seq<Profile>): seq<Id> { seq(|ps|, i requires 0 <= i < |ps| => ps[i].id) }
  function CenterIds(cs: seq<Center>): seq<Id> { seq(|cs|, i requires 0 <= i < |cs| => cs[i].id) }
  function WalletIds(ws: seq<Wallet>): seq<Id> { seq(|ws|, i requires 0 <= i < |ws| => ws[i].id) }
  function TransactionIds(ts: seq<Transaction>): seq<Id> { seq(|ts|, i requires 0 <= i < |ts| => ts[i].id) }
}

=== FILE: exchange_rate.dfy ===
/** ExchangeRateService: a table of directed currency-pair rates. */
module ExchangeRates {
  import opened Wrappers
  import opened Money
  import opened Domain
  import Repository

  /** Filter `{"from_currency": a, "to_currency": b}`. */
  function Pair(a: Currency, b: Currency): ExchangeRate -> bool
  {
    (x: ExchangeRate) => x.fromCurrency == a && x.toCurrency == b
  }

  /** The first row for the ordered pair. */
  function FindRate(rates: seq<ExchangeRate>, a: Currency, b: Currency): (r: Option<ExchangeRate>)
    ensures r.Some? ==> r.value in rates && r.value.fromCurrency == a && r.value.toCurrency == b
    ensures r.Some? ==> Repository.IsFirst(rates, Pair(a, b), r.value)
    ensures r.None? <==> forall x :: x in rates ==> !(x.fromCurrency == a && x.toCurrency == b)
  {
    Repository.First(rates, Pair(a, b))
  }

  /** `get_rate`: 1 for a currency to itself, without reading the table;
      otherwise the stored rate, or ValueError when the pair has no row. */
  function GetRate(rates: seq<ExchangeRate>, a: Currency, b: Currency): (r: Result<real, Failure>)
    ensures a == b ==> r == Ok(1.0)
    ensures a != b ==> (r.Err? <==> forall x :: x in rates ==> !(x.fromCurrency == a && x.toCurrency == b))
    ensures a != b && r.Ok? ==> exists x :: x in rates && x.fromCurrency == a && x.toCurrency == b && x.rate == r.value
    ensures r.Err? ==> r.error.ValueError?
  {
    if a == b then Ok(1.0)
    else match FindRate(rates, a, b)
      case None => Err(ValueError("Exchange rate not found"))
      case Some(x) => Ok(x.rate)
  }

  /** At most one row per ordered pair. */
  ghost predicate Unique(rates: seq<ExchangeRate>)
  {
    forall i, j :: 0 <= i < j < |rates| ==>
      !(rates[i].fromCurrency == rates[j].fromCurrency && rates[i].toCurrency == rates[j].toCurrency)
  }

  /** `set_rate`: update the pair's first row, or add one. */
  function SetRate(rates: seq<ExchangeRate>, a: Currency, b: Currency, rate: real): (r: seq<ExchangeRate>)
    ensures FindRate(r, a, b) == Some(ExchangeRate(a, b, rate))
    ensures forall c, d :: (c, d) != (a, b) ==> FindRate(r, c, d) == FindRate(rates, c, d)
    ensures Unique(rates) ==> Unique(r)
    ensures FindRate(rates, a, b).Some? ==> |r| == |rates|
    ensures FindRate(rates, a, b).None? ==> r == rates + [ExchangeRate(a, b, rate)]
  {
    match Repository.FirstIndex(rates, Pair(a, b))
    case Some(i) =>
      var r := rates[i := ExchangeRate(a, b, rate)];
      SetKeepsLookups(rates, i, a, b, rate);
      r
    case None =>
      var r := rates + [ExchangeRate(a, b, rate)];
      AppendKeepsLookups(rates, a, b, rate);
      r
  }

  lemma SetKeepsLookups(rates: seq<ExchangeRate>, i: nat, a: Currency, b: Currency, rate: real)
    requires Repository.FirstIndex(rates, Pair(a, b)) == Some(i)
    ensures i < |rates|
    ensures FindRate(rates[i := ExchangeRate(a, b, rate)], a, b) == Some(ExchangeRate(a, b, rate))
    ensures forall c, d :: (c, d) != (a, b) ==> FindRate(rates[i := ExchangeRate(a, b, rate)], c, d) == FindRate(rates, c, d)
    ensures Unique(rates) ==> Unique(rates[i := ExchangeRate(a, b, rate)])
  {
    var r := rates[i := ExchangeRate(a, b, rate)];
    assert Pair(a, b)(r[i]);
    forall c, d | (c, d) != (a, b)
      ensures FindRate(r, c, d) == FindRate(rates, c, d)
    {
      forall k | 0 <= k < |rates| ensures Pair(c, d)(r[k]) == Pair(c, d)(rates[k]) {
        if k == i { assert Pair(a, b)(rates[i]); }
      }
      FirstOfSamePredicate(rates, r, Pair(c, d));
    }
    FirstOfSamePredicate2(rates, r, i, Pair(a, b));
  }

  /** Two sequences that agree on the predicate pointwise agree on the first match. */
  lemma {:induction false} FirstOfSamePredicate(s: seq<ExchangeRate>, t: seq<ExchangeRate>, p: ExchangeRate -> bool)
    requires |s| == |t|
    requires forall k :: 0 <= k < |s| ==> p(t[k]) == p(s[k])
    requires forall k :: 0 <= k < |s| && p(s[k]) ==> t[k] == s[k]
    ensures Repository.First(t, p) == Repository.First(s, p)
  {
    var a := Repository.FirstIndex(s, p);
    var b := Repository.FirstIndex(t, p);
    if a.Some? && b.Some? {
      assert a.value == b.value;
    }
  }

  /** Replacing the first match by another match makes it the first match. */
  lemma FirstOfSamePredicate2(s: seq<ExchangeRate>, t: seq<ExchangeRate>, i: nat, p: ExchangeRate -> bool)
    requires Repository.FirstIndex(s, p) == Some(i)
    requires i < |s| == |t| && p(t[i])
    requires forall k :: 0 <= k < |s| && k != i ==> t[k] == s[k]
    ensures Repository.First(t, p) == Some(t[i])
  {
    var b := Repository.FirstIndex(t, p);
    assert b.Some?;
    assert b.value == i;
  }

  lemma AppendKeepsLookups(rates: seq<ExchangeRate>, a: Currency, b: Currency, rate: real)
    requires Repository.FirstIndex(rates, Pair(a, b)).None?
    ensures FindRate(rates + [ExchangeRate(a, b, rate)], a, b) == Some(ExchangeRate(a, b, rate))
    ensures forall c, d :: (c, d) != (a, b) ==> FindRate(rates + [ExchangeRate(a, b, rate)], c, d) == FindRate(rates, c, d)
    ensures Unique(rates) ==> Unique(rates + [ExchangeRate(a, b, rate)])
  {
    var r := rates + [ExchangeRate(a, b, rate)];
    forall c, d | (c, d) != (a, b)
      ensures FindRate(r, c, d) == FindRate(rates, c, d)
    {
      assert forall j :: 0 <= j < |rates| ==> r[j] == rates[j];
      assert !Pair(c, d)(r[|rates|]);
      FirstOfPrefix(rates, r, Pair(c, d));
    }
    var y := Repository.FirstIndex(r, Pair(a, b));
    assert Pair(a, b)(r[|rates|]);
    assert y.Some? && y.value == |rates|;
  }

  /** Appending a non-matching row does not move the first match. */
  lemma FirstOfPrefix(s: seq<ExchangeRate>, t: seq<ExchangeRate>, p: ExchangeRate -> bool)
    requires |t| == |s| + 1 && !p(t[|s|])
    requires forall j :: 0 <= j < |s| ==> t[j] == s[j]
    ensures Repository.First(t, p) == Repository.First(s, p)
  {
    var x := Repository.FirstIndex(s, p);
    var y := Repository.FirstIndex(t, p);
    if y.Some? {
      assert y.value < |s|;
      assert x.Some?;
      assert x.value == y.value;
    }
  }

  /** `amount` converted at `rate`, in cents. */
  function Converted(amount: real, rate: real): (r: real)
    ensures IsCents(r)
  {
    Quantize(amount * rate)
  }

  /** After `set_rate(a, b, rate)` with a ≠ b, `get_rate(a, b)` is `rate`, and
      every other ordered pair, the reverse one included, reads as before. */
  lemma SetThenGet(rates: seq<ExchangeRate>, a: Currency, b: Currency, rate: real, c: Currency, d: Currency)
    requires a != b
    ensures GetRate(SetRate(rates, a, b, rate), a, b) == Ok(rate)
    ensures (c, d) != (a, b) ==> GetRate(SetRate(rates, a, b, rate), c, d) == GetRate(rates, c, d)
  {
    var r := SetRate(rates, a, b, rate);
    if (c, d) != (a, b) && c != d {
      assert FindRate(r, c, d) == FindRate(rates, c, d);
    }
  }

  /** `convert`: the amount times the rate, quantized to cents. */
  function Convert(rates: seq<ExchangeRate>, amount: real, a: Currency, b: Currency): (r: Result<real, Failure>)
    ensures r.Err? <==> GetRate(rates, a, b).Err?
    ensures r.Ok? ==> r.value == Converted(amount, GetRate(rates, a, b).value) && IsCents(r.value)
    ensures a == b ==> r == Ok(Quantize(amount))
  {
    match GetRate(rates, a, b)
    case Err(e) => Err(e)
    case Ok(rate) => Ok(Converted(amount, rate))
  }

  /** Converting a whole-cent amount to its own currency gives it back. */
  lemma ConvertSameCurrency(rates: seq<ExchangeRate>, amount: real, c: Currency)
    requires IsCents(amount)
    ensures Convert(rates, amount, c, c) == Ok(amount)
  {
    QuantizeIdempotent(amount);
  }
}

=== FILE: generation_bonus.dfy ===
/** GenerationBonusService: uplines up to seven levels above a recipient of a
    paid BINARY bonus get a percentage of it, by rank and generation. */
module GenerationBonus {
  import opened Wrappers
  import opened Money
  import opened Domain
  import opened Profiles
  import opened Periods
  import Repository
  import Hierarchy
  import Seqs

  /** Deepest generation that is paid. */
  const MaxGeneration: int := 7

  /** Filter of the paid BINARY bonuses of a period. */
  function PaidBinaryIn(period: string): Bonus -> bool
  {
    (b: Bonus) => b.bonusType == Binary && b.period == period && b.isPaid
  }

  /** `period_key` defaults to the current month when it is missing or empty. */
  function ResolvePeriod(period: string, now: Date): (r: string)
    requires ValidDate(now)
    ensures period != "" ==> r == period
    ensures period == "" ==> r == PeriodKey(now)
  {
    if period == "" then PeriodKey(now) else period
  }

  /** Filter `{"rank": rank, "generation": generation}`. */
  function RowFor(rank: Rank, generation: int): MatrixEntry -> bool
  {
    (m: MatrixEntry) => m.rank == rank && m.generation == generation
  }

  /** The matrix row for (rank, generation): the first one stored. */
  function MatrixEntryFor(matrix: seq<MatrixEntry>, rank: Rank, generation: int): (r: Option<MatrixEntry>)
    ensures r.Some? ==> r.value in matrix && r.value.rank == rank && r.value.generation == generation
    ensures r.Some? ==> Repository.IsFirst(matrix, RowFor(rank, generation), r.value)
    ensures r.None? <==> forall m :: m in matrix ==> !(m.rank == rank && m.generation == generation)
  {
    Repository.First(matrix, RowFor(rank, generation))
  }

  /** An upline row is eligible when it is at most seven levels up, and the
      upline has a profile whose rank has a matrix row for that generation. */
  predicate Eligible(up: Edge, profiles: seq<Profile>, matrix: seq<MatrixEntry>)
  {
    && up.level <= MaxGeneration
    && ProfileOf(profiles, up.ancestor).Some?
    && MatrixEntryFor(matrix, ProfileOf(profiles, up.ancestor).value.currentRank, up.level).Some?
  }

  /** `percentage` percent of `amount`, quantized to cents. */
  function Percent(amount: real, percentage: real): (r: real)
    ensures IsCents(r)
    ensures amount * percentage / 100.0 - 0.005 <= r <= amount * percentage / 100.0 + 0.005
  {
    Quantize(amount * percentage / 100.0)
  }

  /** The upline's share of a binary bonus, when eligible. */
  function Share(b: Bonus, up: Edge, profiles: seq<Profile>, matrix: seq<MatrixEntry>): (r: Option<real>)
    ensures r.Some? <==> Eligible(up, profiles, matrix)
    ensures r.Some? ==> IsCents(r.value)
    ensures r.Some? ==> var rank := ProfileOf(profiles, up.ancestor).value.currentRank;
      r.value == Percent(b.amount, MatrixEntryFor(matrix, rank, up.level).value.percentage)
  {
    if up.level > MaxGeneration then None
    else match ProfileOf(profiles, up.ancestor)
      case None => None
      case Some(p) =>
        match MatrixEntryFor(matrix, p.currentRank, up.level)
        case None => None
        case Some(m) =>
          Some(Percent(b.amount, m.percentage))
  }

  /** The record created for an upline. */
  function GrantFor(up: Edge, amount: real, period: string): Bonus
  {
    Bonus(up.ancestor, Generation, amount, Rub, period, true)
  }

  /** A created record: GENERATION, paid, RUB, in the period, positive. */
  predicate WellFormedGrant(g: Bonus, period: string)
  {
    g.bonusType == Generation && g.isPaid && g.currency == Rub && g.period == period && g.amount > 0.0 && IsCents(g.amount)
  }

  /** `g` comes from binary bonus `b` through an eligible upline row of its recipient. */
  ghost predicate GrantedFrom(g: Bonus, b: Bonus, edges: seq<Edge>, profiles: seq<Profile>, matrix: seq<MatrixEntry>, period: string)
  {
    exists up :: up in Repository.Where(edges, Hierarchy.Into(b.userId))
      && Share(b, up, profiles, matrix) == Some(g.amount) && g == GrantFor(up, g.amount, period)
  }

  /** The upline rows that yield a record: eligible, with a positive share. */
  function Paying(b: Bonus, profiles: seq<Profile>, matrix: seq<MatrixEntry>): Edge -> bool
  {
    (up: Edge) => Share(b, up, profiles, matrix).Some? && Share(b, up, profiles, matrix).value > 0.0
  }

  /** The inner loop over one recipient's uplines: exactly one record per
      paying row, in the order of the rows. */
  function UplineGrants(b: Bonus, ups: seq<Edge>, profiles: seq<Profile>, matrix: seq<MatrixEntry>, period: string)
    : (r: seq<Bonus>)
    ensures forall g :: g in r ==> WellFormedGrant(g, period)
    ensures forall g :: g in r ==> exists up :: up in ups && Share(b, up, profiles, matrix) == Some(g.amount) && g == GrantFor(up, g.amount, period)
    ensures forall up :: up in ups && Share(b, up, profiles, matrix).Some? && Share(b, up, profiles, matrix).value > 0.0 ==>
      GrantFor(up, Share(b, up, profiles, matrix).value, period) in r
    ensures |r| <= |ups|
    decreases |ups|
  {
    if |ups| == 0 then []
    else
      var rest := UplineGrants(b, ups[1..], profiles, matrix, period);
      var here := match Share(b, ups[0], profiles, matrix)
        case Some(a) => if a > 0.0 then [GrantFor(ups[0], a, period)] else []
        case None => [];
      assert forall up :: up in ups[1..] ==> up in ups;
      here + rest
  }

  /** `g` is the record an eligible row `up` yields for binary bonus `b`. */
  ghost predicate GrantOf(g: Bonus, up: Edge, b: Bonus, profiles: seq<Profile>, matrix: seq<MatrixEntry>, period: string)
  {
    Share(b, up, profiles, matrix).Some? && g == GrantFor(up, Share(b, up, profiles, matrix).value, period)
  }

  /** `r` holds one record per row of `paying`, in order. */
  ghost predicate OnePerPaying(r: seq<Bonus>, paying: seq<Edge>, b: Bonus, profiles: seq<Profile>, matrix: seq<MatrixEntry>, period: string)
  {
    && |r| == |paying|
    && forall k :: 0 <= k < |r| ==> GrantOf(r[k], paying[k], b, profiles, matrix, period)
  }

  /** One record in front of a matching list still matches. */
  lemma OnePerPayingCons(g: Bonus, up: Edge, r: seq<Bonus>, paying: seq<Edge>, b: Bonus, profiles: seq<Profile>,
                         matrix: seq<MatrixEntry>, period: string)
    requires OnePerPaying(r, paying, b, profiles, matrix, period)
    requires GrantOf(g, up, b, profiles, matrix, period)
    ensures OnePerPaying([g] + r, [up] + paying, b, profiles, matrix, period)
  {
    var r', paying' := [g] + r, [up] + paying;
    forall k | 0 <= k < |r'|
      ensures GrantOf(r'[k], paying'[k], b, profiles, matrix, period)
    {
      if k > 0 {
        assert r'[k] == r[k - 1] && paying'[k] == paying[k - 1];
      }
    }
  }

  /** One unfolding of the inner loop. */
  lemma UplineGrantsStep(b: Bonus, ups: seq<Edge>, profiles: seq<Profile>, matrix: seq<MatrixEntry>, period: string)
    requires |ups| > 0
    ensures var rest := UplineGrants(b, ups[1..], profiles, matrix, period);
      UplineGrants(b, ups, profiles, matrix, period)
      == if Paying(b, profiles, matrix)(ups[0])
         then [GrantFor(ups[0], Share(b, ups[0], profiles, matrix).value, period)] + rest
         else rest
  {
  }

  /** The inner loop yields exactly one record per paying row, in the
      order of the rows. */
  lemma {:induction false} UplineGrantsExact(b: Bonus, ups: seq<Edge>, profiles: seq<Profile>, matrix: seq<MatrixEntry>, period: string)
    ensures OnePerPaying(UplineGrants(b, ups, profiles, matrix, period), Seqs.Select(ups, Paying(b, profiles, matrix)),
                         b, profiles, matrix, period)
    decreases |ups|
  {
    if |ups| > 0 {
      UplineGrantsExact(b, ups[1..], profiles, matrix, period);
      UplineGrantsStep(b, ups, profiles, matrix, period);
      var pay := Paying(b, profiles, matrix);
      if pay(ups[0]) {
        assert Seqs.Select(ups, pay) == [ups[0]] + Seqs.Select(ups[1..], pay);
        OnePerPayingCons(GrantFor(ups[0], Share(b, ups[0], profiles, matrix).value, period), ups[0],
                         UplineGrants(b, ups[1..], profiles, matrix, period), Seqs.Select(ups[1..], pay),
                         b, profiles, matrix, period);
      } else {
        assert Seqs.Select(ups, pay) == Seqs.Select(ups[1..], pay);
      }
    }
  }

  /** The outer loop over the period's binary bonuses. */
  function Grants(bs: seq<Bonus>, edges: seq<Edge>, profiles: seq<Profile>, matrix: seq<MatrixEntry>, period: string)
    : (r: seq<Bonus>)
    ensures forall g :: g in r ==> WellFormedGrant(g, period)
    ensures forall g :: g in r ==> exists b :: b in bs && GrantedFrom(g, b, edges, profiles, matrix, period)
    ensures forall b, up ::
      (b in bs && up in Repository.Where(edges, Hierarchy.Into(b.userId))
       && Share(b, up, profiles, matrix).Some? && Share(b, up, profiles, matrix).value > 0.0) ==>
      GrantFor(up, Share(b, up, profiles, matrix).value, period) in r
    ensures |r| <= Repository.DefaultLimit * |bs|
    decreases |bs|
  {
    if |bs| == 0 then []
    else
      var here := UplineGrants(bs[0], Repository.Where(edges, Hierarchy.Into(bs[0].userId)), profiles, matrix, period);
      var rest := Grants(bs[1..], edges, profiles, matrix, period);
      assert forall b :: b in bs[1..] ==> b in bs;
      assert forall g :: g in here ==> GrantedFrom(g, bs[0], edges, profiles, matrix, period);
      here + rest
  }

  /** The outer loop distributes over concatenation of the bonus list. */
  lemma {:induction false} GrantsAppend(bs1: seq<Bonus>, bs2: seq<Bonus>, edges: seq<Edge>, profiles: seq<Profile>,
                                        matrix: seq<MatrixEntry>, period: string)
    ensures Grants(bs1 + bs2, edges, profiles, matrix, period)
         == Grants(bs1, edges, profiles, matrix, period) + Grants(bs2, edges, profiles, matrix, period)
    decreases |bs1|
  {
    if |bs1| > 0 {
      var bs := bs1 + bs2;
      assert bs[0] == bs1[0] && bs[1..] == bs1[1..] + bs2;
      GrantsAppend(bs1[1..], bs2, edges, profiles, matrix, period);
      var here := UplineGrants(bs1[0], Repository.Where(edges, Hierarchy.Into(bs1[0].userId)), profiles, matrix, period);
      assert Grants(bs, edges, profiles, matrix, period) == here + Grants(bs[1..], edges, profiles, matrix, period);
      assert Grants(bs1, edges, profiles, matrix, period) == here + Grants(bs1[1..], edges, profiles, matrix, period);
    } else {
      assert bs1 + bs2 == bs2;
    }
  }

  /** One binary bonus yields exactly its uplines' records. */
  lemma GrantsOfOne(b: Bonus, edges: seq<Edge>, profiles: seq<Profile>, matrix: seq<MatrixEntry>, period: string)
    ensures Grants([b], edges, profiles, matrix, period)
         == UplineGrants(b, Repository.Where(edges, Hierarchy.Into(b.userId)), profiles, matrix, period)
  {
    assert [b][1..] == [];
  }

  /** Uplines more than seven levels up never receive anything. */
  lemma NoGrantBeyondSeventh(bs: seq<Bonus>, edges: seq<Edge>, profiles: seq<Profile>, matrix: seq<MatrixEntry>, period: string, g: Bonus)
    requires g in Grants(bs, edges, profiles, matrix, period)
    ensures exists up :: up in edges && up.ancestor == g.userId && up.level <= MaxGeneration
  {
    var b :| b in bs && GrantedFrom(g, b, edges, profiles, matrix, period);
    var up :| up in Repository.Where(edges, Hierarchy.Into(b.userId))
      && Share(b, up, profiles, matrix) == Some(g.amount) && g == GrantFor(up, g.amount, period);
  }

  /** The seventh generation is paid: an eligible level-7 row with a positive share yields a record. */
  lemma SeventhGenerationPaid(bs: seq<Bonus>, edges: seq<Edge>, profiles: seq<Profile>, matrix: seq<MatrixEntry>,
                              period: string, b: Bonus, up: Edge)
    requires b in bs && up in Repository.Where(edges, Hierarchy.Into(b.userId)) && up.level == 7
    requires ProfileOf(profiles, up.ancestor).Some?
    requires MatrixEntryFor(matrix, ProfileOf(profiles, up.ancestor).value.currentRank, 7).Some?
    requires Share(b, up, profiles, matrix).value > 0.0
    ensures exists g :: g in Grants(bs, edges, profiles, matrix, period) && g.userId == up.ancestor
  {
    assert GrantFor(up, Share(b, up, profiles, matrix).value, period) in Grants(bs, edges, profiles, matrix, period);
  }

  /** `calculate` as written: `BonusType.GENERATION` is not a member of the
      enumeration, so building the first record raises; nothing is saved. */
  function CalculateAsWritten(db: Db, period: string, now: Date): (r: Result<(Db, seq<Bonus>), Failure>)
    requires ValidDate(now)
    ensures var p := ResolvePeriod(period, now);
      r.Err? <==> |Grants(Repository.Where(db.bonuses, PaidBinaryIn(p)), db.edges, db.profiles, db.matrix, p)| > 0
    ensures r.Err? ==> r.error == AttributeError("GENERATION")
    ensures r.Ok? ==> r.value == (db, [])
  {
    var p := ResolvePeriod(period, now);
    var grants := Grants(Repository.Where(db.bonuses, PaidBinaryIn(p)), db.edges, db.profiles, db.matrix, p);
    if |grants| > 0 then
      assert grants[0] in grants && !Declared(grants[0].bonusType);
      Err(AttributeError("GENERATION"))
    else Ok((db, []))
  }

  /** `calculate` with the GENERATION bonus type declared: every record
      built is saved and returned. */
  function Calculate(db: Db, period: string, now: Date): (r: (Db, seq<Bonus>))
    requires ValidDate(now)
    ensures r.0 == db.(bonuses := db.bonuses + r.1)
    ensures r.1 == Grants(Repository.Where(db.bonuses, PaidBinaryIn(ResolvePeriod(period, now))),
                          db.edges, db.profiles, db.matrix, ResolvePeriod(period, now))
    ensures forall g :: g in r.1 ==> WellFormedGrant(g, ResolvePeriod(period, now))
    ensures forall g :: g in r.1 ==> exists b ::
      b in db.bonuses && PaidBinaryIn(ResolvePeriod(period, now))(b)
      && GrantedFrom(g, b, db.edges, db.profiles, db.matrix, ResolvePeriod(period, now))
  {
    var p := ResolvePeriod(period, now);
    var bs := Repository.Where(db.bonuses, PaidBinaryIn(p));
    var grants := Grants(bs, db.edges, db.profiles, db.matrix, p);
    (db.(bonuses := db.bonuses + grants), grants)
  }

  /** The records `calculate` adds are not paid BINARY bonuses, so running it
      twice in one period does not feed on its own output. */
  lemma CalculateDoesNotFeedItself(db: Db, period: string, now: Date)
    requires ValidDate(now)
    ensures forall g :: g in Calculate(db, period, now).1 ==> !PaidBinaryIn(ResolvePeriod(period, now))(g)
  {
  }

  /** Value of `total_by_generation.get(g, 0)`. */
  function Get(m: map<int, real>, g: int): real
  {
    if g in m then m[g] else 0.0
  }

  /** Reference: the sum of one bonus's eligible shares at generation `g`. */
  function ShareSum(b: Bonus, ups: seq<Edge>, g: int, profiles: seq<Profile>, matrix: seq<MatrixEntry>): real
  {
    if |ups| == 0 then 0.0
    else
      (if ups[0].level == g && Share(b, ups[0], profiles, matrix).Some? then Share(b, ups[0], profiles, matrix).value else 0.0)
      + ShareSum(b, ups[1..], g, profiles, matrix)
  }

  /** Reference: the sum over all bonuses. */
  function TotalFor(bs: seq<Bonus>, ups: seq<Edge>, g: int, profiles: seq<Profile>, matrix: seq<MatrixEntry>): real
  {
    if |bs| == 0 then 0.0 else ShareSum(bs[0], ups, g, profiles, matrix) + TotalFor(bs[1..], ups, g, profiles, matrix)
  }

  /** The key set after one step of the inner loop, lifted over the rest. */
  lemma AddSharesKeys(m: map<int, real>, m': map<int, real>, ups: seq<Edge>, r: map<int, real>,
                      profiles: seq<Profile>, matrix: seq<MatrixEntry>)
    requires |ups| > 0
    requires forall g :: g in m' <==> g in m || (g == ups[0].level && Eligible(ups[0], profiles, matrix))
    requires forall g :: g in r <==> g in m' || exists x :: x in ups[1..] && x.level == g && Eligible(x, profiles, matrix)
    ensures forall g :: g in r <==> g in m || exists x :: x in ups && x.level == g && Eligible(x, profiles, matrix)
  {
    assert forall x :: x in ups[1..] ==> x in ups;
    forall g | g in m || exists x :: x in ups && x.level == g && Eligible(x, profiles, matrix)
      ensures g in r
    {
      if g !in m && !(g == ups[0].level && Eligible(ups[0], profiles, matrix)) {
        var x :| x in ups && x.level == g && Eligible(x, profiles, matrix);
        assert x in ups[1..];
      }
    }
  }

  /** Inner loop of `calculate_for_user`: adds every eligible share, zero or
      not, to its generation. */
  function AddShares(m: map<int, real>, b: Bonus, ups: seq<Edge>, profiles: seq<Profile>, matrix: seq<MatrixEntry>)
    : (r: map<int, real>)
    ensures forall g :: g in r <==> g in m || exists up :: up in ups && up.level == g && Eligible(up, profiles, matrix)
    ensures forall g :: Get(r, g) == Get(m, g) + ShareSum(b, ups, g, profiles, matrix)
    decreases |ups|
  {
    if |ups| == 0 then m
    else
      var up := ups[0];
      var m' := match Share(b, up, profiles, matrix)
        case None => m
        case Some(a) => m[up.level := Get(m, up.level) + a];
      var r := AddShares(m', b, ups[1..], profiles, matrix);
      AddSharesKeys(m, m', ups, r, profiles, matrix);
      r
  }

  /** Outer loop of `calculate_for_user`. */
  function AddAll(m: map<int, real>, bs: seq<Bonus>, ups: seq<Edge>, profiles: seq<Profile>, matrix: seq<MatrixEntry>)
    : (r: map<int, real>)
    ensures forall g :: g in r <==> g in m || (|bs| > 0 && exists up :: up in ups && up.level == g && Eligible(up, profiles, matrix))
    ensures forall g :: Get(r, g) == Get(m, g) + TotalFor(bs, ups, g, profiles, matrix)
    decreases |bs|
  {
    if |bs| == 0 then m
    else AddAll(AddShares(m, bs[0], ups, profiles, matrix), bs[1..], ups, profiles, matrix)
  }

  /** `calculate_for_user`: per generation, the summed shares of the user's
      paid BINARY bonuses of the period. Zero shares are kept. */
  function CalculateForUser(db: Db, u: Id, period: string, now: Date): (r: map<int, real>)
    requires ValidDate(now)
    ensures var p := ResolvePeriod(period, now);
      var bs := Repository.Where(db.bonuses, (b: Bonus) => PaidBinaryIn(p)(b) && b.userId == u);
      var ups := Repository.Where(db.edges, Hierarchy.Into(u));
      && (forall g :: g in r <==> |bs| > 0 && exists up :: up in ups && up.level == g && Eligible(up, db.profiles, db.matrix))
      && (forall g :: g in r ==> r[g] == TotalFor(bs, ups, g, db.profiles, db.matrix))
    ensures forall g :: g in r ==> g <= MaxGeneration
  {
    var p := ResolvePeriod(period, now);
    var bs := Repository.Where(db.bonuses, (b: Bonus) => PaidBinaryIn(p)(b) && b.userId == u);
    var ups := Repository.Where(db.edges, Hierarchy.Into(u));
    AddAll(map[], bs, ups, db.profiles, db.matrix)
  }
}

=== FILE: hierarchy.dfy ===
/** HierarchyService: the ancestor/descendant closure table and the
    active-line count used for rank qualification. */
module Hierarchy {
  import opened Wrappers
  import opened Seqs
  import opened Domain
  import Repository

  /** Filter `descendant_id == d`. */
  function Into(d: Id): Edge -> bool
  {
    (e: Edge) => e.descendant == d
  }

  /** Filter `ancestor_id == a`. */
  function From(a: Id): Edge -> bool
  {
    (e: Edge) => e.ancestor == a
  }

  /** One edge to `newUser` per ancestor edge of the sponsor, one level deeper. */
  function Lift(ancestors: seq<Edge>, newUser: Id): (r: seq<Edge>)
    ensures |r| == |ancestors|
    ensures forall i :: 0 <= i < |r| ==> r[i] == Edge(ancestors[i].ancestor, newUser, ancestors[i].level + 1)
  {
    seq(|ancestors|, i requires 0 <= i < |ancestors| => Edge(ancestors[i].ancestor, newUser, ancestors[i].level + 1))
  }

  /** The closure rows appended for a new user under `sponsor`, given the
      sponsor's ancestor rows. */
  function Chain(edges: seq<Edge>, ancestors: seq<Edge>, sponsor: Id, newUser: Id): (r: seq<Edge>)
    ensures |r| == |edges| + |ancestors| + 1
    ensures r[..|edges|] == edges
    ensures forall a :: a in ancestors ==> Edge(a.ancestor, newUser, a.level + 1) in r
    ensures Edge(sponsor, newUser, 1) in r
    ensures forall i :: |edges| <= i < |r| ==> r[i].descendant == newUser
  {
    var lifted := Lift(ancestors, newUser);
    var r := edges + lifted + [Edge(sponsor, newUser, 1)];
    assert forall a :: a in ancestors ==> Edge(a.ancestor, newUser, a.level + 1) in lifted;
    assert r[|r| - 1] == Edge(sponsor, newUser, 1);
    r
  }

  /** `create_chain_for_new_user` as written: the ancestor rows come from
      `find_all` with its default limit, so at most 100 of them are copied. */
  function CreateChainAsWritten(edges: seq<Edge>, sponsor: Id, newUser: Id): (r: seq<Edge>)
    ensures |r| == |edges| + |Repository.Where(edges, Into(sponsor))| + 1
    ensures r[..|edges|] == edges
    ensures Edge(sponsor, newUser, 1) in r
    ensures forall a :: a in Repository.Where(edges, Into(sponsor)) ==> Edge(a.ancestor, newUser, a.level + 1) in r
  {
    Chain(edges, Repository.Where(edges, Into(sponsor)), sponsor, newUser)
  }

  /** `create_chain_for_new_user` with every ancestor row copied. */
  function CreateChain(edges: seq<Edge>, sponsor: Id, newUser: Id): (r: seq<Edge>)
    ensures |r| == |edges| + |Select(edges, Into(sponsor))| + 1
    ensures r[..|edges|] == edges
    ensures Edge(sponsor, newUser, 1) in r
    ensures forall a :: a in edges && a.descendant == sponsor ==> Edge(a.ancestor, newUser, a.level + 1) in r
    ensures forall i :: |edges| <= i < |r| ==> r[i].descendant == newUser
  {
    Chain(edges, Select(edges, Into(sponsor)), sponsor, newUser)
  }

  /** Chaining `e1` into `e2` yields the row for the summed distance. */
  ghost predicate Joins(edges: seq<Edge>, e1: Edge, e2: Edge)
  {
    e1 in edges && e2 in edges && e1.descendant == e2.ancestor ==>
      Edge(e1.ancestor, e2.descendant, e1.level + e2.level) in edges
  }

  /** The table is a level-annotated transitive closure: levels are positive
      and every two chained rows have their composite row. */
  ghost predicate Closed(edges: seq<Edge>)
  {
    && (forall e :: e in edges ==> e.level >= 1)
    && forall e1, e2 :: Joins(edges, e1, e2)
  }

  /** `u` appears in no row. */
  ghost predicate Fresh(edges: seq<Edge>, u: Id)
  {
    forall e :: e in edges ==> e.ancestor != u && e.descendant != u
  }

  /** The rows `CreateChain` appends, spelled out. */
  lemma CreateChainShape(edges: seq<Edge>, sponsor: Id, newUser: Id)
    ensures CreateChain(edges, sponsor, newUser)
         == edges + Lift(Select(edges, Into(sponsor)), newUser) + [Edge(sponsor, newUser, 1)]
  {
  }

  /** Every row of the new chain has a positive level. */
  lemma ChainLevels(edges: seq<Edge>, sponsor: Id, newUser: Id, e: Edge)
    requires Closed(edges)
    requires e in edges + Lift(Select(edges, Into(sponsor)), newUser) + [Edge(sponsor, newUser, 1)]
    ensures e.level >= 1
  {
    var lifted := Lift(Select(edges, Into(sponsor)), newUser);
    if e !in edges && e != Edge(sponsor, newUser, 1) {
      assert e in lifted;
      var k :| 0 <= k < |lifted| && lifted[k] == e;
      assert Select(edges, Into(sponsor))[k] in edges;
    }
  }

  /** A row of the new chain ending outside `newUser` is an old row. */
  lemma ChainOldRow(edges: seq<Edge>, sponsor: Id, newUser: Id, e: Edge)
    requires e in edges + Lift(Select(edges, Into(sponsor)), newUser) + [Edge(sponsor, newUser, 1)]
    requires e.descendant != newUser
    ensures e in edges
  {
    var lifted := Lift(Select(edges, Into(sponsor)), newUser);
    if e in lifted {
    }
  }

  /** A row of `a` is a row of `a + b`. */
  lemma InFront(x: Edge, a: seq<Edge>, b: seq<Edge>)
    requires x in a
    ensures x in a + b
  {
  }

  /** Composite of two old rows: an old row, so still a row. */
  lemma ChainPairOld(edges: seq<Edge>, sponsor: Id, newUser: Id, e1: Edge, e2: Edge)
    requires Edge(e1.ancestor, e2.descendant, e1.level + e2.level) in edges
    ensures Edge(e1.ancestor, e2.descendant, e1.level + e2.level)
         in edges + Lift(Select(edges, Into(sponsor)), newUser) + [Edge(sponsor, newUser, 1)]
  {
    var c := Edge(e1.ancestor, e2.descendant, e1.level + e2.level);
    var lifted := Lift(Select(edges, Into(sponsor)), newUser);
    InFront(c, edges, lifted);
    InFront(c, edges + lifted, [Edge(sponsor, newUser, 1)]);
  }

  /** Composite of an old row with the sponsor's new direct row. */
  lemma ChainPairDirect(edges: seq<Edge>, sponsor: Id, newUser: Id, e1: Edge)
    requires e1 in edges && e1.descendant == sponsor
    ensures Edge(e1.ancestor, newUser, e1.level + 1)
         in edges + Lift(Select(edges, Into(sponsor)), newUser) + [Edge(sponsor, newUser, 1)]
  {
    var ancestors := Select(edges, Into(sponsor));
    assert e1 in ancestors;
    var i := IndexIn(ancestors, e1);
    assert Lift(ancestors, newUser)[i] == Edge(e1.ancestor, newUser, e1.level + 1);
  }

  /** Composite of an old row with a copied ancestor row, given the old
      composite through the sponsor. */
  lemma ChainPairLifted(edges: seq<Edge>, sponsor: Id, newUser: Id, e1: Edge, k: nat)
    requires k < |Select(edges, Into(sponsor))|
    requires Edge(e1.ancestor, sponsor, e1.level + Select(edges, Into(sponsor))[k].level) in edges
    ensures Edge(e1.ancestor, newUser, e1.level + Lift(Select(edges, Into(sponsor)), newUser)[k].level)
         in edges + Lift(Select(edges, Into(sponsor)), newUser) + [Edge(sponsor, newUser, 1)]
  {
    var a := Select(edges, Into(sponsor))[k];
    var via := Edge(e1.ancestor, sponsor, e1.level + a.level);
    ChainPairDirect(edges, sponsor, newUser, via);
  }

  /** The position of a copied ancestor row, and the old row it copies. */
  lemma LiftedIndex(edges: seq<Edge>, sponsor: Id, newUser: Id, e2: Edge) returns (k: nat)
    requires e2 in Lift(Select(edges, Into(sponsor)), newUser)
    ensures k < |Select(edges, Into(sponsor))|
    ensures e2 == Lift(Select(edges, Into(sponsor)), newUser)[k]
    ensures Select(edges, Into(sponsor))[k] in edges
  {
    var lifted := Lift(Select(edges, Into(sponsor)), newUser);
    k := IndexIn(lifted, e2);
    assert Select(edges, Into(sponsor))[k] in Select(edges, Into(sponsor));
  }

  /** The closure step when the second row copies the `k`-th ancestor row. */
  lemma ChainPairThroughLifted(edges: seq<Edge>, sponsor: Id, newUser: Id, e1: Edge, k: nat)
    requires Closed(edges)
    requires e1 in edges
    requires k < |Select(edges, Into(sponsor))|
    requires Select(edges, Into(sponsor))[k] in edges
    requires e1.descendant == Select(edges, Into(sponsor))[k].ancestor
    ensures Edge(e1.ancestor, newUser, e1.level + Lift(Select(edges, Into(sponsor)), newUser)[k].level)
         in edges + Lift(Select(edges, Into(sponsor)), newUser) + [Edge(sponsor, newUser, 1)]
  {
    var a := Select(edges, Into(sponsor))[k];
    assert Joins(edges, e1, a);
    ChainPairLifted(edges, sponsor, newUser, e1, k);
  }

  /** The closure step for one pair of rows of the new chain. */
  lemma ChainPair(edges: seq<Edge>, sponsor: Id, newUser: Id, e1: Edge, e2: Edge)
    requires Closed(edges)
    requires Fresh(edges, newUser) && newUser != sponsor
    requires e1 in edges + Lift(Select(edges, Into(sponsor)), newUser) + [Edge(sponsor, newUser, 1)]
    requires e2 in edges + Lift(Select(edges, Into(sponsor)), newUser) + [Edge(sponsor, newUser, 1)]
    requires e1.descendant == e2.ancestor
    ensures Edge(e1.ancestor, e2.descendant, e1.level + e2.level)
         in edges + Lift(Select(edges, Into(sponsor)), newUser) + [Edge(sponsor, newUser, 1)]
  {
    if e2 in edges {
      ChainOldRow(edges, sponsor, newUser, e1);
      assert Joins(edges, e1, e2);
      ChainPairOld(edges, sponsor, newUser, e1, e2);
    } else if e2 == Edge(sponsor, newUser, 1) {
      ChainOldRow(edges, sponsor, newUser, e1);
      ChainPairDirect(edges, sponsor, newUser, e1);
    } else {
      ChainPairCaseLifted(edges, sponsor, newUser, e1, e2);
    }
  }

  /** The closure step when the second row is any copied ancestor row. */
  lemma ChainPairCaseLifted(edges: seq<Edge>, sponsor: Id, newUser: Id, e1: Edge, e2: Edge)
    requires Closed(edges)
    requires Fresh(edges, newUser)
    requires e1 in edges + Lift(Select(edges, Into(sponsor)), newUser) + [Edge(sponsor, newUser, 1)]
    requires e2 in Lift(Select(edges, Into(sponsor)), newUser)
    requires e1.descendant == e2.ancestor
    ensures Edge(e1.ancestor, e2.descendant, e1.level + e2.level)
         in edges + Lift(Select(edges, Into(sponsor)), newUser) + [Edge(sponsor, newUser, 1)]
  {
    var k := LiftedIndex(edges, sponsor, newUser, e2);
    var a := Select(edges, Into(sponsor))[k];
    assert e2.ancestor == a.ancestor;
    assert a.ancestor != newUser;
    ChainOldRow(edges, sponsor, newUser, e1);
    ChainPairThroughLifted(edges, sponsor, newUser, e1, k);
    assert Edge(e1.ancestor, e2.descendant, e1.level + e2.level)
        == Edge(e1.ancestor, newUser, e1.level + Lift(Select(edges, Into(sponsor)), newUser)[k].level);
  }

  /** A position of `x` in `s`. */
  function IndexIn<T(==)>(s: seq<T>, x: T): (i: nat)
    requires x in s
    ensures i < |s| && s[i] == x
  {
    if s[0] == x then 0 else 1 + IndexIn(s[1..], x)
  }

  /** Chain creation for a fresh user keeps the closure invariant. */
  lemma CreateChainKeepsClosed(edges: seq<Edge>, sponsor: Id, newUser: Id)
    requires Closed(edges)
    requires Fresh(edges, newUser) && newUser != sponsor
    ensures Closed(CreateChain(edges, sponsor, newUser))
  {
    CreateChainShape(edges, sponsor, newUser);
    var r := edges + Lift(Select(edges, Into(sponsor)), newUser) + [Edge(sponsor, newUser, 1)];
    forall e | e in r
      ensures e.level >= 1
    {
      ChainLevels(edges, sponsor, newUser, e);
    }
    forall e1, e2
      ensures Joins(r, e1, e2)
    {
      if e1 in r && e2 in r && e1.descendant == e2.ancestor {
        ChainPair(edges, sponsor, newUser, e1, e2);
      }
    }
  }

  /** With at most 100 ancestor rows the as-written chain is the full one. */
  lemma AsWrittenWithinLimit(edges: seq<Edge>, sponsor: Id, newUser: Id)
    requires |Select(edges, Into(sponsor))| <= Repository.DefaultLimit
    ensures CreateChainAsWritten(edges, sponsor, newUser) == CreateChain(edges, sponsor, newUser)
  {
  }

  /** With more than 100 ancestor rows (distinct ancestors, no self rows) the
      as-written chain misses the 101st ancestor, so the table it leaves is
      no longer a closure. */
  lemma AsWrittenBreaksClosure(edges: seq<Edge>, sponsor: Id, newUser: Id)
    requires Closed(edges)
    requires Fresh(edges, newUser) && newUser != sponsor
    requires forall e :: e in edges ==> e.ancestor != e.descendant
    requires |Select(edges, Into(sponsor))| > Repository.DefaultLimit
    requires forall i, j :: 0 <= i < j < |Select(edges, Into(sponsor))| ==>
      Select(edges, Into(sponsor))[i].ancestor != Select(edges, Into(sponsor))[j].ancestor
    ensures !Closed(CreateChainAsWritten(edges, sponsor, newUser))
  {
    var all := Select(edges, Into(sponsor));
    var kept := Repository.Where(edges, Into(sponsor));
    assert kept == all[..Repository.DefaultLimit];
    var r := CreateChainAsWritten(edges, sponsor, newUser);
    var lifted := Lift(kept, newUser);
    assert r == edges + lifted + [Edge(sponsor, newUser, 1)];
    var missed := all[Repository.DefaultLimit];
    assert missed in edges && missed.descendant == sponsor;
    var e2 := Edge(sponsor, newUser, 1);
    assert !Joins(r, missed, e2);
    assert missed in r && e2 in r;
  }

  /** Fields of the UserActivity model, against which BaseDAO validates keys. */
  const ActivityFields: set<string> :=
    {"id", "user_id", "activity_type", "period_start", "period_end", "personal_volume",
     "is_confirmed", "confirmed_at"}

  /** The keys `count_active_lines` passes to `find_one_or_none`. */
  const ActivityFilterKeys: set<string> :=
    {"user_id", "period_start__gte", "period_end__lte", "personal_volume__gte"}

  /** The predicate the suffixed keys name. */
  predicate Qualifies(a: Activity, d: Id, threshold: real, start: Date, end: Date)
  {
    a.userId == d && DateLe(start, a.periodStart) && DateLe(a.periodEnd, end) && a.personalVolume >= threshold
  }

  predicate LineActive(activities: seq<Activity>, d: Id, threshold: real, start: Date, end: Date)
  {
    exists a :: a in activities && Qualifies(a, d, threshold, start, end)
  }

  /** The lines of `u`: both branches of the source key the line by the
      descendant itself, so every descendant is its own line. */
  function Lines(edges: seq<Edge>, u: Id): set<Id>
  {
    set e | e in Repository.Where(edges, From(u)) :: e.descendant
  }

  function ActiveLines(edges: seq<Edge>, activities: seq<Activity>, u: Id, threshold: real, start: Date, end: Date): set<Id>
  {
    set d | d in Lines(edges, u) && LineActive(activities, d, threshold, start, end)
  }

  /** `count_active_lines` with its filter keys read as the comparison they name. */
  function CountActiveLines(edges: seq<Edge>, activities: seq<Activity>, u: Id,
                            threshold: real, start: Date, end: Date): (r: nat)
    ensures r <= |Lines(edges, u)|
    ensures (forall e :: e in edges ==> e.ancestor != u) ==> r == 0
  {
    SubsetCard(ActiveLines(edges, activities, u, threshold, start, end), Lines(edges, u));
    |ActiveLines(edges, activities, u, threshold, start, end)|
  }

  lemma SubsetCard<T>(a: set<T>, b: set<T>)
    requires a <= b
    ensures |a| <= |b|
  {
    assert b == a + (b - a);
  }

  /** `count_active_lines` as written: the suffixed keys are not UserActivity
      fields, so BaseDAO raises as soon as one descendant is looked at. */
  function CountActiveLinesAsWritten(edges: seq<Edge>, activities: seq<Activity>, u: Id,
                                     threshold: real, start: Date, end: Date): (r: Result<nat, Repository.DaoError>)
    ensures r.Ok? <==> forall e :: e in edges ==> e.ancestor != u
    ensures r.Ok? ==> r.value == 0
    ensures r.Err? ==> r.error == Repository.InvalidFields({"period_start__gte", "period_end__lte", "personal_volume__gte"})
  {
    var descendants := Repository.Where(edges, From(u));
    if |descendants| == 0 then Ok(0)
    else
      assert Repository.Where(edges, From(u))[0] in edges;
      assert ActivityFilterKeys - ActivityFields == {"period_start__gte", "period_end__lte", "personal_volume__gte"};
      match Repository.ValidateFields(ActivityFields, ActivityFilterKeys)
      case Some(e) => Err(e)
      case None => Ok(CountActiveLines(edges, activities, u, threshold, start, end))
  }

  /** Moving one line out of `remaining` adds it to the counted set exactly
      when it is active. */
  lemma CountStep(lines: set<Id>, remaining: set<Id>, d: Id, activities: seq<Activity>,
                  threshold: real, start: Date, end: Date)
    requires d in remaining && remaining <= lines
    ensures var before := set x | x in lines - remaining && LineActive(activities, x, threshold, start, end);
      var after := set x | x in lines - (remaining - {d}) && LineActive(activities, x, threshold, start, end);
      && (LineActive(activities, d, threshold, start, end) ==> d !in before && after == before + {d})
      && (!LineActive(activities, d, threshold, start, end) ==> after == before)
  {
  }

  /** The loop of the source: walk the lines, and stop at the first
      qualifying activity record of each line. */
  method CountActiveLinesLoop(edges: seq<Edge>, activities: seq<Activity>, u: Id,
                              threshold: real, start: Date, end: Date) returns (n: nat)
    ensures n == CountActiveLines(edges, activities, u, threshold, start, end)
  {
    var lines := Lines(edges, u);
    var remaining := lines;
    n := 0;
    while remaining != {}
      invariant remaining <= lines
      invariant n == |set d | d in lines - remaining && LineActive(activities, d, threshold, start, end)|
      decreases remaining
    {
      var d :| d in remaining;
      var found := Repository.First(activities, (a: Activity) => Qualifies(a, d, threshold, start, end));
      assert found.Some? <==> LineActive(activities, d, threshold, start, end);
      CountStep(lines, remaining, d, activities, threshold, start, end);
      remaining := remaining - {d};
      if found.Some? {
        n := n + 1;
      }
    }
    assert lines - remaining == lines;
  }

  /** A higher threshold never yields more active lines. */
  lemma CountAntitoneInThreshold(edges: seq<Edge>, activities: seq<Activity>, u: Id,
                                 low: real, high: real, start: Date, end: Date)
    requires low <= high
    ensures CountActiveLines(edges, activities, u, high, start, end) <= CountActiveLines(edges, activities, u, low, start, end)
  {
    SubsetCard(ActiveLines(edges, activities, u, high, start, end), ActiveLines(edges, activities, u, low, start, end));
  }

  /** A line adds at most one: another qualifying record for a line that is
      already active leaves the count unchanged. */
  lemma ExtraRecordForActiveLine(edges: seq<Edge>, activities: seq<Activity>, a: Activity, u: Id,
                                 threshold: real, start: Date, end: Date)
    requires LineActive(activities, a.userId, threshold, start, end)
    ensures CountActiveLines(edges, activities + [a], u, threshold, start, end)
         == CountActiveLines(edges, activities, u, threshold, start, end)
  {
    var s1 := ActiveLines(edges, activities + [a], u, threshold, start, end);
    var s0 := ActiveLines(edges, activities, u, threshold, start, end);
    forall d | d in s1
      ensures d in s0
    {
      var b :| b in activities + [a] && Qualifies(b, d, threshold, start, end);
      if b == a {
        assert d == a.userId;
      }
    }
    assert s1 == s0;
  }
}

=== FILE: mlm.dfy ===
/** MLMService.on_product_purchase: the bonus pipeline run after a purchase. */
module MlmService {
  import opened Wrappers
  import opened Domain
  import opened Periods
  import opened UserDao
  import Wallets
  import SponsorBonus
  import GenerationBonus
  import BinaryBonus
  import RankPromotion

  /** The services the pipeline calls, in the order it calls them. */
  datatype Step = SponsorStep | GenerationStep | BinaryStep | RankStep

  /** The session state after the last step that completed, the steps that
      ran, and the exception that ended the call, if any. A step that fails
      leaves the writes of the steps before it in the session; its own
      earlier writes are not part of this state, and whether the request
      then commits or rolls back is outside this model. */
  datatype Outcome = Outcome(db: Db, ran: seq<Step>, failure: Option<Failure>)

  /** `on_product_purchase` as written: the sponsor step runs and leaves its
      writes in the session, then `calculate_and_apply`, which
      GenerationBonusService does not define, raises; the binary and rank
      steps never run. */
  function OnProductPurchaseAsWritten(db: Db, buyer: Id): (r: Outcome)
    ensures r.failure.Some?
    ensures r.ran == [SponsorStep]
    ensures SponsorBonus.Distribute(db, buyer).Err? ==> r.db == db && r.failure == Some(SponsorBonus.Distribute(db, buyer).error)
    ensures SponsorBonus.Distribute(db, buyer).Ok? ==>
      r.db == SponsorBonus.Distribute(db, buyer).value && r.failure == Some(AttributeError("calculate_and_apply"))
  {
    match SponsorBonus.Distribute(db, buyer)
    case Err(e) => Outcome(db, [SponsorStep], Some(e))
    case Ok(db1) => Outcome(db1, [SponsorStep], Some(AttributeError("calculate_and_apply")))
  }

  /** The failure comes after the sponsor step's writes: with at least one
      first-level descendant to pay, the state has changed although the
      call failed. */
  lemma AsWrittenFailsAfterWrites(db: Db, buyer: Id)
    requires SponsorBonus.Distribute(db, buyer).Ok?
    requires |SponsorBonus.Calculate(db.edges, db.profiles, buyer).details| > 0
    ensures OnProductPurchaseAsWritten(db, buyer).failure.Some?
    ensures |OnProductPurchaseAsWritten(db, buyer).db.bonuses| > |db.bonuses|
  {
  }

  /** What the generation and binary steps keep: they only append
      bonuses, move money between wallets and log transfers. */
  ghost predicate BonusStepsKeep(db: Db, db': Db)
  {
    && |db'.bonuses| >= |db.bonuses| && db'.bonuses[..|db.bonuses|] == db.bonuses
    && db'.users == db.users
    && Wallets.Total(db'.wallets) == Wallets.Total(db.wallets)
    && db'.profiles == db.profiles && db'.history == db.history
    && db'.edges == db.edges && db'.activities == db.activities
  }

  /** The generation step then the binary step, from the state the sponsor
      step left. */
  lemma BonusStepsFrame(db1: Db, buyer: Id, now: Date)
    requires ValidDate(now)
    requires BinaryBonus.ProcessBinaryImpact(GenerationBonus.Calculate(db1, "", now).0, buyer, now).Ok?
    ensures BonusStepsKeep(db1, BinaryBonus.ProcessBinaryImpact(GenerationBonus.Calculate(db1, "", now).0, buyer, now).value.0)
  {
    var db2 := GenerationBonus.Calculate(db1, "", now).0;
    GenerationStepKeeps(db1, now);
    BinaryStepKeeps(db2, buyer, now);
    BonusStepsKeepChain(db1, db2, BinaryBonus.ProcessBinaryImpact(db2, buyer, now).value.0);
  }

  /** The generation step only appends bonuses. */
  lemma GenerationStepKeeps(db1: Db, now: Date)
    requires ValidDate(now)
    ensures BonusStepsKeep(db1, GenerationBonus.Calculate(db1, "", now).0)
  {
    var db2 := GenerationBonus.Calculate(db1, "", now).0;
    assert db2.bonuses[..|db1.bonuses|] == db1.bonuses;
  }

  /** The binary step appends bonuses and moves money between wallets. */
  lemma BinaryStepKeeps(db2: Db, buyer: Id, now: Date)
    requires ValidDate(now)
    requires BinaryBonus.ProcessBinaryImpact(db2, buyer, now).Ok?
    ensures BonusStepsKeep(db2, BinaryBonus.ProcessBinaryImpact(db2, buyer, now).value.0)
  {
    var db3 := BinaryBonus.ProcessBinaryImpact(db2, buyer, now).value.0;
    assert db3.bonuses[..|db2.bonuses|] == db2.bonuses;
  }

  /** The kept facts compose. */
  lemma BonusStepsKeepChain(db1: Db, db2: Db, db3: Db)
    requires BonusStepsKeep(db1, db2) && BonusStepsKeep(db2, db3)
    ensures BonusStepsKeep(db1, db3)
  {
    assert db3.bonuses[..|db1.bonuses|] == db3.bonuses[..|db2.bonuses|][..|db1.bonuses|];
  }

  /** The sponsor step's cash movements, for every user at once. */
  lemma SponsorCash(db: Db, buyer: Id)
    requires SponsorBonus.Distribute(db, buyer).Ok?
    ensures var ds := SponsorBonus.Calculate(db.edges, db.profiles, buyer).details;
      forall x :: CashOf(SponsorBonus.Distribute(db, buyer).value.users, x) == CashOf(db.users, x) + SponsorBonus.CreditedTo(ds, x)
  {
    var ds := SponsorBonus.Calculate(db.edges, db.profiles, buyer).details;
    forall x ensures CashOf(SponsorBonus.Distribute(db, buyer).value.users, x) == CashOf(db.users, x) + SponsorBonus.CreditedTo(ds, x) {
      SponsorBonus.DistributeCash(db, buyer, x);
    }
  }

  /** `on_product_purchase` with the generation step calling `calculate`
      for the current period: sponsor distribution, generation bonus,
      binary payout, then rank check, each keyed by the buyer. */
  function OnProductPurchase(db: Db, buyer: Id, now: Date): (r: Outcome)
    requires ValidDate(now)
    ensures r.failure.None? ==> r.ran == [SponsorStep, GenerationStep, BinaryStep, RankStep]
    ensures r.failure.Some? ==> r.ran == [SponsorStep] || r.ran == [SponsorStep, GenerationStep, BinaryStep]
    ensures SponsorBonus.Distribute(db, buyer).Err? ==> r == Outcome(db, [SponsorStep], Some(SponsorBonus.Distribute(db, buyer).error))
    ensures SponsorBonus.Distribute(db, buyer).Ok? ==> r.ran != [SponsorStep]
  {
    match SponsorBonus.Distribute(db, buyer)
    case Err(e) => Outcome(db, [SponsorStep], Some(e))
    case Ok(db1) =>
      var db2 := GenerationBonus.Calculate(db1, "", now).0;
      match BinaryBonus.ProcessBinaryImpact(db2, buyer, now)
      case Err(e) => Outcome(db2, [SponsorStep, GenerationStep, BinaryStep], Some(e))
      case Ok(paid) =>
        var db3 := paid.0;
        var promoted := RankPromotion.CheckAndPromote(db3.profiles, db3.history, db3.edges, db3.activities, buyer, now);
        Outcome(db3.(profiles := promoted.0, history := promoted.1), [SponsorStep, GenerationStep, BinaryStep, RankStep], None)
  }

  /** A completed run, spelled out through the intermediate states. */
  lemma CompletedRun(db: Db, buyer: Id, now: Date)
    requires ValidDate(now)
    requires OnProductPurchase(db, buyer, now).failure.None?
    ensures SponsorBonus.Distribute(db, buyer).Ok?
    ensures var db1 := SponsorBonus.Distribute(db, buyer).value;
      && BinaryBonus.ProcessBinaryImpact(GenerationBonus.Calculate(db1, "", now).0, buyer, now).Ok?
      && var db3 := BinaryBonus.ProcessBinaryImpact(GenerationBonus.Calculate(db1, "", now).0, buyer, now).value.0;
         && BonusStepsKeep(db1, db3)
         && var promoted := RankPromotion.CheckAndPromote(db3.profiles, db3.history, db3.edges, db3.activities, buyer, now);
            OnProductPurchase(db, buyer, now).db == db3.(profiles := promoted.0, history := promoted.1)
  {
    var db1 := SponsorBonus.Distribute(db, buyer).value;
    BonusStepsFrame(db1, buyer, now);
  }

  /** A completed run first appends the sponsor records, then the later
      steps' records; no bonus record is lost or reordered. */
  lemma PurchaseBonusesInOrder(db: Db, buyer: Id, now: Date)
    requires ValidDate(now)
    requires OnProductPurchase(db, buyer, now).failure.None?
    ensures var ds := SponsorBonus.Calculate(db.edges, db.profiles, buyer).details;
      var bs := OnProductPurchase(db, buyer, now).db.bonuses;
      |bs| >= |db.bonuses| + |ds| && bs[..|db.bonuses| + |ds|] == db.bonuses + SponsorBonus.Records(ds)
  {
    CompletedRun(db, buyer, now);
    var ds := SponsorBonus.Calculate(db.edges, db.profiles, buyer).details;
    var db1 := SponsorBonus.Distribute(db, buyer).value;
    var db3 := BinaryBonus.ProcessBinaryImpact(GenerationBonus.Calculate(db1, "", now).0, buyer, now).value.0;
    assert db1.bonuses == db.bonuses + SponsorBonus.Records(ds);
    assert |db1.bonuses| == |db.bonuses| + |ds|;
    assert OnProductPurchase(db, buyer, now).db.bonuses == db3.bonuses;
  }

  /** Only the sponsor step moves users' cash, and the bonus steps keep the
      wallet total. */
  lemma PurchaseMovesCash(db: Db, buyer: Id, now: Date)
    requires ValidDate(now)
    requires OnProductPurchase(db, buyer, now).failure.None?
    ensures var ds := SponsorBonus.Calculate(db.edges, db.profiles, buyer).details;
      forall x :: CashOf(OnProductPurchase(db, buyer, now).db.users, x) == CashOf(db.users, x) + SponsorBonus.CreditedTo(ds, x)
    ensures Wallets.Total(OnProductPurchase(db, buyer, now).db.wallets) == Wallets.Total(db.wallets)
  {
    CompletedRun(db, buyer, now);
    SponsorCash(db, buyer);
  }

  /** The rank check sees the profiles, history, hierarchy and activities as
      they were before the call, since no bonus step writes them: running it
      last gives the same outcome as running it first. */
  lemma PurchaseRankAsIfFirst(db: Db, buyer: Id, now: Date)
    requires ValidDate(now)
    requires OnProductPurchase(db, buyer, now).failure.None?
    ensures var promoted := RankPromotion.CheckAndPromote(db.profiles, db.history, db.edges, db.activities, buyer, now);
      OnProductPurchase(db, buyer, now).db.profiles == promoted.0
      && OnProductPurchase(db, buyer, now).db.history == promoted.1
  {
    CompletedRun(db, buyer, now);
  }
}

=== FILE: money.dfy ===
/** Exact decimal money. Amounts are `real`; `Quantize` rounds to cents with
    round-half-even, the rounding of the default `Decimal` context used by
    every `.quantize(Decimal("0.01"))` in the services. */
module Money {

  /** x is a whole number of cents. */
  predicate IsCents(x: real)
  {
    (x * 100.0).Floor as real == x * 100.0
  }

  /** Nearest integer to `x`; an exact half goes to the even neighbour. */
  function RoundHalfEven(x: real): (n: int)
    ensures x - 0.5 <= n as real <= x + 0.5
    ensures n as real == x - 0.5 ==> n % 2 == 0
    ensures n as real == x + 0.5 ==> n % 2 == 0
  {
    var f := x.Floor;
    var d := x - f as real;
    if d < 0.5 then f
    else if d > 0.5 then f + 1
    else if f % 2 == 0 then f
    else f + 1
  }

  /** Decimal.quantize(Decimal("0.01")) under ROUND_HALF_EVEN. */
  function Quantize(x: real): (r: real)
    ensures IsCents(r)
    ensures x - 0.005 <= r <= x + 0.005
  {
    var n := RoundHalfEven(x * 100.0);
    CentsOf(n);
    n as real / 100.0
  }

  /** A whole number of hundredths is an amount in cents. */
  lemma CentsOf(n: int)
    ensures IsCents(n as real / 100.0)
  {
    var r := n as real / 100.0;
    assert r * 100.0 == n as real;
    assert (n as real).Floor == n;
  }

  /** Python's built-in round(v, 2), computed on the exact value (the source
      applies it to binary floats; see README). */
  function Round2(x: real): real
  {
    Quantize(x)
  }

  /** An amount already in whole cents is a fixed point of Quantize, so a
      stored bonus re-read and re-quantized does not drift. */
  lemma QuantizeIdempotent(x: real)
    requires IsCents(x)
    ensures Quantize(x) == x
  {
    var k := (x * 100.0).Floor;
    assert RoundHalfEven(x * 100.0) == k;
  }

  lemma QuantizeTwice(x: real)
    ensures Quantize(Quantize(x)) == Quantize(x)
  {
    QuantizeIdempotent(Quantize(x));
  }

  lemma RoundHalfEvenMonotone(x: real, y: real)
    requires x <= y
    ensures RoundHalfEven(x) <= RoundHalfEven(y)
  {
  }

  /** Quantize preserves order: a larger exact amount never rounds lower. */
  lemma QuantizeMonotone(x: real, y: real)
    requires x <= y
    ensures Quantize(x) <= Quantize(y)
  {
    RoundHalfEvenMonotone(x * 100.0, y * 100.0);
  }

  lemma QuantizeNonNegative(x: real)
    requires x >= 0.0
    ensures Quantize(x) >= 0.0
  {
    QuantizeMonotone(0.0, x);
    assert RoundHalfEven(0.0) == 0;
  }

  /** A positive quantized amount comes from an exact amount above half a cent. */
  lemma QuantizePositive(x: real)
    requires Quantize(x) > 0.0
    ensures x >= 0.005
  {
  }
}

=== FILE: period.dfy ===
/** Calendar periods: the month window rank qualification looks at, and the
    "YYYY-MM" key bonuses are filed under. The clock is a parameter. */
module Periods {
  import opened Domain
  import opened Text

  /** What a `datetime` guarantees about its month and day. */
  predicate ValidDate(d: Date)
  {
    1 <= d.month <= 12 && 1 <= d.day <= 31
  }

  /** `_current_period`: from the first of this month to the first of the next. */
  function MonthWindow(now: Date): (r: (Date, Date))
    requires ValidDate(now)
    ensures r.0 == Date(now.year, now.month, 1)
    ensures DateLe(r.0, now) && !DateLe(r.1, now)
    ensures ValidDate(r.1) && r.1.day == 1
    ensures now.month == 12 ==> r.1 == Date(now.year + 1, 1, 1)
    ensures now.month < 12 ==> r.1 == Date(now.year, now.month + 1, 1)
  {
    var start := Date(now.year, now.month, 1);
    if now.month == 12 then (start, Date(now.year + 1, 1, 1))
    else (start, Date(now.year, now.month + 1, 1))
  }

  /** Month windows tile the calendar: each window ends where the next begins. */
  lemma WindowsAdjacent(now: Date)
    requires ValidDate(now)
    ensures MonthWindow(MonthWindow(now).1).0 == MonthWindow(now).1
    ensures forall d :: ValidDate(d) && DateLe(MonthWindow(now).0, d) && !DateLe(MonthWindow(now).1, d) ==>
      MonthWindow(d) == MonthWindow(now)
  {
  }

  /** f"{now.year}-{now.month:02}". */
  function PeriodKey(now: Date): (r: string)
    requires ValidDate(now)
    ensures |r| == |NatToString(now.year)| + 3
    ensures r[|NatToString(now.year)|] == '-'
    ensures forall i :: 0 <= i < |r| && i != |NatToString(now.year)| ==> IsDigit(r[i])
  {
    NatToString(now.year) + "-" + Pad2(now.month)
  }

  /** Reading a "YYYY-MM" key back: the digits before and after the dash. */
  function ParsePeriodKey(s: string): (r: (nat, nat))
  {
    var k := IndexOf(s, '-');
    if k < 0 then (ParseNat(s), 0) else (ParseNat(s[..k]), ParseNat(s[k + 1..]))
  }

  /** The key names the year and month it was made from. */
  lemma PeriodKeyRoundTrip(now: Date)
    requires ValidDate(now)
    ensures ParsePeriodKey(PeriodKey(now)) == (now.year, now.month)
  {
    var y := NatToString(now.year);
    var key := PeriodKey(now);
    assert '-' !in y;
    assert key[..|y|] == y;
    assert IndexOf(key, '-') == |y| by {
      assert key[|y|] == '-';
      assert '-' !in key[..|y|];
    }
    assert key[|y| + 1..] == Pad2(now.month);
    ParseNatToString(now.year);
    if now.month < 10 {
      var m := NatToString(now.month);
      var p := Pad2(now.month);
      assert p == "0" + m && |m| == 1;
      assert p[..1] == "0";
      assert ParseNat("0") == 0;
      assert DigitValue(p[1]) == now.month;
    } else {
      ParseNatToString(now.month);
    }
  }

  /** Two dates in the same month share a key; dates in different months do not. */
  lemma PeriodKeyInjective(a: Date, b: Date)
    requires ValidDate(a) && ValidDate(b)
    ensures PeriodKey(a) == PeriodKey(b) <==> a.year == b.year && a.month == b.month
  {
    if PeriodKey(a) == PeriodKey(b) {
      PeriodKeyRoundTrip(a);
      PeriodKeyRoundTrip(b);
    }
  }
}

=== FILE: profiles.dfy ===
/** UserMLMDAO lookups and single-profile updates keyed by the owning
    user's id (`{"user_id": ...}` filters). */
module Profiles {
  import opened Wrappers
  import opened Domain
  import Repository

  function ByUser(u: Id): Profile -> bool
  {
    (p: Profile) => p.userId == u
  }

  /** Position of the first profile of user `u`. */
  function ProfileIndex(profiles: seq<Profile>, u: Id): (r: Option<nat>)
    ensures r.Some? ==> r.value < |profiles| && profiles[r.value].userId == u
    ensures r.Some? ==> forall j :: 0 <= j < r.value ==> profiles[j].userId != u
    ensures r.None? <==> forall p :: p in profiles ==> p.userId != u
  {
    Repository.FirstIndex(profiles, ByUser(u))
  }

  /** `find_one_or_none({"user_id": u})`. */
  function ProfileOf(profiles: seq<Profile>, u: Id): (r: Option<Profile>)
    ensures r.Some? ==> r.value in profiles && r.value.userId == u
    ensures r.None? <==> forall p :: p in profiles ==> p.userId != u
    ensures r.Some? ==> ProfileIndex(profiles, u).Some? && r.value == profiles[ProfileIndex(profiles, u).value]
  {
    match ProfileIndex(profiles, u)
    case None => None
    case Some(i) => Some(profiles[i])
  }

  /** `profiles'` equals `profiles` except at position `i`, which holds `p`. */
  ghost predicate OnlyChanged(profiles: seq<Profile>, profiles': seq<Profile>, i: int, p: Profile)
  {
    && 0 <= i < |profiles| == |profiles'|
    && profiles'[i] == p
    && forall j :: 0 <= j < |profiles| && j != i ==> profiles'[j] == profiles[j]
  }
}

=== FILE: purchase.dfy ===
/** PurchaseService: a user buys a product from the catalogue. */
module PurchaseService {
  import opened Wrappers
  import opened Domain
  import opened UserDao
  import Repository
  import Seqs

  /** `find_one_or_none_by_id` on products. */
  function FindProduct(products: seq<Product>, id: Id): (r: Option<Product>)
    ensures r.Some? ==> r.value in products && r.value.id == id
    ensures r.None? <==> forall p :: p in products ==> p.id != id
  {
    Repository.First(products, (p: Product) => p.id == id)
  }

  /** The response of a successful purchase. */
  datatype Receipt = Receipt(message: string, pvEarned: real, newPvBalance: real, newCashBalance: real, transactionId: Id)

  const NotAvailable: Failure := HttpError(409, "Product not available for purchase")
  const NoUser: Failure := HttpError(404, "User not found")
  const NoFunds: Failure := HttpError(400, "Not enough funds to complete purchase")

  /** `_validate_product`: the product exists and is active. */
  function ValidateProduct(products: seq<Product>, id: Id): (r: Result<Product, Failure>)
    ensures r.Ok? <==> FindProduct(products, id).Some? && FindProduct(products, id).value.isActive
    ensures r.Ok? ==> r.value == FindProduct(products, id).value
    ensures r.Err? ==> r.error == NotAvailable
  {
    match FindProduct(products, id)
    case None => Err(NotAvailable)
    case Some(p) => if p.isActive then Ok(p) else Err(NotAvailable)
  }

  /** The cart rows `_remove_from_cart` keeps. */
  function OtherThan(u: Id, product: Id): CartItem -> bool
  {
    (c: CartItem) => !(c.userId == u && c.productId == product)
  }

  /** `delete({"user_id": u, "product_id": product})` on the cart. */
  function RemoveFromCart(cart: seq<CartItem>, u: Id, product: Id): (r: seq<CartItem>)
    ensures forall c :: c in r <==> c in cart && !(c.userId == u && c.productId == product)
    ensures Seqs.Subsequence(r, cart)
  {
    Seqs.SelectKeepsOrder(cart, OtherThan(u, product));
    Seqs.Select(cart, OtherThan(u, product))
  }

  /** The transaction `_create_transaction` writes. */
  function PurchaseTransaction(txs: seq<Transaction>, u: Id, p: Product): Transaction
  {
    Transaction(NextId(TransactionIds(txs)), u, None, p.price, p.pvValue, Purchase, Completed, Some(p.id), "product_purchase")
  }

  /** `_update_balances`: add the product's PV, then debit its price. */
  function Settle(users: seq<User>, u: Id, p: Product): (r: seq<User>)
    requires FindUser(users, u).Some?
    ensures PvOf(r, u) == PvOf(users, u) + p.pvValue
    ensures CashOf(r, u) == CashOf(users, u) - p.price
    ensures forall x :: x != u ==> PvOf(r, x) == PvOf(users, x) && CashOf(r, x) == CashOf(users, x)
    ensures TotalCash(r) == TotalCash(users) - p.price
  {
    var debit := -p.price;
    SettleMoves(users, u, p.pvValue, debit);
    UpdateCashBalance(UpdatePvBalance(users, u, p.pvValue).value, u, debit).value
  }

  /** A PV update followed by a cash update of the same user. */
  lemma SettleMoves(users: seq<User>, u: Id, pv: real, cash: real)
    requires FindUser(users, u).Some?
    ensures UpdatePvBalance(users, u, pv).Ok?
    ensures UpdateCashBalance(UpdatePvBalance(users, u, pv).value, u, cash).Ok?
    ensures var r := UpdateCashBalance(UpdatePvBalance(users, u, pv).value, u, cash).value;
      && PvOf(r, u) == PvOf(users, u) + pv
      && CashOf(r, u) == CashOf(users, u) + cash
      && (forall x :: x != u ==> PvOf(r, x) == PvOf(users, x) && CashOf(r, x) == CashOf(users, x))
      && TotalCash(r) == TotalCash(users) + cash
  {
    PvUpdateMoves(users, u, pv);
    var users1 := UpdatePvBalance(users, u, pv).value;
    assert FindUser(users1, u).Some?;
    CashUpdateMoves(users1, u, cash);
  }

  /** `process_purchase`: validate the product (409), the user (404) and the
      funds (400), in that order and before any write; then record the
      interaction, add PV, debit cash, log the transaction and clear the
      cart entries for this product. */
  function ProcessPurchase(db: Db, u: Id, product: Id): (r: Result<(Db, Receipt), Failure>)
    ensures ValidateProduct(db.products, product).Err? ==> r == Err(NotAvailable)
    ensures ValidateProduct(db.products, product).Ok? && FindUser(db.users, u).None? ==> r == Err(NoUser)
    ensures (ValidateProduct(db.products, product).Ok? && FindUser(db.users, u).Some?
             && FindUser(db.users, u).value.cashBalance < ValidateProduct(db.products, product).value.price) ==> r == Err(NoFunds)
    ensures r.Ok? <==>
      (ValidateProduct(db.products, product).Ok? && FindUser(db.users, u).Some?
       && FindUser(db.users, u).value.cashBalance >= ValidateProduct(db.products, product).value.price)
    ensures r.Ok? ==>
      var p := ValidateProduct(db.products, product).value;
      var (db', receipt) := r.value;
      && db' == db.(users := db'.users, interactions := db'.interactions, transactions := db'.transactions, cart := db'.cart)
      && PvOf(db'.users, u) == PvOf(db.users, u) + p.pvValue
      && CashOf(db'.users, u) == CashOf(db.users, u) - p.price
      && (forall x :: x != u ==> PvOf(db'.users, x) == PvOf(db.users, x) && CashOf(db'.users, x) == CashOf(db.users, x))
      && TotalCash(db'.users) == TotalCash(db.users) - p.price
      && db'.interactions == db.interactions + [Interaction(u, p.id, PurchaseInteraction, p.pvValue)]
      && |db'.transactions| == |db.transactions| + 1
      && db'.transactions[..|db.transactions|] == db.transactions
      && (var t := db'.transactions[|db.transactions|];
          t.id !in TransactionIds(db.transactions) && t.buyerId == u && t.cashAmount == p.price && t.pvAmount == p.pvValue
          && t.kind == Purchase && t.status == Completed && t.productId == Some(p.id) && t.id == receipt.transactionId)
      && (forall c :: c in db'.cart <==> c in db.cart && !(c.userId == u && c.productId == product))
      && receipt.pvEarned == p.pvValue
      && receipt.newPvBalance == PvOf(db'.users, u) && receipt.newCashBalance == CashOf(db'.users, u)
  {
    match ValidateProduct(db.products, product)
    case Err(e) => Err(e)
    case Ok(p) =>
      match FindUser(db.users, u)
      case None => Err(NoUser)
      case Some(user) =>
        if user.cashBalance < p.price then Err(NoFunds)
        else
          var users' := Settle(db.users, u, p);
          var t := PurchaseTransaction(db.transactions, u, p);
          var db' := db.(users := users', interactions := db.interactions + [Interaction(u, p.id, PurchaseInteraction, p.pvValue)],
                         transactions := db.transactions + [t], cart := RemoveFromCart(db.cart, u, product));
          Ok((db', Receipt("Purchase successful", p.pvValue, PvOf(users', u), CashOf(users', u), t.id)))
  }

  /** The funds check guarantees a successful purchase never leaves the
      buyer's cash negative. */
  lemma PurchaseKeepsCashNonNegative(db: Db, u: Id, product: Id)
    requires ProcessPurchase(db, u, product).Ok?
    ensures CashOf(ProcessPurchase(db, u, product).value.0.users, u) >= 0.0
  {
  }
}

=== FILE: query_guard.dfy ===
/** The assistant query endpoint: input guards, the per-user sliding-window
    rate limiter, and response truncation. The upstream model call is a
    parameter (its reply text). */
module QueryGuard {
  import opened Wrappers
  import opened Domain
  import opened Text
  import opened Seqs

  const RequestLimit: nat := 10
  const TimeWindow: real := 60.0
  const MaxQuery: nat := 500
  const MaxResponse: nat := 5000

  const EmptyQuery: Failure := HttpError(400, "Query cannot be empty.")
  const LongQuery: Failure := HttpError(400, "Query too long max only 500 characters.")
  const TooMany: Failure := HttpError(429, "Too much request. Please Try again later.")
  const LongResponse: string := "Response too long max only 5000 characters."

  /** Request timestamps (seconds) per user, oldest first. */
  type Requests = map<Id, seq<real>>

  function After(cut: real): real -> bool
  {
    (t: real) => t > cut
  }

  /** The user's timestamps, an absent user holding none. */
  function History(log: Requests, user: Id): seq<real>
  {
    if user in log then log[user] else []
  }

  /** The timestamps still inside the window ending at `now`. */
  function Recent(ts: seq<real>, now: real): (r: seq<real>)
    ensures |r| <= |ts|
    ensures forall t :: t in r <==> t in ts && t > now - TimeWindow
  {
    Select(ts, After(now - TimeWindow))
  }

  /** `is_rate_limited`: prune the user's timestamps to the window; refuse
      when the limit is already reached, otherwise record `now`. */
  function IsRateLimited(log: Requests, user: Id, now: real): (r: (Requests, bool))
    ensures r.0.Keys == log.Keys + {user}
    ensures forall v :: v in log && v != user ==> r.0[v] == log[v]
    ensures r.1 <==> |Recent(History(log, user), now)| >= RequestLimit
    ensures r.1 ==> r.0[user] == Recent(History(log, user), now)
    ensures !r.1 ==> r.0[user] == Recent(History(log, user), now) + [now]
  {
    var kept := Recent(History(log, user), now);
    if |kept| >= RequestLimit then (log[user := kept], true)
    else (log[user := kept + [now]], false)
  }

  /** What a well-kept history looks like at time `now`: no more than the
      limit, every entry inside the window and none in the future. */
  ghost predicate Bounded(ts: seq<real>, now: real)
  {
    |ts| <= RequestLimit && forall t :: t in ts ==> now - TimeWindow < t <= now
  }

  /** With a clock that does not run backwards, every call leaves the user
      with at most ten timestamps, all within the last sixty seconds. */
  lemma RateLimitBounded(log: Requests, user: Id, now: real)
    requires |History(log, user)| <= RequestLimit
    requires forall t :: t in History(log, user) ==> t <= now
    ensures Bounded(IsRateLimited(log, user, now).0[user], now)
  {
  }

  /** A refused call leaves nothing to prune, so refusing again at the same
      instant changes nothing. */
  lemma RefusalIsStable(log: Requests, user: Id, now: real)
    requires IsRateLimited(log, user, now).1
    ensures IsRateLimited(IsRateLimited(log, user, now).0, user, now) == IsRateLimited(log, user, now)
  {
    var r := IsRateLimited(log, user, now);
    var kept := Recent(History(log, user), now);
    SelectKeepsAll(kept, After(now - TimeWindow));
    assert Recent(History(r.0, user), now) == kept;
    assert r.0[user := kept] == r.0;
  }

  /** The input guards: a blank query, then an over-long one. */
  function CheckQuery(query: string): (r: Result<string, Failure>)
    ensures r.Ok? <==> Strip(query) != "" && |query| <= MaxQuery
    ensures r.Ok? ==> r.value == query
    ensures Strip(query) == "" ==> r == Err(EmptyQuery)
    ensures Strip(query) != "" && |query| > MaxQuery ==> r == Err(LongQuery)
  {
    if Strip(query) == "" then Err(EmptyQuery)
    else if |query| > MaxQuery then Err(LongQuery)
    else Ok(query)
  }

  /** The reply cut to its first 5000 characters. */
  function Truncate(text: string): (r: string)
    ensures |r| <= MaxResponse
    ensures r <= text
    ensures r == text <==> |text| <= MaxResponse
  {
    if |text| > MaxResponse then text[..MaxResponse] else text
  }

  lemma TruncateIdempotent(text: string)
    ensures Truncate(Truncate(text)) == Truncate(text)
  {
  }

  datatype QueryLog = QueryLog(userId: Id, query: string, response: string)
  datatype Answer = Answer(query: string, response: string, warning: Option<string>)
  datatype GuardState = GuardState(requests: Requests, logs: seq<QueryLog>)

  /** `query_openai` given the upstream reply: guards, rate limit, then the
      stored and returned (possibly truncated) reply. */
  function Query(st: GuardState, user: Id, query: string, now: real, reply: string): (r: Result<(GuardState, Answer), Failure>)
    ensures CheckQuery(query).Err? ==> r == Err(CheckQuery(query).error)
    ensures CheckQuery(query).Ok? && IsRateLimited(st.requests, user, now).1 ==> r == Err(TooMany)
    ensures r.Ok? <==> CheckQuery(query).Ok? && !IsRateLimited(st.requests, user, now).1
    ensures r.Ok? ==>
      && r.value.0.requests == IsRateLimited(st.requests, user, now).0
      && r.value.0.logs == st.logs + [QueryLog(user, query, r.value.1.response)]
      && r.value.1.query == query
      && r.value.1.response == Truncate(reply)
      && (r.value.1.warning.Some? <==> |reply| > MaxResponse)
  {
    match CheckQuery(query)
    case Err(e) => Err(e)
    case Ok(_) =>
      var (requests, limited) := IsRateLimited(st.requests, user, now);
      if limited then Err(TooMany)
      else
        var text := Truncate(reply);
        var warning := if |reply| > MaxResponse then Some(LongResponse) else None;
        Ok((GuardState(requests, st.logs + [QueryLog(user, query, text)]), Answer(query, text, warning)))
  }

  /** An accepted call keeps counting against the user for the next sixty
      seconds. */
  lemma AcceptedCallCounts(log: Requests, user: Id, now: real, later: real)
    requires !IsRateLimited(log, user, now).1
    requires now <= later < now + TimeWindow
    ensures now in Recent(History(IsRateLimited(log, user, now).0, user), later)
  {
  }
}

=== FILE: rank_promotion.dfy ===
/** RankPromotionService: promotion by the number of active lines in the
    current month. Active lines are counted as the keys of
    `count_active_lines` name them (see Hierarchy.CountActiveLines). */
module RankPromotion {
  import opened Wrappers
  import opened Domain
  import opened Profiles
  import opened Periods
  import Hierarchy

  /** The requirement table, in dict (declaration) order: minimal line PV per rank. */
  const Requirements: seq<(Rank, real)> :=
    [(Carat1, 500.0), (Carat2, 1000.0), (Carat3, 2000.0), (Crystal, 4000.0), (Rubin, 6000.0), (Sapphire, 10000.0)]

  /** Active lines a rank needs. */
  const RequiredLines: nat := 3

  /** Declaration position in MLMRankType. */
  function RankIndex(r: Rank): nat
  {
    match r
    case Newbie => 0 case Bronze => 1 case Silver => 2 case Gold => 3 case Carat1 => 4
    case Carat2 => 5 case Carat3 => 6 case Crystal => 7 case Rubin => 8 case Sapphire => 9
    case Emerald => 10 case Diamond => 11 case BlackDiamond => 12 case RedDiamond => 13
    case GreenDiamond => 14 case BlueDiamond => 15 case VioletDiamond => 16 case PurpleDiamond => 17
  }

  /** Ranks are tried in declaration order with strictly rising thresholds. */
  lemma RequirementsOrdered()
    ensures forall i, j :: 0 <= i < j < |Requirements| ==>
      RankIndex(Requirements[i].0) < RankIndex(Requirements[j].0) && Requirements[i].1 < Requirements[j].1
  {
  }

  /** Active lines of `u` in the window at `threshold`. */
  function Active(edges: seq<Edge>, activities: seq<Activity>, u: Id, threshold: real, window: (Date, Date)): nat
  {
    Hierarchy.CountActiveLines(edges, activities, u, threshold, window.0, window.1)
  }

  /** Whether requirement `i` would be granted: it is not the current rank
      and enough lines are active at its threshold. */
  predicate Grants(i: nat, current: Rank, edges: seq<Edge>, activities: seq<Activity>, u: Id, window: (Date, Date))
    requires i < |Requirements|
  {
    Requirements[i].0 != current && Active(edges, activities, u, Requirements[i].1, window) >= RequiredLines
  }

  /** The loop over the requirement table from position `k`. */
  function FirstGranted(k: nat, current: Rank, edges: seq<Edge>, activities: seq<Activity>, u: Id, window: (Date, Date))
    : (r: Option<nat>)
    requires k <= |Requirements|
    ensures r.Some? ==> k <= r.value < |Requirements| && Grants(r.value, current, edges, activities, u, window)
    ensures r.Some? ==> forall j :: k <= j < r.value ==> !Grants(j, current, edges, activities, u, window)
    ensures r.None? ==> forall j :: k <= j < |Requirements| ==> !Grants(j, current, edges, activities, u, window)
    decreases |Requirements| - k
  {
    if k == |Requirements| then None
    else if Grants(k, current, edges, activities, u, window) then Some(k)
    else FirstGranted(k + 1, current, edges, activities, u, window)
  }

  /** `check_and_promote`: profiles, rank history, and the rank returned. */
  function CheckAndPromote(profiles: seq<Profile>, history: seq<RankHistory>, edges: seq<Edge>,
                           activities: seq<Activity>, u: Id, now: Date)
    : (r: (seq<Profile>, seq<RankHistory>, Option<Rank>))
    requires ValidDate(now)
    ensures ProfileOf(profiles, u).None? ==> r == (profiles, history, None)
    ensures r.2.None? ==> r.0 == profiles && r.1 == history
    ensures r.2.None? && ProfileOf(profiles, u).Some? ==>
      forall j :: 0 <= j < |Requirements| ==> !Grants(j, ProfileOf(profiles, u).value.currentRank, edges, activities, u, MonthWindow(now))
    ensures r.2.Some? ==>
      && ProfileOf(profiles, u).Some?
      && var p := ProfileOf(profiles, u).value;
         && (exists i :: 0 <= i < |Requirements| && Requirements[i].0 == r.2.value
               && Grants(i, p.currentRank, edges, activities, u, MonthWindow(now))
               && forall j :: 0 <= j < i ==> !Grants(j, p.currentRank, edges, activities, u, MonthWindow(now)))
         && OnlyChanged(profiles, r.0, ProfileIndex(profiles, u).value, p.(currentRank := r.2.value))
         && r.1 == history + [RankHistory(p.id, r.2.value, p.currentClub, PeriodKey(now), p.groupVolume, p.personalVolume)]
  {
    match ProfileIndex(profiles, u)
    case None => (profiles, history, None)
    case Some(idx) =>
      var p := profiles[idx];
      match FirstGranted(0, p.currentRank, edges, activities, u, MonthWindow(now))
      case None => (profiles, history, None)
      case Some(i) =>
        var rank := Requirements[i].0;
        (profiles[idx := p.(currentRank := rank)],
         history + [RankHistory(p.id, rank, p.currentClub, PeriodKey(now), p.groupVolume, p.personalVolume)],
         Some(rank))
  }

  /** Lines active at a higher threshold are active at a lower one, so a
      promotion always lands on 1 CARAT, or on 2 CARAT for a 1-CARAT user. */
  lemma PromotionTarget(profiles: seq<Profile>, history: seq<RankHistory>, edges: seq<Edge>,
                        activities: seq<Activity>, u: Id, now: Date)
    requires ValidDate(now)
    requires CheckAndPromote(profiles, history, edges, activities, u, now).2.Some?
    ensures var rank := CheckAndPromote(profiles, history, edges, activities, u, now).2.value;
      rank == Carat1 || (rank == Carat2 && ProfileOf(profiles, u).value.currentRank == Carat1)
  {
    var p := ProfileOf(profiles, u).value;
    var w := MonthWindow(now);
    var i := FirstGranted(0, p.currentRank, edges, activities, u, w).value;
    if i >= 1 {
      Hierarchy.CountAntitoneInThreshold(edges, activities, u, Requirements[0].1, Requirements[i].1, w.0, w.1);
      assert !Grants(0, p.currentRank, edges, activities, u, w);
      assert p.currentRank == Carat1;
    }
    if i >= 2 {
      Hierarchy.CountAntitoneInThreshold(edges, activities, u, Requirements[1].1, Requirements[i].1, w.0, w.1);
    }
  }

  /** Only the current rank is skipped: any user above 1 CARAT with three
      lines active at 500 is moved down to 1 CARAT. */
  lemma RankCanGoDown(profiles: seq<Profile>, history: seq<RankHistory>, edges: seq<Edge>,
                      activities: seq<Activity>, u: Id, now: Date)
    requires ValidDate(now)
    requires ProfileOf(profiles, u).Some? && RankIndex(ProfileOf(profiles, u).value.currentRank) > RankIndex(Carat1)
    requires Active(edges, activities, u, 500.0, MonthWindow(now)) >= RequiredLines
    ensures CheckAndPromote(profiles, history, edges, activities, u, now).2 == Some(Carat1)
    ensures RankIndex(CheckAndPromote(profiles, history, edges, activities, u, now).0[ProfileIndex(profiles, u).value].currentRank)
          < RankIndex(ProfileOf(profiles, u).value.currentRank)
  {
    assert Grants(0, ProfileOf(profiles, u).value.currentRank, edges, activities, u, MonthWindow(now));
  }

  /** A promotion rewrites one profile's rank and logs the profile key, so
      it keeps profile keys and history rows apart from user keys. */
  lemma PromotionKeepsIdsApart(users: seq<User>, profiles: seq<Profile>, history: seq<RankHistory>,
                               edges: seq<Edge>, activities: seq<Activity>, u: Id, now: Date)
    requires ValidDate(now)
    requires ProfilesApart(users, profiles) && HistoryApart(users, history)
    ensures var r := CheckAndPromote(profiles, history, edges, activities, u, now);
      ProfilesApart(users, r.0) && HistoryApart(users, r.1)
  {
    var r := CheckAndPromote(profiles, history, edges, activities, u, now);
    if r.2.Some? {
      var p := ProfileOf(profiles, u).value;
      var idx := ProfileIndex(profiles, u).value;
      forall q, x | q in r.0 && x in users ensures q.id != x.id {
        var j :| 0 <= j < |r.0| && r.0[j] == q;
        if j == idx {
          assert q.id == p.id;
        } else {
          assert q == profiles[j];
        }
      }
      forall h, x | h in r.1 && x in users ensures h.userId != x.id {
        if h !in history {
          assert h.userId == p.id;
        }
      }
    }
  }
}

=== FILE: repository.dfy ===
/** The generic data-access object every DAO inherits: a table of rows
    keyed by field name, with the field-name validation, equality and
    `in`/`not_in` filters, paging, update, delete and count of the source.
    Services use the typed shorthands `Where` and `First` at the bottom,
    which are `find_all` and `find_one_or_none` with the default arguments
    and an equality filter on valid fields. */
module Repository {
  import opened Wrappers
  import opened Seqs

  datatype Value = Null | IntV(i: int) | DecV(d: real) | StrV(s: string) | BoolV(b: bool)

  /** A `find_all` filter value: a plain value (compared with ==) or an
      (operator, operand) pair. */
  datatype Cond = Eq(v: Value) | Op(name: string, operand: seq<Value>)

  datatype DaoError =
    | InvalidFields(bad: set<string>)
    | LimitTooLarge
    | UnsupportedOperator(ops: set<string>)
    | RecordNotFound
    | MissingDeleteFilter

  type Row = map<string, Value>

  /** A table: the model's declared fields and its rows in storage order. */
  datatype Table = Table(fields: set<string>, rows: seq<Row>)

  const MaxLimit: nat := 1000
  const DefaultLimit: nat := 100

  function Get(row: Row, f: string): Value
  {
    if f in row then row[f] else Null
  }

  /** `_validate_fields`: every key must name a field of the model. */
  function ValidateFields(fields: set<string>, keys: set<string>): (r: Option<DaoError>)
    ensures r.None? <==> keys <= fields
    ensures r.Some? ==> r.value == InvalidFields(keys - fields)
  {
    if keys <= fields then None else Some(InvalidFields(keys - fields))
  }

  predicate MatchesAll(row: Row, filters: map<string, Value>)
  {
    forall f :: f in filters ==> Get(row, f) == filters[f]
  }

  /** Index of the first row satisfying `p`. */
  function FirstIndex<T>(rows: seq<T>, p: T -> bool): (r: Option<nat>)
    ensures r.Some? ==>
      r.value < |rows| && p(rows[r.value]) && forall j :: 0 <= j < r.value ==> !p(rows[j])
    ensures r.None? ==> forall j :: 0 <= j < |rows| ==> !p(rows[j])
  {
    if |rows| == 0 then None
    else if p(rows[0]) then Some(0)
    else match FirstIndex(rows[1..], p)
      case None => None
      case Some(k) => Some(k + 1)
  }

  /** `find_one_or_none`: the first row matching every equality filter. */
  function FindOneOrNone(t: Table, filters: map<string, Value>): (r: Result<Option<Row>, DaoError>)
    ensures r.Err? <==> !(filters.Keys <= t.fields)
    ensures r.Ok? && r.value.Some? ==>
      exists i :: 0 <= i < |t.rows| && t.rows[i] == r.value.value && MatchesAll(t.rows[i], filters)
        && forall j :: 0 <= j < i ==> !MatchesAll(t.rows[j], filters)
    ensures r.Ok? && r.value.None? ==> forall row :: row in t.rows ==> !MatchesAll(row, filters)
  {
    match ValidateFields(t.fields, filters.Keys)
    case Some(e) => Err(e)
    case None =>
      match FirstIndex(t.rows, row => MatchesAll(row, filters))
      case None => Ok(None)
      case Some(i) => Ok(Some(t.rows[i]))
  }

  /** `find_one_or_none_by_id`: session.get on the primary key "id". */
  function FindById(t: Table, id: Value): (r: Option<Row>)
    ensures r.Some? ==> r.value in t.rows && Get(r.value, "id") == id
    ensures r.None? ==> forall row :: row in t.rows ==> Get(row, "id") != id
  {
    match FirstIndex(t.rows, row => Get(row, "id") == id)
    case None => None
    case Some(i) => Some(t.rows[i])
  }

  predicate SupportedOp(name: string) { name == "in" || name == "not_in" }

  /** Whether a row satisfies one `find_all` condition; None values are skipped. */
  predicate Satisfies(row: Row, f: string, c: Cond)
  {
    match c
    case Eq(v) => v == Null || Get(row, f) == v
    case Op(name, operand) =>
      if name == "in" then Get(row, f) in operand
      else name == "not_in" && Get(row, f) !in operand
  }

  predicate SatisfiesAll(row: Row, filters: map<string, Cond>)
  {
    forall f :: f in filters ==> Satisfies(row, f, filters[f])
  }

  /** The operators of the filter pairs other than "in" and "not_in". */
  function UnsupportedOps(filters: map<string, Cond>): set<string>
  {
    set f | f in filters && filters[f].Op? && !SupportedOp(filters[f].name) :: filters[f].name
  }

  function Satisfier(filters: map<string, Cond>): Row -> bool
  {
    row => SatisfiesAll(row, filters)
  }

  function Matcher(filters: map<string, Value>): Row -> bool
  {
    row => MatchesAll(row, filters)
  }

  /** `offset(skip).limit(limit)` */
  function Page<T>(s: seq<T>, skip: nat, limit: nat): (r: seq<T>)
    ensures |r| <= limit
    ensures |r| == if skip >= |s| then 0 else if limit < |s| - skip then limit else |s| - skip
    ensures forall i :: 0 <= i < |r| ==> r[i] == s[skip + i]
  {
    Take(Drop(s, skip), limit)
  }

  /** `find_all(skip, limit, filters)` (storage order; `order_by` is not modelled). */
  function FindAll(t: Table, skip: nat, limit: nat, filters: map<string, Cond>): (r: Result<seq<Row>, DaoError>)
    ensures limit > MaxLimit ==> r == Err(LimitTooLarge)
    ensures limit <= MaxLimit && !(filters.Keys <= t.fields) ==> r.Err? && r.error.InvalidFields?
    ensures limit <= MaxLimit && filters.Keys <= t.fields && UnsupportedOps(filters) != {} ==>
      r == Err(UnsupportedOperator(UnsupportedOps(filters)))
    ensures r.Ok? ==>
      && limit <= MaxLimit && filters.Keys <= t.fields && UnsupportedOps(filters) == {}
      && r.value == Page(Select(t.rows, Satisfier(filters)), skip, limit)
  {
    if limit > MaxLimit then Err(LimitTooLarge)
    else match ValidateFields(t.fields, filters.Keys)
      case Some(e) => Err(e)
      case None =>
        if UnsupportedOps(filters) != {} then Err(UnsupportedOperator(UnsupportedOps(filters)))
        else Ok(Page(Select(t.rows, Satisfier(filters)), skip, limit))
  }

  /** Row `i` of `t` is the first match of `filters`; in `t'` it carries the
      supplied values and keeps its other fields, and no other row changes. */
  ghost predicate UpdatedAt(t: Table, t': Table, filters: map<string, Value>, values: map<string, Value>, i: int)
  {
    && 0 <= i < |t.rows| == |t'.rows|
    && MatchesAll(t.rows[i], filters)
    && (forall j :: 0 <= j < i ==> !MatchesAll(t.rows[j], filters))
    && (forall f :: f in values ==> Get(t'.rows[i], f) == values[f])
    && (forall f :: f !in values ==> Get(t'.rows[i], f) == Get(t.rows[i], f))
    && (forall j :: 0 <= j < |t.rows| && j != i ==> t'.rows[j] == t.rows[j])
  }

  /** `update(filters, values)`: the first matching row takes the supplied values. */
  function Update(t: Table, filters: map<string, Value>, values: map<string, Value>): (r: Result<(Table, Row), DaoError>)
    ensures r.Err? <==>
      || !(filters.Keys <= t.fields) || !(values.Keys <= t.fields)
      || forall row :: row in t.rows ==> !MatchesAll(row, filters)
    ensures r.Ok? ==>
      var (t', updated) := r.value;
      && t'.fields == t.fields && |t'.rows| == |t.rows|
      && exists i :: UpdatedAt(t, t', filters, values, i)
  {
    match ValidateFields(t.fields, filters.Keys)
    case Some(e) => Err(e)
    case None =>
      match ValidateFields(t.fields, values.Keys)
      case Some(e) => Err(e)
      case None =>
        match FirstIndex(t.rows, row => MatchesAll(row, filters))
        case None => Err(RecordNotFound)
        case Some(i) =>
          var updated := t.rows[i] + values;
          var t' := Table(t.fields, t.rows[i := updated]);
          assert UpdatedAt(t, t', filters, values, i);
          Ok((t', updated))
  }

  /** `delete(filters)`: removes every matching row and reports how many. */
  function Delete(t: Table, filters: map<string, Value>): (r: Result<(Table, nat), DaoError>)
    ensures |filters| == 0 ==> r == Err(MissingDeleteFilter)
    ensures r.Err? <==> |filters| == 0 || !(filters.Keys <= t.fields)
    ensures r.Ok? ==> var (t', n) := r.value;
      t'.fields == t.fields
      && (forall row :: row in t'.rows <==> row in t.rows && !MatchesAll(row, filters))
      && n == |Select(t.rows, Matcher(filters))|
      && n + |t'.rows| == |t.rows|
  {
    if |filters| == 0 then Err(MissingDeleteFilter)
    else match ValidateFields(t.fields, filters.Keys)
      case Some(e) => Err(e)
      case None =>
        var kept := Select(t.rows, row => !MatchesAll(row, filters));
        SelectSplit(t.rows, Matcher(filters), row => !MatchesAll(row, filters));
        Ok((Table(t.fields, kept), |t.rows| - |kept|))
  }

  /** `count(filters)`: rows matching the non-None equality filters. */
  function Count(t: Table, filters: map<string, Value>): (r: Result<nat, DaoError>)
    ensures r.Err? <==> !(filters.Keys <= t.fields)
    ensures r.Ok? ==> r.value <= |t.rows|
    ensures r.Ok? ==> r.value == |Select(t.rows, row => forall f :: f in filters && filters[f] != Null ==> Get(row, f) == filters[f])|
    ensures (forall f :: f in filters ==> filters[f] == Null) && filters.Keys <= t.fields ==> r == Ok(|t.rows|)
  {
    match ValidateFields(t.fields, filters.Keys)
    case Some(e) => Err(e)
    case None =>
      var p := row => forall f :: f in filters && filters[f] != Null ==> Get(row, f) == filters[f];
      SelectAll(t.rows, p);
      Ok(|Select(t.rows, p)|)
  }

  lemma {:induction false} SelectAll<T(!new)>(s: seq<T>, p: T -> bool)
    ensures (forall x :: x in s ==> p(x)) ==> Select(s, p) == s
    decreases |s|
  {
    if |s| > 0 {
      SelectAll(s[1..], p);
    }
  }

  /** `add(values)`: validates the keys and appends the row. */
  function Add(t: Table, values: Row): (r: Result<Table, DaoError>)
    ensures r.Err? <==> !(values.Keys <= t.fields)
    ensures r.Ok? ==> r.value.fields == t.fields && r.value.rows == t.rows + [values]
  {
    match ValidateFields(t.fields, values.Keys)
    case Some(e) => Err(e)
    case None => Ok(Table(t.fields, t.rows + [values]))
  }

  /** Typed `find_all(filters=...)` with default skip 0 and limit 100. */
  function Where<T(!new)>(rows: seq<T>, p: T -> bool): (r: seq<T>)
    ensures |r| <= DefaultLimit
    ensures r == Take(Select(rows, p), DefaultLimit)
    ensures forall x :: x in r ==> x in rows && p(x)
    ensures |Select(rows, p)| <= DefaultLimit ==> r == Select(rows, p)
  {
    Take(Select(rows, p), DefaultLimit)
  }

  /** `x` is the first row of `rows` satisfying `p`, the one `.first()`
      returns. */
  ghost predicate IsFirst<T>(rows: seq<T>, p: T -> bool, x: T)
  {
    exists i :: 0 <= i < |rows| && rows[i] == x && p(x) && forall j :: 0 <= j < i ==> !p(rows[j])
  }

  /** Typed `find_one_or_none(filters)`: the first row satisfying `p`. */
  function First<T>(rows: seq<T>, p: T -> bool): (r: Option<T>)
    ensures r.Some? ==> r.value in rows && p(r.value)
    ensures r.Some? ==> IsFirst(rows, p, r.value)
    ensures r.None? <==> forall x :: x in rows ==> !p(x)
  {
    match FirstIndex(rows, p)
    case None => None
    case Some(i) => Some(rows[i])
  }
}

=== FILE: sale.dfy ===
/** SaleService: a distributor sells a product to a buyer; the price is
    split between the seller and the company. */
module SaleService {
  import opened Wrappers
  import opened Domain
  import opened UserDao
  import PurchaseService

  const NotSeller: Failure := HttpError(403, "User is not authorized to perform sales")
  const NoUser: Failure := HttpError(404, "User not found")
  const NotForSale: Failure := HttpError(404, "Product not available for sale")
  const NoFunds: Failure := HttpError(400, "Insufficient buyer funds")

  /** The response of a completed sale. `bonusesTriggered` records whether
      the MLM bonus distribution is requested. */
  datatype SaleReceipt = SaleReceipt(
    message: string,
    transactionId: Id,
    cashAmount: real,
    pvAmount: real,
    newCashBalance: real,
    newPvBalance: real,
    kind: TransactionType,
    bonusesTriggered: bool)

  /** `_validate_seller`: the seller exists and is a distributor. */
  function ValidateSeller(users: seq<User>, id: Id): (r: Result<User, Failure>)
    ensures r.Ok? <==> FindUser(users, id).Some? && FindUser(users, id).value.isDistributor
    ensures r.Ok? ==> r.value == FindUser(users, id).value
    ensures r.Err? ==> r.error == NotSeller
  {
    match FindUser(users, id)
    case None => Err(NotSeller)
    case Some(u) => if u.isDistributor then Ok(u) else Err(NotSeller)
  }

  /** `_validate_product`: the product exists and is active. */
  function ValidateProduct(products: seq<Product>, id: Id): (r: Result<Product, Failure>)
    ensures r.Ok? <==> PurchaseService.FindProduct(products, id).Some? && PurchaseService.FindProduct(products, id).value.isActive
    ensures r.Ok? ==> r.value == PurchaseService.FindProduct(products, id).value
    ensures r.Err? ==> r.error == NotForSale
  {
    match PurchaseService.FindProduct(products, id)
    case None => Err(NotForSale)
    case Some(p) => if p.isActive then Ok(p) else Err(NotForSale)
  }

  /** `_determine_transaction_type`. */
  function TransactionKind(network: bool): (t: TransactionType)
    ensures t == NetworkSale <==> network
    ensures t == RetailSale <==> !network
  {
    if network then NetworkSale else RetailSale
  }

  /** The seller's share of the price: 50% on a network sale, 30% otherwise. */
  function SellerShare(price: real, network: bool): (s: real)
    ensures network ==> s == price / 2.0
    ensures !network ==> s == price * 3.0 / 10.0
  {
    price * (if network then 0.5 else 0.3)
  }

  /** The seller's and the company's shares add up to the price, and
      neither is negative when the price is not. */
  lemma SplitAddsUp(price: real, network: bool)
    requires price >= 0.0
    ensures var s := SellerShare(price, network);
      s + (price - s) == price && 0.0 <= s <= price && price - s >= 0.0
  {
  }

  /** The cash and PV updates of `_update_balances`, in source order:
      debit the buyer, credit the seller, add PV to the seller. */
  function SaleSteps(users: seq<User>, buyer: Id, seller: Id, debit: real, share: real, pv: real): Result<seq<User>, Failure>
  {
    match UpdateCashBalance(users, buyer, debit)
    case Err(e) => Err(e)
    case Ok(users1) =>
      match UpdateCashBalance(users1, seller, share)
      case Err(e) => Err(e)
      case Ok(users2) => UpdatePvBalance(users2, seller, pv)
  }

  lemma SaleMoves(users: seq<User>, buyer: Id, seller: Id, debit: real, share: real, pv: real)
    requires FindUser(users, buyer).Some? && FindUser(users, seller).Some?
    ensures SaleSteps(users, buyer, seller, debit, share, pv).Ok?
    ensures var r := SaleSteps(users, buyer, seller, debit, share, pv).value;
      && (buyer != seller ==> CashOf(r, buyer) == CashOf(users, buyer) + debit)
      && (buyer != seller ==> CashOf(r, seller) == CashOf(users, seller) + share)
      && (buyer == seller ==> CashOf(r, seller) == CashOf(users, seller) + debit + share)
      && PvOf(r, seller) == PvOf(users, seller) + pv
      && (buyer != seller ==> PvOf(r, buyer) == PvOf(users, buyer))
      && (forall x :: x != buyer && x != seller ==> CashOf(r, x) == CashOf(users, x) && PvOf(r, x) == PvOf(users, x))
      && TotalCash(r) == TotalCash(users) + debit + share
  {
    CashUpdateMoves(users, buyer, debit);
    var users1 := UpdateCashBalance(users, buyer, debit).value;
    assert FindUser(users1, seller).Some?;
    CashUpdateMoves(users1, seller, share);
    var users2 := UpdateCashBalance(users1, seller, share).value;
    assert FindUser(users2, seller).Some?;
    PvUpdateMoves(users2, seller, pv);
  }

  /** The transaction `_create_transaction` writes. */
  function SaleTransaction(txs: seq<Transaction>, buyer: Id, seller: Id, p: Product, kind: TransactionType): Transaction
  {
    Transaction(NextId(TransactionIds(txs)), buyer, Some(seller), p.price, p.pvValue, kind, Completed, Some(p.id), "")
  }

  /** Whether all four checks of `process_sale` pass. */
  predicate Admissible(db: Db, seller: Id, product: Id, buyer: Id)
  {
    && ValidateSeller(db.users, seller).Ok?
    && FindUser(db.users, buyer).Some?
    && ValidateProduct(db.products, product).Ok?
    && FindUser(db.users, buyer).value.cashBalance >= ValidateProduct(db.products, product).value.price
  }

  /** `process_sale` with `BonusDAO` in scope: seller (403), buyer (404),
      product (404) and funds (400) are checked in that order before any
      write; the buyer pays the price, the seller gets 50% on a network sale
      (the buyer's sponsor is the seller) and 30% otherwise plus the PV, the
      company gets the rest, and one COMPLETED transaction is logged. */
  function ProcessSale(db: Db, seller: Id, product: Id, buyer: Id): (r: Result<(Db, SaleReceipt), Failure>)
    ensures ValidateSeller(db.users, seller).Err? ==> r == Err(NotSeller)
    ensures ValidateSeller(db.users, seller).Ok? && FindUser(db.users, buyer).None? ==> r == Err(NoUser)
    ensures (ValidateSeller(db.users, seller).Ok? && FindUser(db.users, buyer).Some?
             && ValidateProduct(db.products, product).Err?) ==> r == Err(NotForSale)
    ensures (ValidateSeller(db.users, seller).Ok? && FindUser(db.users, buyer).Some? && ValidateProduct(db.products, product).Ok?
             && FindUser(db.users, buyer).value.cashBalance < ValidateProduct(db.products, product).value.price) ==> r == Err(NoFunds)
    ensures r.Ok? <==> Admissible(db, seller, product, buyer)
    ensures r.Ok? ==>
      var p := ValidateProduct(db.products, product).value;
      var network := FindUser(db.users, buyer).value.sponsorId == Some(seller);
      var share := SellerShare(p.price, network);
      var (db', receipt) := r.value;
      && db' == db.(users := db'.users, transactions := db'.transactions, companyBalance := db'.companyBalance)
      && db'.companyBalance == db.companyBalance + (p.price - share)
      && TotalCash(db'.users) + db'.companyBalance == TotalCash(db.users) + db.companyBalance
      && (buyer != seller ==> CashOf(db'.users, buyer) == CashOf(db.users, buyer) - p.price)
      && (buyer != seller ==> CashOf(db'.users, seller) == CashOf(db.users, seller) + share)
      && PvOf(db'.users, seller) == PvOf(db.users, seller) + p.pvValue
      && (forall x :: x != buyer && x != seller ==> CashOf(db'.users, x) == CashOf(db.users, x) && PvOf(db'.users, x) == PvOf(db.users, x))
      && db'.transactions == db.transactions + [SaleTransaction(db.transactions, buyer, seller, p, TransactionKind(network))]
      && receipt.kind == TransactionKind(network)
      && receipt.bonusesTriggered == network
      && receipt.transactionId !in TransactionIds(db.transactions)
      && receipt.cashAmount == p.price && receipt.pvAmount == p.pvValue
      && receipt.newCashBalance == CashOf(db'.users, seller) && receipt.newPvBalance == PvOf(db'.users, seller)
  {
    match ValidateSeller(db.users, seller)
    case Err(e) => Err(e)
    case Ok(_) =>
      match FindUser(db.users, buyer)
      case None => Err(NoUser)
      case Some(b) =>
        match ValidateProduct(db.products, product)
        case Err(e) => Err(e)
        case Ok(p) =>
          if b.cashBalance < p.price then Err(NoFunds)
          else
            var network := b.sponsorId == Some(seller);
            var share := SellerShare(p.price, network);
            var debit := -p.price;
            SaleMoves(db.users, buyer, seller, debit, share, p.pvValue);
            var users' := SaleSteps(db.users, buyer, seller, debit, share, p.pvValue).value;
            var t := SaleTransaction(db.transactions, buyer, seller, p, TransactionKind(network));
            var db' := db.(users := users', transactions := db.transactions + [t],
                           companyBalance := db.companyBalance + (p.price - share));
            Ok((db', SaleReceipt("Sale processed successfully", t.id, p.price, p.pvValue,
                                 CashOf(users', seller), PvOf(users', seller), TransactionKind(network), network)))
  }

  /** `process_sale` as written: constructing the service evaluates
      `BonusDAO(session)` with no such name imported, so every call fails
      before any check or write. */
  function ProcessSaleAsWritten(db: Db, seller: Id, product: Id, buyer: Id): (r: Result<(Db, SaleReceipt), Failure>)
    ensures r.Err? && r.error.NameError?
  {
    Err(NameError("BonusDAO"))
  }

  /** Every sale the checks admit is refused by the service as written. */
  lemma AsWrittenRefusesAdmissibleSales(db: Db, seller: Id, product: Id, buyer: Id)
    requires Admissible(db, seller, product, buyer)
    ensures ProcessSale(db, seller, product, buyer).Ok?
    ensures ProcessSaleAsWritten(db, seller, product, buyer).Err?
  {
  }
}

=== FILE: seqs.dfy ===
/** Order-preserving sequence helpers shared by the table model. */
module Seqs {

  /** The elements of `s` satisfying `p`, in their original order. */
  function Select<T(!new)>(s: seq<T>, p: T -> bool): (r: seq<T>)
    ensures |r| <= |s|
    ensures forall x :: x in r <==> x in s && p(x)
    decreases |s|
  {
    if |s| == 0 then []
    else if p(s[0]) then [s[0]] + Select(s[1..], p)
    else Select(s[1..], p)
  }

  /** `r` is `s` with some elements left out and the rest in their order. */
  predicate Subsequence<T(==)>(r: seq<T>, s: seq<T>)
    decreases |s|
  {
    |r| == 0 ||
    (|s| > 0 && ((r[0] == s[0] && Subsequence(r[1..], s[1..])) || Subsequence(r, s[1..])))
  }

  /** Selection keeps the surviving elements in their original order. */
  lemma {:induction false} SelectKeepsOrder<T(!new)>(s: seq<T>, p: T -> bool)
    ensures Subsequence(Select(s, p), s)
    decreases |s|
  {
    if |s| > 0 {
      SelectKeepsOrder(s[1..], p);
      if p(s[0]) {
        assert Select(s, p)[1..] == Select(s[1..], p);
      }
    }
  }

  /** The first `n` elements of `s` (all of them when there are fewer). */
  function Take<T>(s: seq<T>, n: nat): (r: seq<T>)
    ensures |r| == if n < |s| then n else |s|
    ensures r <= s
  {
    if n < |s| then s[..n] else s
  }

  /** The sequence with its first `n` elements removed. */
  function Drop<T>(s: seq<T>, n: nat): (r: seq<T>)
    ensures |r| == if n < |s| then |s| - n else 0
    ensures forall i :: 0 <= i < |r| ==> r[i] == s[n + i]
  {
    if n < |s| then s[n..] else []
  }

  function Sum(s: seq<real>): real
  {
    if |s| == 0 then 0.0 else s[0] + Sum(s[1..])
  }

  lemma {:induction false} SumAppend(a: seq<real>, b: seq<real>)
    ensures Sum(a + b) == Sum(a) + Sum(b)
    decreases |a|
  {
    if |a| == 0 {
      assert a + b == b;
    } else {
      assert (a + b)[1..] == a[1..] + b;
      SumAppend(a[1..], b);
    }
  }

  /** Selecting by `p` and by its negation splits the sequence. */
  lemma {:induction false} SelectSplit<T(!new)>(s: seq<T>, p: T -> bool, q: T -> bool)
    requires forall x :: q(x) == !p(x)
    ensures |Select(s, p)| + |Select(s, q)| == |s|
    decreases |s|
  {
    if |s| > 0 {
      SelectSplit(s[1..], p, q);
    }
  }

  /** Selection distributes over concatenation. */
  lemma {:induction false} SelectAppend<T(!new)>(a: seq<T>, b: seq<T>, p: T -> bool)
    ensures Select(a + b, p) == Select(a, p) + Select(b, p)
    decreases |a|
  {
    if |a| == 0 {
      assert a + b == b;
    } else {
      assert (a + b)[1..] == a[1..] + b;
      SelectAppend(a[1..], b, p);
    }
  }

  /** Selecting by a predicate every element meets keeps the sequence. */
  lemma {:induction false} SelectKeepsAll<T(!new)>(s: seq<T>, p: T -> bool)
    requires forall i :: 0 <= i < |s| ==> p(s[i])
    ensures Select(s, p) == s
    decreases |s|
  {
    if |s| > 0 {
      SelectKeepsAll(s[1..], p);
    }
  }

  /** Selecting by a predicate no element meets leaves nothing. */
  lemma {:induction false} SelectDropsAll<T(!new)>(s: seq<T>, p: T -> bool)
    requires forall i :: 0 <= i < |s| ==> !p(s[i])
    ensures Select(s, p) == []
    decreases |s|
  {
    if |s| > 0 {
      SelectDropsAll(s[1..], p);
    }
  }

  /** Selection is idempotent. */
  lemma SelectTwice<T(!new)>(s: seq<T>, p: T -> bool)
    ensures Select(Select(s, p), p) == Select(s, p)
  {
    var r := Select(s, p);
    assert forall i :: 0 <= i < |r| ==> r[i] in r;
    SelectKeepsAll(r, p);
  }

  /** Membership form of `SelectKeepsAll`. */
  lemma SelectKeepsMembers<T(!new)>(s: seq<T>, p: T -> bool)
    requires forall x :: x in s ==> p(x)
    ensures Select(s, p) == s
  {
    assert forall i :: 0 <= i < |s| ==> s[i] in s;
    SelectKeepsAll(s, p);
  }

  /** Concatenation is associative. */
  lemma AppendAssoc<T>(a: seq<T>, b: seq<T>, c: seq<T>)
    ensures a + b + c == a + (b + c)
  {
  }

  /** No element occurs twice. */
  predicate Distinct<T(==)>(s: seq<T>)
  {
    forall i, j :: 0 <= i < j < |s| ==> s[i] != s[j]
  }

  /** The distinct elements of `s` in the order of their first occurrence. */
  function Dedup<T(==,!new)>(s: seq<T>): (r: seq<T>)
    ensures Distinct(r)
    ensures forall x :: x in r <==> x in s
    decreases |s|
  {
    if |s| == 0 then []
    else
      var init, last := s[..|s| - 1], s[|s| - 1];
      assert s == init + [last];
      var d := Dedup(init);
      if last in d then d else d + [last]
  }

  /** A sequence without repeats is its own deduplication. */
  lemma {:induction false} DedupOfDistinct<T(!new)>(s: seq<T>)
    requires Distinct(s)
    ensures Dedup(s) == s
    decreases |s|
  {
    if |s| > 0 {
      var init := s[..|s| - 1];
      DedupOfDistinct(init);
      assert s == init + [s[|s| - 1]];
    }
  }

  /** Deduplicating a prefix first changes nothing. */
  lemma {:induction false} DedupPrefix<T(!new)>(a: seq<T>, b: seq<T>)
    ensures Dedup(Dedup(a) + b) == Dedup(a + b)
    decreases |b|
  {
    if |b| == 0 {
      assert Dedup(a) + b == Dedup(a) && a + b == a;
      DedupOfDistinct(Dedup(a));
    } else {
      var init := b[..|b| - 1];
      DedupPrefix(a, init);
      assert (Dedup(a) + b)[..|Dedup(a) + b| - 1] == Dedup(a) + init;
      assert (a + b)[..|a + b| - 1] == a + init;
    }
  }
}

=== FILE: sponsor_bonus.dfy ===
/** SponsorBonusService: 5% of the personal volume of each first-level
    descendant, credited to that descendant's cash balance. */
module SponsorBonus {
  import opened Wrappers
  import opened Seqs
  import opened Money
  import opened Domain
  import opened Profiles
  import opened UserDao
  import Repository

  const SponsorRate: real := 0.05

  /** The fixed `calculation_period` of sponsor bonus records. */
  const SponsorPeriod: string := "30 days"

  /** One entry of `details`: the descendant, its volume and its rounded bonus. */
  datatype Detail = Detail(userId: Id, personalVolume: real, bonus: real)

  /** The dictionary `calculate` returns. */
  datatype Summary = Summary(total: real, details: seq<Detail>)

  /** Filter `{"ancestor_id": u, "level": 1}`. */
  function FirstLevelOf(u: Id): Edge -> bool
  {
    (e: Edge) => e.ancestor == u && e.level == 1
  }

  /** The descendant of this row has an MLM profile. */
  function HasProfile(profiles: seq<Profile>): Edge -> bool
  {
    (e: Edge) => ProfileOf(profiles, e.descendant).Some?
  }

  /** The detail of a descendant that has a profile. */
  predicate IsDetailOf(d: Detail, profiles: seq<Profile>)
  {
    && ProfileOf(profiles, d.userId).Some?
    && d.personalVolume == ProfileOf(profiles, d.userId).value.personalVolume
    && d.bonus == Round2(d.personalVolume * SponsorRate)
  }

  /** The detail `calculate` builds for a descendant with a profile. */
  function DetailFor(e: Edge, profiles: seq<Profile>): (d: Detail)
    requires ProfileOf(profiles, e.descendant).Some?
    ensures d.userId == e.descendant && IsDetailOf(d, profiles)
  {
    var pv := ProfileOf(profiles, e.descendant).value.personalVolume;
    Detail(e.descendant, pv, Round2(pv * SponsorRate))
  }

  /** The loop of `calculate` over the first-level rows: rows whose
      descendant has no profile are skipped. */
  function Details(lines: seq<Edge>, profiles: seq<Profile>): (r: seq<Detail>)
    ensures |r| == |Select(lines, HasProfile(profiles))|
    ensures forall i :: 0 <= i < |r| ==> r[i].userId == Select(lines, HasProfile(profiles))[i].descendant
    ensures forall d :: d in r ==> IsDetailOf(d, profiles)
  {
    var sel := Select(lines, HasProfile(profiles));
    seq(|sel|, i requires 0 <= i < |sel| => assert sel[i] in sel; DetailFor(sel[i], profiles))
  }

  /** Sum of the unrounded bonuses, which the source accumulates. */
  function Raw(ds: seq<Detail>): real
  {
    if |ds| == 0 then 0.0 else ds[0].personalVolume * SponsorRate + Raw(ds[1..])
  }

  /** Sum of the rounded per-descendant bonuses, which `distribute` pays. */
  function Paid(ds: seq<Detail>): real
  {
    if |ds| == 0 then 0.0 else ds[0].bonus + Paid(ds[1..])
  }

  /** `calculate`: details for the first-level descendants with a profile,
      and the rounded sum of the unrounded bonuses. */
  function Calculate(edges: seq<Edge>, profiles: seq<Profile>, u: Id): (r: Summary)
    ensures r.details == Details(Repository.Where(edges, FirstLevelOf(u)), profiles)
    ensures var lines := Repository.Where(edges, FirstLevelOf(u));
      |r.details| == |Select(lines, HasProfile(profiles))|
    ensures forall d :: d in r.details ==>
      IsDetailOf(d, profiles) && exists e :: e in edges && e.ancestor == u && e.level == 1 && e.descendant == d.userId
    ensures r.total == Round2(Raw(r.details))
  {
    var lines := Repository.Where(edges, FirstLevelOf(u));
    var ds := Details(lines, profiles);
    assert forall d :: d in ds ==> exists e :: e in edges && e.ancestor == u && e.level == 1 && e.descendant == d.userId by {
      forall d | d in ds
        ensures exists e :: e in edges && e.ancestor == u && e.level == 1 && e.descendant == d.userId
      {
        var i :| 0 <= i < |ds| && ds[i] == d;
        var e := Select(lines, HasProfile(profiles))[i];
        assert e in Select(lines, HasProfile(profiles));
      }
    }
    Summary(Round2(Raw(ds)), ds)
  }

  /** Each detail is within half a cent of its unrounded bonus, so the paid
      sum drifts from the unrounded sum by at most half a cent per detail. */
  lemma {:induction false} PaidNearRaw(ds: seq<Detail>)
    requires forall d :: d in ds ==> d.bonus == Round2(d.personalVolume * SponsorRate)
    ensures Raw(ds) - 0.005 * |ds| as real <= Paid(ds) <= Raw(ds) + 0.005 * |ds| as real
  {
    if |ds| > 0 {
      assert ds[0] in ds;
      assert forall d :: d in ds[1..] ==> d in ds;
      PaidNearRaw(ds[1..]);
    }
  }

  /** The reported total and the amounts actually paid differ by at most
      half a cent per descendant plus half a cent. */
  lemma TotalNearPaid(edges: seq<Edge>, profiles: seq<Profile>, u: Id)
    ensures var s := Calculate(edges, profiles, u);
      var slack := 0.005 * (|s.details| + 1) as real;
      Paid(s.details) - slack <= s.total <= Paid(s.details) + slack
  {
    var s := Calculate(edges, profiles, u);
    PaidNearRaw(s.details);
  }

  /** The total is not the sum of the details: three descendants with 0.14
      PV each get 0.01 apiece (0.007 rounded), 0.03 in all, while the total
      reads 0.02 (0.021 rounded). No value involved is a half-cent tie. */
  lemma TotalDiffersFromDetails()
    ensures var ds := [Detail(2, 0.14, 0.01), Detail(3, 0.14, 0.01), Detail(4, 0.14, 0.01)];
      (forall d :: d in ds ==> d.bonus == Round2(d.personalVolume * SponsorRate))
      && Paid(ds) == 0.03 && Round2(Raw(ds)) == 0.02
  {
    assert RoundHalfEven(0.7) == 1;
    assert RoundHalfEven(2.1) == 2;
  }

  /** The SPONSOR record written for a detail. */
  function Record(d: Detail): Bonus
  {
    Bonus(d.userId, Sponsor, d.bonus, Rub, SponsorPeriod, true)
  }

  function Records(ds: seq<Detail>): (r: seq<Bonus>)
    ensures |r| == |ds|
    ensures forall i :: 0 <= i < |ds| ==> r[i] == Record(ds[i])
  {
    seq(|ds|, i requires 0 <= i < |ds| => Record(ds[i]))
  }

  /** A user row with this id exists. */
  predicate Known(users: seq<User>, x: Id)
  {
    exists v :: v in users && v.id == x
  }

  /** How much the details credit to `x`. */
  function CreditedTo(ds: seq<Detail>, x: Id): real
  {
    if |ds| == 0 then 0.0 else (if ds[0].userId == x then ds[0].bonus else 0.0) + CreditedTo(ds[1..], x)
  }

  lemma CashUpdateKeepsIds(users: seq<User>, id: Id, amount: real)
    requires UpdateCashBalance(users, id, amount).Ok?
    ensures forall x :: Known(UpdateCashBalance(users, id, amount).value, x) <==> Known(users, x)
  {
    var users' := UpdateCashBalance(users, id, amount).value;
    var i :| 0 <= i < |users| && users[i].id == id && ReplacedAt(users, users', i, users[i].(cashBalance := users[i].cashBalance + amount));
    forall x ensures Known(users', x) <==> Known(users, x) {
      if Known(users, x) {
        var v :| v in users && v.id == x;
        var j :| 0 <= j < |users| && users[j] == v;
        assert users'[j] in users';
      }
      if Known(users', x) {
        var v :| v in users' && v.id == x;
        var j :| 0 <= j < |users'| && users'[j] == v;
        assert users[j] in users;
      }
    }
  }

  /** The loop of `distribute` over the cash updates; the first unknown
      user aborts it. */
  function Credit(users: seq<User>, ds: seq<Detail>): (r: Result<seq<User>, Failure>)
    ensures r.Err? <==> exists d :: d in ds && !Known(users, d.userId)
    ensures r.Err? ==> r.error == ValueError("User not found")
    decreases |ds|
  {
    if |ds| == 0 then Ok(users)
    else match UpdateCashBalance(users, ds[0].userId, ds[0].bonus)
      case Err(e) => Err(e)
      case Ok(users') =>
        CashUpdateKeepsIds(users, ds[0].userId, ds[0].bonus);
        assert forall d :: d in ds <==> d == ds[0] || d in ds[1..];
        Credit(users', ds[1..])
  }

  /** Every user's cash grows by what the details credit to them; PV does not move. */
  lemma {:induction false} CreditEffect(users: seq<User>, ds: seq<Detail>, x: Id)
    requires Credit(users, ds).Ok?
    ensures CashOf(Credit(users, ds).value, x) == CashOf(users, x) + CreditedTo(ds, x)
    ensures PvOf(Credit(users, ds).value, x) == PvOf(users, x)
    decreases |ds|
  {
    if |ds| > 0 {
      var users' := UpdateCashBalance(users, ds[0].userId, ds[0].bonus).value;
      CashUpdateEffect(users, ds[0].userId, ds[0].bonus, x);
      CreditEffect(users', ds[1..], x);
    }
  }

  /** `distribute`: credit every detail's descendant and write one paid
      SPONSOR record per detail. */
  function Distribute(db: Db, u: Id): (r: Result<Db, Failure>)
    ensures var ds := Calculate(db.edges, db.profiles, u).details;
      r.Err? <==> exists d :: d in ds && !Known(db.users, d.userId)
    ensures r.Err? ==> r.error == ValueError("User not found")
    ensures var ds := Calculate(db.edges, db.profiles, u).details;
      r.Ok? ==> r.value == db.(users := r.value.users, bonuses := db.bonuses + Records(ds))
  {
    var ds := Calculate(db.edges, db.profiles, u).details;
    match Credit(db.users, ds)
    case Err(e) => Err(e)
    case Ok(users') => Ok(db.(users := users', bonuses := db.bonuses + Records(ds)))
  }

  /** Cash moves exactly as the details say, so a user who is not a
      first-level descendant of `u` (in particular `u`, absent a self-row)
      receives nothing. */
  lemma DistributeCash(db: Db, u: Id, x: Id)
    requires Distribute(db, u).Ok?
    ensures var ds := Calculate(db.edges, db.profiles, u).details;
      CashOf(Distribute(db, u).value.users, x) == CashOf(db.users, x) + CreditedTo(ds, x)
    ensures (forall e :: e in db.edges && e.ancestor == u && e.level == 1 ==> e.descendant != x) ==>
      CashOf(Distribute(db, u).value.users, x) == CashOf(db.users, x)
  {
    var ds := Calculate(db.edges, db.profiles, u).details;
    CreditEffect(db.users, ds, x);
    if forall e :: e in db.edges && e.ancestor == u && e.level == 1 ==> e.descendant != x {
      NotCredited(ds, x);
    }
  }

  lemma {:induction false} NotCredited(ds: seq<Detail>, x: Id)
    requires forall d :: d in ds ==> d.userId != x
    ensures CreditedTo(ds, x) == 0.0
  {
    if |ds| > 0 {
      assert ds[0] in ds;
      assert forall d :: d in ds[1..] ==> d in ds;
      NotCredited(ds[1..], x);
    }
  }

  /** There is no already-paid check: a second `distribute` computes the
      same details, credits them again and writes the records again. */
  lemma DistributeRepeats(db: Db, u: Id, x: Id)
    requires Distribute(db, u).Ok?
    ensures var db1 := Distribute(db, u).value;
      var ds := Calculate(db.edges, db.profiles, u).details;
      && Distribute(db1, u).Ok?
      && CashOf(Distribute(db1, u).value.users, x) == CashOf(db.users, x) + 2.0 * CreditedTo(ds, x)
      && Distribute(db1, u).value.bonuses == db.bonuses + Records(ds) + Records(ds)
  {
    var db1 := Distribute(db, u).value;
    var ds := Calculate(db.edges, db.profiles, u).details;
    assert Calculate(db1.edges, db1.profiles, u) == Calculate(db.edges, db.profiles, u);
    forall y ensures Known(db1.users, y) <==> Known(db.users, y) {
      CreditKeepsIds(db.users, ds, y);
    }
    CreditEffect(db.users, ds, x);
    CreditEffect(db1.users, ds, x);
  }

  lemma {:induction false} CreditKeepsIds(users: seq<User>, ds: seq<Detail>, y: Id)
    requires Credit(users, ds).Ok?
    ensures Known(Credit(users, ds).value, y) <==> Known(users, y)
    decreases |ds|
  {
    if |ds| > 0 {
      var users' := UpdateCashBalance(users, ds[0].userId, ds[0].bonus).value;
      CashUpdateKeepsIds(users, ds[0].userId, ds[0].bonus);
      CreditKeepsIds(users', ds[1..], y);
    }
  }
}

=== FILE: text.dfy ===
/** Character classes and string operations of Python's `str` that the
    validators and period keys rely on, restricted to the ASCII letters
    (whitespace covers every character Python's `str.isspace` accepts). */
module Text {

  predicate IsSpace(c: char)
  {
    c == ' ' || c == '\t' || c == '\n' || c == '\r' || c == '\U{b}' || c == '\U{c}'
    || ('\U{1c}' <= c <= '\U{1f}') || c == '\U{85}' || c == '\U{a0}' || c == '\U{1680}'
    || ('\U{2000}' <= c <= '\U{200a}') || c == '\U{2028}' || c == '\U{2029}'
    || c == '\U{202f}' || c == '\U{205f}' || c == '\U{3000}'
  }

  predicate IsUpper(c: char) { 'A' <= c <= 'Z' }
  predicate IsLower(c: char) { 'a' <= c <= 'z' }
  predicate IsLetter(c: char) { IsUpper(c) || IsLower(c) }
  predicate IsDigit(c: char) { '0' <= c <= '9' }

  /** The `\w` class of a regular expression: letters, digits and underscore. */
  predicate IsWord(c: char) { IsLetter(c) || IsDigit(c) || c == '_' }

  function ToUpper(c: char): (u: char)
    ensures !IsLower(u)
    ensures IsLetter(c) <==> IsLetter(u)
  {
    if IsLower(c) then (c as int - 'a' as int + 'A' as int) as char else c
  }

  function ToLower(c: char): (l: char)
    ensures !IsUpper(l)
    ensures IsLetter(c) <==> IsLetter(l)
  {
    if IsUpper(c) then (c as int - 'A' as int + 'a' as int) as char else c
  }

  /** str.upper() */
  function Upper(s: string): (r: string)
    ensures |r| == |s|
    ensures forall i :: 0 <= i < |s| ==> r[i] == ToUpper(s[i])
  {
    seq(|s|, i requires 0 <= i < |s| => ToUpper(s[i]))
  }

  /** str.lower() */
  function Lower(s: string): (r: string)
    ensures |r| == |s|
    ensures forall i :: 0 <= i < |s| ==> r[i] == ToLower(s[i])
  {
    seq(|s|, i requires 0 <= i < |s| => ToLower(s[i]))
  }

  function StripLeft(s: string): (r: string)
    ensures |r| <= |s|
    ensures r == s[|s| - |r|..]
    ensures |r| > 0 ==> !IsSpace(r[0])
    ensures forall i :: 0 <= i < |s| - |r| ==> IsSpace(s[i])
  {
    if |s| > 0 && IsSpace(s[0]) then StripLeft(s[1..]) else s
  }

  function StripRight(s: string): (r: string)
    ensures |r| <= |s|
    ensures r == s[..|r|]
    ensures |r| > 0 ==> !IsSpace(r[|r| - 1])
    ensures forall i :: |r| <= i < |s| ==> IsSpace(s[i])
  {
    if |s| > 0 && IsSpace(s[|s| - 1]) then StripRight(s[..|s| - 1]) else s
  }

  /** str.strip() */
  function Strip(s: string): (r: string)
    ensures |r| <= |s|
    ensures |r| > 0 ==> !IsSpace(r[0]) && !IsSpace(r[|r| - 1])
  {
    StripRight(StripLeft(s))
  }

  /** A string with no surrounding whitespace is its own strip. */
  lemma StripTrimmed(s: string)
    requires |s| > 0 ==> !IsSpace(s[0]) && !IsSpace(s[|s| - 1])
    ensures Strip(s) == s
  {
  }

  /** Decimal digits of a natural number, most significant first (str(n)). */
  function NatToString(n: nat): (r: string)
    ensures |r| >= 1
    ensures forall i :: 0 <= i < |r| ==> IsDigit(r[i])
    decreases n
  {
    if n < 10 then [('0' as int + n) as char]
    else NatToString(n / 10) + [('0' as int + n % 10) as char]
  }

  /** str(n) for any integer. */
  function IntToString(n: int): (r: string)
    ensures |r| >= 1
  {
    if n < 0 then "-" + NatToString(-n) else NatToString(n)
  }

  /** Value of a string of decimal digits (int(s) on digit strings). */
  function ParseNat(s: string): nat
    decreases |s|
  {
    if |s| == 0 then 0
    else ParseNat(s[..|s| - 1]) * 10 + DigitValue(s[|s| - 1])
  }

  function DigitValue(c: char): nat
  {
    if IsDigit(c) then c as int - '0' as int else 0
  }

  lemma {:induction false} ParseNatToString(n: nat)
    ensures ParseNat(NatToString(n)) == n
    decreases n
  {
    if n >= 10 {
      var s := NatToString(n);
      assert s[..|s| - 1] == NatToString(n / 10);
      ParseNatToString(n / 10);
    }
  }

  /** f"{m:02}": at least two digits, zero-padded on the left. */
  function Pad2(m: nat): (r: string)
    ensures |r| >= 2
    ensures forall i :: 0 <= i < |r| ==> IsDigit(r[i])
  {
    if m < 10 then "0" + NatToString(m) else NatToString(m)
  }

  /** Index of the first occurrence of `c` in `s`, if any. */
  function IndexOf(s: string, c: char): (r: int)
    ensures -1 <= r < |s|
    ensures r == -1 <==> c !in s
    ensures r >= 0 ==> s[r] == c && c !in s[..r]
  {
    if |s| == 0 then -1
    else if s[0] == c then 0
    else
      var k := IndexOf(s[1..], c);
      if k == -1 then -1
      else
        assert s[..k + 1] == [s[0]] + s[1..][..k];
        k + 1
  }

  /** The part of `s` after its last `c` (all of `s` when `c` is absent):
      Python's `s.split(c)[-1]`. */
  function AfterLast(s: string, c: char): (r: string)
    ensures |r| <= |s|
    ensures c !in r
    ensures c !in s ==> r == s
    decreases |s|
  {
    if |s| == 0 then s
    else if s[|s| - 1] == c then []
    else AfterLast(s[..|s| - 1], c) + [s[|s| - 1]]
  }

  /** The part after the last separator is everything following it. */
  lemma {:induction false} AfterLastOf(a: string, b: string, c: char)
    requires c !in b
    ensures AfterLast(a + [c] + b, c) == b
    decreases |b|
  {
    var s := a + [c] + b;
    if |b| > 0 {
      assert s[..|s| - 1] == a + [c] + b[..|b| - 1];
      AfterLastOf(a, b[..|b| - 1], c);
      assert b == b[..|b| - 1] + [b[|b| - 1]];
    }
  }
}

=== FILE: user_dao.dfy ===
/** UserDAO: authentication and the atomic balance updates. */
module UserDao {
  import opened Wrappers
  import opened Domain
  import Repository

  /** `find_one_or_none_by_id` on the users table. */
  function FindUser(users: seq<User>, id: Id): (r: Option<User>)
    ensures r.Some? ==> r.value in users && r.value.id == id
    ensures r.None? <==> forall u :: u in users ==> u.id != id
  {
    Repository.First(users, (u: User) => u.id == id)
  }

  /** `authenticate`: the user with this e-mail whose stored hash the
      (opaque) password check accepts. */
  function Authenticate(users: seq<User>, email: string, password: string,
                        verify: (string, string) -> bool): (r: Option<User>)
    ensures r.Some? ==> r.value in users && r.value.email == email && verify(password, r.value.passwordHash)
    ensures (forall u :: u in users ==> u.email != email) ==> r.None?
    ensures r.None? && (exists u :: u in users && u.email == email) ==>
      exists i :: 0 <= i < |users| && users[i].email == email
        && (forall j :: 0 <= j < i ==> users[j].email != email)
        && !verify(password, users[i].passwordHash)
  {
    match Repository.FirstIndex(users, (u: User) => u.email == email)
    case None => None
    case Some(i) => if verify(password, users[i].passwordHash) then Some(users[i]) else None
  }

  /** users' equals users except at position i, which holds u. */
  ghost predicate ReplacedAt(users: seq<User>, users': seq<User>, i: int, u: User)
  {
    && 0 <= i < |users| == |users'|
    && users'[i] == u
    && forall j :: 0 <= j < |users| && j != i ==> users'[j] == users[j]
  }

  /** `update_cash_balance`: adds `amount` (which may be negative; no floor
      is enforced) to the first user with this id. */
  function UpdateCashBalance(users: seq<User>, id: Id, amount: real): (r: Result<seq<User>, Failure>)
    ensures r.Err? <==> forall u :: u in users ==> u.id != id
    ensures r.Err? ==> r.error == ValueError("User not found")
    ensures r.Ok? ==>
      exists i ::
        && 0 <= i < |users| && users[i].id == id
        && (forall j :: 0 <= j < i ==> users[j].id != id)
        && ReplacedAt(users, r.value, i, users[i].(cashBalance := users[i].cashBalance + amount))
  {
    match Repository.FirstIndex(users, (u: User) => u.id == id)
    case None => Err(ValueError("User not found"))
    case Some(i) =>
      var u := users[i].(cashBalance := users[i].cashBalance + amount);
      assert ReplacedAt(users, users[i := u], i, u);
      Ok(users[i := u])
  }

  /** `update_pv_balance`: the same update applied to the PV balance. */
  function UpdatePvBalance(users: seq<User>, id: Id, amount: real): (r: Result<seq<User>, Failure>)
    ensures r.Err? <==> forall u :: u in users ==> u.id != id
    ensures r.Err? ==> r.error == ValueError("User not found")
    ensures r.Ok? ==>
      exists i ::
        && 0 <= i < |users| && users[i].id == id
        && (forall j :: 0 <= j < i ==> users[j].id != id)
        && ReplacedAt(users, r.value, i, users[i].(pvBalance := users[i].pvBalance + amount))
  {
    match Repository.FirstIndex(users, (u: User) => u.id == id)
    case None => Err(ValueError("User not found"))
    case Some(i) =>
      var u := users[i].(pvBalance := users[i].pvBalance + amount);
      assert ReplacedAt(users, users[i := u], i, u);
      Ok(users[i := u])
  }

  /** The cash balance of the first user with this id (0 when absent). */
  function CashOf(users: seq<User>, id: Id): real
  {
    match FindUser(users, id)
    case None => 0.0
    case Some(u) => u.cashBalance
  }

  function PvOf(users: seq<User>, id: Id): real
  {
    match FindUser(users, id)
    case None => 0.0
    case Some(u) => u.pvBalance
  }

  /** After a successful cash update the user's balance is the old one plus
      `amount`, and every other user's balance is unchanged. */
  lemma CashUpdateEffect(users: seq<User>, id: Id, amount: real, other: Id)
    requires UpdateCashBalance(users, id, amount).Ok?
    ensures CashOf(UpdateCashBalance(users, id, amount).value, id) == CashOf(users, id) + amount
    ensures other != id ==> CashOf(UpdateCashBalance(users, id, amount).value, other) == CashOf(users, other)
    ensures PvOf(UpdateCashBalance(users, id, amount).value, other) == PvOf(users, other)
    ensures FindUser(UpdateCashBalance(users, id, amount).value, other).Some? <==> FindUser(users, other).Some?
  {
    var users' := UpdateCashBalance(users, id, amount).value;
    var i :| 0 <= i < |users| && users[i].id == id
      && (forall j :: 0 <= j < i ==> users[j].id != id)
      && ReplacedAt(users, users', i, users[i].(cashBalance := users[i].cashBalance + amount));
    FirstIdStable(users, users', i, id);
    assert FindUser(users', id) == Some(users'[i]);
    assert FindUser(users, id) == Some(users[i]);
    if other != id {
      FirstIdStable(users, users', i, other);
    }
  }

  lemma PvUpdateEffect(users: seq<User>, id: Id, amount: real, other: Id)
    requires UpdatePvBalance(users, id, amount).Ok?
    ensures PvOf(UpdatePvBalance(users, id, amount).value, id) == PvOf(users, id) + amount
    ensures other != id ==> PvOf(UpdatePvBalance(users, id, amount).value, other) == PvOf(users, other)
    ensures CashOf(UpdatePvBalance(users, id, amount).value, other) == CashOf(users, other)
    ensures FindUser(UpdatePvBalance(users, id, amount).value, other).Some? <==> FindUser(users, other).Some?
  {
    var users' := UpdatePvBalance(users, id, amount).value;
    var i :| 0 <= i < |users| && users[i].id == id
      && (forall j :: 0 <= j < i ==> users[j].id != id)
      && ReplacedAt(users, users', i, users[i].(pvBalance := users[i].pvBalance + amount));
    FirstIdStable(users, users', i, id);
    assert FindUser(users', id) == Some(users'[i]);
    assert FindUser(users, id) == Some(users[i]);
    if other != id {
      FirstIdStable(users, users', i, other);
    }
  }

  /** Replacing a row by one with the same id does not change which row a
      lookup by id finds. */
  lemma {:induction false} FirstIdStable(users: seq<User>, users': seq<User>, i: int, x: Id)
    requires 0 <= i < |users| == |users'|
    requires users'[i].id == users[i].id
    requires forall j :: 0 <= j < |users| && j != i ==> users'[j] == users[j]
    ensures FindUser(users, x).None? <==> FindUser(users', x).None?
    ensures FindUser(users, x).Some? && users[i].id != x ==> FindUser(users', x) == FindUser(users, x)
    ensures FindUser(users, x).Some? && users[i].id == x && (forall j :: 0 <= j < i ==> users[j].id != x) ==>
      FindUser(users', x) == Some(users'[i])
  {
    var p := (u: User) => u.id == x;
    var a := Repository.FirstIndex(users, p);
    var b := Repository.FirstIndex(users', p);
    forall j | 0 <= j < |users|
      ensures p(users[j]) == p(users'[j])
    {
      if j != i { assert users'[j] == users[j]; }
    }
    if a.Some? && b.Some? {
      assert a.value == b.value;
    }
  }

  /** Neither update enforces a floor: a debit larger than the balance leaves
      it negative. */
  lemma CashCanGoNegative(users: seq<User>, id: Id, amount: real)
    requires FindUser(users, id).Some?
    requires amount < -CashOf(users, id)
    ensures UpdateCashBalance(users, id, amount).Ok?
    ensures CashOf(UpdateCashBalance(users, id, amount).value, id) < 0.0
  {
    CashUpdateEffect(users, id, amount, id);
  }

  /** All cash held by users. */
  function TotalCash(users: seq<User>): real
  {
    if |users| == 0 then 0.0 else users[0].cashBalance + TotalCash(users[1..])
  }

  lemma {:induction false} TotalCashReplaced(users: seq<User>, users': seq<User>, i: int, u: User)
    requires ReplacedAt(users, users', i, u)
    ensures TotalCash(users') == TotalCash(users) - users[i].cashBalance + u.cashBalance
    decreases |users|
  {
    if i > 0 {
      assert ReplacedAt(users[1..], users'[1..], i - 1, u);
      TotalCashReplaced(users[1..], users'[1..], i - 1, u);
    } else {
      assert users'[1..] == users[1..];
    }
  }

  /** A cash update adds its amount to the users' total cash. */
  lemma TotalCashAfterCashUpdate(users: seq<User>, id: Id, amount: real)
    requires UpdateCashBalance(users, id, amount).Ok?
    ensures TotalCash(UpdateCashBalance(users, id, amount).value) == TotalCash(users) + amount
  {
    var users' := UpdateCashBalance(users, id, amount).value;
    var i :| 0 <= i < |users| && users[i].id == id
      && ReplacedAt(users, users', i, users[i].(cashBalance := users[i].cashBalance + amount));
    TotalCashReplaced(users, users', i, users[i].(cashBalance := users[i].cashBalance + amount));
  }

  /** A PV update leaves total cash alone. */
  lemma TotalCashAfterPvUpdate(users: seq<User>, id: Id, amount: real)
    requires UpdatePvBalance(users, id, amount).Ok?
    ensures TotalCash(UpdatePvBalance(users, id, amount).value) == TotalCash(users)
  {
    var users' := UpdatePvBalance(users, id, amount).value;
    var i :| 0 <= i < |users| && users[i].id == id
      && ReplacedAt(users, users', i, users[i].(pvBalance := users[i].pvBalance + amount));
    TotalCashReplaced(users, users', i, users[i].(pvBalance := users[i].pvBalance + amount));
  }

  /** `users'` is `users` with `amount` added to the cash of `id`: lookups,
      PV and every other balance as before, and total cash up by `amount`. */
  ghost predicate CashMoved(users: seq<User>, users': seq<User>, id: Id, amount: real)
  {
    && CashOf(users', id) == CashOf(users, id) + amount
    && (forall x :: x != id ==> CashOf(users', x) == CashOf(users, x))
    && (forall x :: PvOf(users', x) == PvOf(users, x))
    && (forall x :: FindUser(users', x).Some? <==> FindUser(users, x).Some?)
    && TotalCash(users') == TotalCash(users) + amount
  }

  /** `users'` is `users` with `amount` added to the PV of `id`. */
  ghost predicate PvMoved(users: seq<User>, users': seq<User>, id: Id, amount: real)
  {
    && PvOf(users', id) == PvOf(users, id) + amount
    && (forall x :: x != id ==> PvOf(users', x) == PvOf(users, x))
    && (forall x :: CashOf(users', x) == CashOf(users, x))
    && (forall x :: FindUser(users', x).Some? <==> FindUser(users, x).Some?)
    && TotalCash(users') == TotalCash(users)
  }

  lemma CashUpdateMoves(users: seq<User>, id: Id, amount: real)
    requires FindUser(users, id).Some?
    ensures UpdateCashBalance(users, id, amount).Ok?
    ensures CashMoved(users, UpdateCashBalance(users, id, amount).value, id, amount)
  {
    var users' := UpdateCashBalance(users, id, amount).value;
    CashUpdateEffect(users, id, amount, id);
    forall x ensures (x != id ==> CashOf(users', x) == CashOf(users, x))
      && PvOf(users', x) == PvOf(users, x) && (FindUser(users', x).Some? <==> FindUser(users, x).Some?)
    {
      CashUpdateEffect(users, id, amount, x);
    }
    TotalCashAfterCashUpdate(users, id, amount);
  }

  lemma PvUpdateMoves(users: seq<User>, id: Id, amount: real)
    requires FindUser(users, id).Some?
    ensures UpdatePvBalance(users, id, amount).Ok?
    ensures PvMoved(users, UpdatePvBalance(users, id, amount).value, id, amount)
  {
    var users' := UpdatePvBalance(users, id, amount).value;
    PvUpdateEffect(users, id, amount, id);
    forall x ensures (x != id ==> PvOf(users', x) == PvOf(users, x))
      && CashOf(users', x) == CashOf(users, x) && (FindUser(users', x).Some? <==> FindUser(users, x).Some?)
    {
      PvUpdateEffect(users, id, amount, x);
    }
    TotalCashAfterPvUpdate(users, id, amount);
  }
}

=== FILE: user_schemas.dfy ===
/** Field validators of the user and wallet request schemas. Each validator
    maps the raw field to the stored value or to the ValueError pydantic
    reports. Character classes are the ASCII ones of the Text module. */
module UserSchemas {
  import opened Wrappers
  import opened Domain
  import opened Text
  import opened Money

  // ---------------------------------------------------------------- password

  const ShortPassword: Failure := ValueError("Password must be at least 8 characters long")
  const NoUpper: Failure := ValueError("Password must contain at least one uppercase letter")
  const NoDigit: Failure := ValueError("Password must contain at least one digit")

  predicate HasUpper(s: string) { exists i :: 0 <= i < |s| && IsUpper(s[i]) }
  predicate HasDigit(s: string) { exists i :: 0 <= i < |s| && IsDigit(s[i]) }

  /** The password complexity rule: length first, then an uppercase
      letter, then a digit; an accepted password is stored as given. */
  function Password(v: string): (r: Result<string, Failure>)
    ensures r.Ok? <==> |v| >= 8 && HasUpper(v) && HasDigit(v)
    ensures r.Ok? ==> r.value == v
    ensures |v| < 8 ==> r == Err(ShortPassword)
    ensures |v| >= 8 && !HasUpper(v) ==> r == Err(NoUpper)
    ensures |v| >= 8 && HasUpper(v) && !HasDigit(v) ==> r == Err(NoDigit)
  {
    if |v| < 8 then Err(ShortPassword)
    else if !HasUpper(v) then Err(NoUpper)
    else if !HasDigit(v) then Err(NoDigit)
    else Ok(v)
  }

  // ------------------------------------------------------------------- phone

  const NoPlus: Failure := ValueError("Phone must start with +")
  const ShortPhone: Failure := ValueError("Phone too short")

  /** A phone number starts with '+' and has at least ten characters. */
  function Phone(v: string): (r: Result<string, Failure>)
    ensures r.Ok? <==> |v| >= 10 && v[0] == '+'
    ensures r.Ok? ==> r.value == v
    ensures (|v| == 0 || v[0] != '+') ==> r == Err(NoPlus)
  {
    if |v| == 0 || v[0] != '+' then Err(NoPlus)
    else if |v| < 10 then Err(ShortPhone)
    else Ok(v)
  }

  // ---------------------------------------------------------------- postcode

  const BadPostcode: Failure := ValueError("Postcode must contain only letters, numbers, spaces or hyphens")

  /** The class `[A-Z0-9\- ]`. */
  predicate PostcodeChar(c: char) { IsUpper(c) || IsDigit(c) || c == '-' || c == ' ' }

  predicate PostcodeShape(w: string)
  {
    3 <= |w| <= 12 && forall i :: 0 <= i < |w| ==> PostcodeChar(w[i])
  }

  /** A postcode is stripped and upper-cased, then must be three to twelve
      characters of upper-case letters, digits, hyphens and spaces. */
  function Postcode(v: string): (r: Result<string, Failure>)
    ensures r.Ok? <==> PostcodeShape(Upper(Strip(v)))
    ensures r.Ok? ==> r.value == Upper(Strip(v))
    ensures r.Err? ==> r.error == BadPostcode
  {
    var w := Upper(Strip(v));
    if PostcodeShape(w) then Ok(w) else Err(BadPostcode)
  }

  lemma UpperKeepsSpace(c: char)
    ensures IsSpace(ToUpper(c)) <==> IsSpace(c)
  {
  }

  /** A normalised postcode is a fixed point: validating it again accepts it
      unchanged. */
  lemma PostcodeIdempotent(v: string)
    requires Postcode(v).Ok?
    ensures Postcode(Postcode(v).value) == Postcode(v)
  {
    var s := Strip(v);
    var w := Upper(s);
    assert PostcodeShape(w);
    UpperKeepsSpace(s[0]);
    UpperKeepsSpace(s[|s| - 1]);
    assert !IsSpace(w[0]) && !IsSpace(w[|w| - 1]);
    StripTrimmed(w);
    ShapeIsUpper(w);
  }

  /** A string of postcode characters is already upper-case. */
  lemma ShapeIsUpper(w: string)
    requires PostcodeShape(w)
    ensures Upper(w) == w
  {
    forall i | 0 <= i < |w| ensures Upper(w)[i] == w[i] {
      assert PostcodeChar(w[i]);
    }
  }

  // ----------------------------------------------------------------- address

  const BadAddressChars: Failure := ValueError("Address contains invalid characters.")
  const NoComma: Failure := ValueError("Address should include at least street and city separated by comma")

  /** The class `[\w\s\-,.#]`. */
  predicate AddressChar(c: char)
  {
    IsWord(c) || IsSpace(c) || c == '-' || c == ',' || c == '.' || c == '#'
  }

  predicate AddressChars(a: string)
  {
    |a| > 0 && forall i :: 0 <= i < |a| ==> AddressChar(a[i])
  }

  /** Whether position `i` of `s` directly follows a letter. */
  predicate AfterLetter(s: string, i: int)
    requires 0 <= i < |s|
  {
    i > 0 && IsLetter(s[i - 1])
  }

  /** str.title(): a letter is lower-cased when it follows another letter
      and upper-cased otherwise. */
  function Title(s: string): (r: string)
    ensures |r| == |s|
    ensures forall i :: 0 <= i < |s| ==> r[i] == (if AfterLetter(s, i) then ToLower(s[i]) else ToUpper(s[i]))
  {
    seq(|s|, i requires 0 <= i < |s| => if AfterLetter(s, i) then ToLower(s[i]) else ToUpper(s[i]))
  }

  /** An address is stripped, must consist of word characters, whitespace and
      `- , . #`, must hold a comma (so that it splits into at least a street
      and a city), and is stored title-cased. */
  function Address(v: string): (r: Result<string, Failure>)
    ensures r.Ok? <==> AddressChars(Strip(v)) && ',' in Strip(v)
    ensures r.Ok? ==> r.value == Title(Strip(v))
    ensures !AddressChars(Strip(v)) ==> r == Err(BadAddressChars)
    ensures AddressChars(Strip(v)) && ',' !in Strip(v) ==> r == Err(NoComma)
  {
    var a := Strip(v);
    if !AddressChars(a) then Err(BadAddressChars)
    else if ',' !in a then Err(NoComma)
    else Ok(Title(a))
  }

  /** Title-casing changes only the case of letters. */
  lemma TitleKeepsClasses(s: string, i: int)
    requires 0 <= i < |s|
    ensures IsLetter(Title(s)[i]) <==> IsLetter(s[i])
    ensures !IsLetter(s[i]) ==> Title(s)[i] == s[i]
  {
  }

  lemma TitleIdempotent(s: string)
    ensures Title(Title(s)) == Title(s)
  {
    var t := Title(s);
    forall i | 0 <= i < |s|
      ensures Title(t)[i] == t[i]
    {
      TitleKeepsClasses(s, i);
      if i > 0 {
        TitleKeepsClasses(s, i - 1);
      }
    }
  }

  /** Title-casing keeps an address's character classes and its comma. */
  lemma TitleKeepsAddress(a: string)
    requires AddressChars(a) && ',' in a
    ensures AddressChars(Title(a)) && ',' in Title(a)
  {
    var t := Title(a);
    forall i | 0 <= i < |t|
      ensures AddressChar(t[i])
    {
      TitleKeepsClasses(a, i);
    }
    var k :| 0 <= k < |a| && a[k] == ',';
    TitleKeepsClasses(a, k);
    assert t[k] == ',';
  }

  /** An address already stripped and valid is accepted as its title case. */
  lemma AcceptsTrimmed(t: string)
    requires AddressChars(t) && ',' in t
    requires !IsSpace(t[0]) && !IsSpace(t[|t| - 1])
    ensures Address(t) == Ok(Title(t))
  {
    StripTrimmed(t);
  }

  /** A valid stripped address, title-cased, passes the validator as is. */
  lemma TitledAddressAccepted(a: string)
    requires AddressChars(a) && ',' in a
    requires !IsSpace(a[0]) && !IsSpace(a[|a| - 1])
    ensures Address(Title(a)) == Ok(Title(a))
  {
    var t := Title(a);
    TitleKeepsClasses(a, 0);
    TitleKeepsClasses(a, |a| - 1);
    TitleKeepsAddress(a);
    AcceptsTrimmed(t);
    TitleIdempotent(a);
  }

  /** A stored address is a fixed point of the validator. */
  lemma AddressIdempotent(v: string)
    requires Address(v).Ok?
    ensures Address(Address(v).value) == Address(v)
  {
    TitledAddressAccepted(Strip(v));
  }

  // ------------------------------------------------------------------- email

  const Disposable: Failure := ValueError("Disposable emails are not allowed")
  const AdminEmail: string := "admin@example.com"

  /** The blocked disposable-mail domains. */
  predicate Blocked(domain: string) { domain == "tempmail.com" || domain == "example.com" }

  /** The part after the last '@' (the whole string when there is none). */
  function EmailDomain(v: string): string
  {
    AfterLast(v, '@')
  }

  /** The blocked-domain rule of the user schemas. With `whitelist` (the
      base and self-update schemas) the address admin@example.com, in any
      case, is exempt; the admin update schema has no exemption. The domain
      itself is compared exactly as written. */
  function Email(v: string, whitelist: bool): (r: Result<string, Failure>)
    ensures r.Err? <==> Blocked(EmailDomain(v)) && !(whitelist && Lower(v) == AdminEmail)
    ensures r.Err? ==> r.error == Disposable
    ensures r.Ok? ==> r.value == v
  {
    if whitelist && Lower(v) == AdminEmail then Ok(v)
    else if Blocked(EmailDomain(v)) then Err(Disposable)
    else Ok(v)
  }

  /** The domain is matched case-sensitively: a capitalised disposable
      domain gets through. */
  lemma DomainCaseMatters()
    ensures Email("x@Example.com", true).Ok?
    ensures Email("x@Example.com", false).Ok?
  {
    assert "x@Example.com" == "x" + ['@'] + "Example.com";
    AfterLastOf("x", "Example.com", '@');
  }

  /** The admin address is accepted at registration but refused by the
      admin update schema. */
  lemma AdminAddressOnlyWhitelisted()
    ensures Email("Admin@Example.com", true).Ok?
    ensures Email("admin@example.com", false).Err?
  {
    assert Lower("Admin@Example.com") == AdminEmail;
    assert "admin@example.com" == "admin" + ['@'] + "example.com";
    AfterLastOf("admin", "example.com", '@');
  }

  // ------------------------------------------------------------ wallet balance

  const NegativeBalance: Failure := ValueError("Balance cannot be negative")

  /** The field constraints on a balance: at most two decimal places and
      at most twelve digits in all, so below 10^10. */
  predicate BalanceDigits(v: real) { IsCents(v) && -10000000000.0 < v < 10000000000.0 }

  /** The wallet balance: the field constraints (`ge=0`, 12 digits, 2
      places) and then the validator's own non-negativity check. */
  function Balance(v: real): (r: Result<real, Failure>)
    ensures r.Ok? <==> 0.0 <= v && BalanceDigits(v)
    ensures r.Ok? ==> r.value == v
  {
    if v < 0.0 then Err(NegativeBalance)
    else if !BalanceDigits(v) then Err(ValueError("Decimal input should have no more than 12 digits in total and 2 decimal places"))
    else Ok(v)
  }

  /** The update schema's balance is optional: an absent balance passes. */
  function OptionalBalance(v: Option<real>): (r: Result<Option<real>, Failure>)
    ensures v.None? ==> r == Ok(None)
    ensures v.Some? ==> (r.Ok? <==> Balance(v.value).Ok?)
    ensures r.Ok? ==> r.value == v
  {
    match v
    case None => Ok(None)
    case Some(b) =>
      match Balance(b)
      case Err(e) => Err(e)
      case Ok(_) => Ok(v)
  }
}

=== FILE: users_routes.dfy ===
/** The user routes that change the MLM state: signup and the two deletion
    cascades (the caller's own account, and any account by an admin). */
module UserRoutes {
  import opened Wrappers
  import opened Domain
  import opened Seqs
  import opened UserDao
  import Repository
  import Hierarchy

  const EmailTaken: Failure := HttpError(400, "The user with this email already exists in the system")
  const NoReferral: Failure := HttpError(400, "Referral code is required")
  const NoSponsor: Failure := HttpError(404, "Sponsor not found")
  const NoSuchUser: Failure := HttpError(404, "User with this ID does not exist")
  const NotFound: Failure := HttpError(404, "User not found")
  const SelfDelete: Failure := HttpError(403, "Super users are not allowed to delete themselves")

  /** The signup fields the routes act on (the schema validators have run). */
  datatype Signup = Signup(email: string, role: Role, referralCode: Option<string>)

  function WithEmail(email: string): User -> bool
  {
    (u: User) => u.email == email
  }

  function WithCode(code: string): User -> bool
  {
    (u: User) => u.referralCode == code
  }

  /** `not referral_code`: absent or empty. */
  predicate MissingCode(code: Option<string>)
  {
    code.None? || code.value == ""
  }

  /** The sponsor a signup names, when the code is present and some user
      holds it (the first such user). */
  function SponsorOf(users: seq<User>, code: Option<string>): Option<User>
  {
    if MissingCode(code) then None else Repository.First(users, WithCode(code.value))
  }

  /** The stored user: a fresh id, the hashed password, the first eight hex
      digits of a fresh UUID as referral code, and the sponsor's id. */
  function NewUser(id: Id, s: Signup, sponsor: Id, token: string, hash: string): User
    requires |token| == 32
  {
    User(id, s.email, s.role, token[..8], Some(sponsor), hash, 0.0, 0.0, false)
  }

  /** The MLM profile a non-client starts with. */
  function StarterProfile(id: Id, userId: Id, sponsor: Id): Profile
  {
    Profile(id, userId, Basic, Newbie, Premier, 0.0, 0.0, 0.0, 0.0, 0.0, None, Some(sponsor), None)
  }

  /** `register_user` with the UUID hex string `token` and the password hash
      `hash` given: refuses a taken e-mail, then a missing referral code,
      then an unknown one; otherwise adds the user and, unless the
      registrant is a client, a starter profile and the user's hierarchy
      chain under the sponsor. */
  function Register(db: Db, s: Signup, isClient: bool, token: string, hash: string): (r: Result<(Db, User), Failure>)
    requires |token| == 32
    ensures Repository.First(db.users, WithEmail(s.email)).Some? ==> r == Err(EmailTaken)
    ensures Repository.First(db.users, WithEmail(s.email)).None? && MissingCode(s.referralCode) ==> r == Err(NoReferral)
    ensures (Repository.First(db.users, WithEmail(s.email)).None? && !MissingCode(s.referralCode)
             && SponsorOf(db.users, s.referralCode).None?) ==> r == Err(NoSponsor)
    ensures r.Ok? <==> (forall u :: u in db.users ==> u.email != s.email) && SponsorOf(db.users, s.referralCode).Some?
    ensures r.Ok? ==>
      var (db', user) := r.value;
      var sponsor := SponsorOf(db.users, s.referralCode).value;
      && sponsor in db.users && sponsor.referralCode == s.referralCode.value
      && user.id !in UserIds(db.users) && user.id !in PersonIds(db)
      && user.email == s.email && user.role == s.role
      && user.sponsorId == Some(sponsor.id)
      && |user.referralCode| == 8 && user.referralCode <= token
      && user.passwordHash == hash
      && db'.users == db.users + [user]
      && (isClient ==> db'.profiles == db.profiles && db'.edges == db.edges)
      && (!isClient ==>
           && |db'.profiles| == |db.profiles| + 1
           && db'.profiles[..|db.profiles|] == db.profiles
           && db'.profiles[|db.profiles|] == StarterProfile(db'.profiles[|db.profiles|].id, user.id, sponsor.id)
           && db'.profiles[|db.profiles|].id !in ProfileIds(db.profiles)
           && db'.profiles[|db.profiles|].id !in PersonIds(db) + [user.id]
           && db'.edges == Hierarchy.CreateChain(db.edges, sponsor.id, user.id))
      && db' == db.(users := db'.users, profiles := db'.profiles, edges := db'.edges)
  {
    if Repository.First(db.users, WithEmail(s.email)).Some? then Err(EmailTaken)
    else if MissingCode(s.referralCode) then Err(NoReferral)
    else match Repository.First(db.users, WithCode(s.referralCode.value))
      case None => Err(NoSponsor)
      case Some(sponsor) =>
        var user := NewUser(NextId(PersonIds(db)), s, sponsor.id, token, hash);
        if isClient then Ok((db.(users := db.users + [user]), user))
        else
          var profile := StarterProfile(NextId(PersonIds(db) + [user.id]), user.id, sponsor.id);
          Ok((db.(users := db.users + [user], profiles := db.profiles + [profile],
                  edges := Hierarchy.CreateChain(db.edges, sponsor.id, user.id)), user))
  }

  /** No two users share an e-mail address. */
  ghost predicate EmailsUnique(users: seq<User>)
  {
    forall i, j :: 0 <= i < j < |users| ==> users[i].email != users[j].email
  }

  /** Signup keeps e-mail addresses unique. */
  lemma RegisterKeepsEmailsUnique(db: Db, s: Signup, isClient: bool, token: string, hash: string)
    requires |token| == 32
    requires EmailsUnique(db.users)
    requires Register(db, s, isClient, token, hash).Ok?
    ensures EmailsUnique(Register(db, s, isClient, token, hash).value.0.users)
  {
    var users' := Register(db, s, isClient, token, hash).value.0.users;
    forall i, j | 0 <= i < j < |users'|
      ensures users'[i].email != users'[j].email
    {
      if j == |db.users| {
        assert users'[i] in db.users;
      }
    }
  }

  // ------------------------------------------------------------------ delete

  function NotInteractionOf(u: Id): Interaction -> bool { (x: Interaction) => x.userId != u }
  function NotProfileOf(u: Id): Profile -> bool { (x: Profile) => x.userId != u }
  function NotCartOf(u: Id): CartItem -> bool { (x: CartItem) => x.userId != u }
  function NotActivityOf(u: Id): Activity -> bool { (x: Activity) => x.userId != u }
  function NotBoughtBy(u: Id): Transaction -> bool { (x: Transaction) => x.buyerId != u }
  function NotHistoryOf(u: Id): RankHistory -> bool { (x: RankHistory) => x.userId != u }
  function NotBonusOf(u: Id): Bonus -> bool { (x: Bonus) => x.userId != u }
  function NotTouching(u: Id): Edge -> bool { (x: Edge) => x.ancestor != u && x.descendant != u }
  function NotUser(u: Id): User -> bool { (x: User) => x.id != u }

  /** The deletion cascade shared by both routes: interactions, profile,
      cart, activities, purchases made, rank history, bonuses, every
      hierarchy edge above or below the user, and the user. Wallets,
      business centers and sales the user made as seller stay. */
  function Purge(db: Db, u: Id): (r: Db)
    ensures forall x :: x in r.interactions <==> x in db.interactions && x.userId != u
    ensures forall x :: x in r.profiles <==> x in db.profiles && x.userId != u
    ensures forall x :: x in r.cart <==> x in db.cart && x.userId != u
    ensures forall x :: x in r.activities <==> x in db.activities && x.userId != u
    ensures forall x :: x in r.transactions <==> x in db.transactions && x.buyerId != u
    ensures forall x :: x in r.history <==> x in db.history && x.userId != u
    ensures forall x :: x in r.bonuses <==> x in db.bonuses && x.userId != u
    ensures forall e :: e in r.edges <==> e in db.edges && e.ancestor != u && e.descendant != u
    ensures forall x :: x in r.users <==> x in db.users && x.id != u
    ensures r.wallets == db.wallets && r.centers == db.centers
    ensures r.products == db.products && r.rates == db.rates && r.matrix == db.matrix
    ensures r.companyBalance == db.companyBalance
    ensures && Subsequence(r.interactions, db.interactions) && Subsequence(r.profiles, db.profiles)
            && Subsequence(r.cart, db.cart) && Subsequence(r.activities, db.activities)
            && Subsequence(r.transactions, db.transactions) && Subsequence(r.history, db.history)
            && Subsequence(r.bonuses, db.bonuses) && Subsequence(r.edges, db.edges)
            && Subsequence(r.users, db.users)
  {
    SelectKeepsOrder(db.interactions, NotInteractionOf(u));
    SelectKeepsOrder(db.profiles, NotProfileOf(u));
    SelectKeepsOrder(db.cart, NotCartOf(u));
    SelectKeepsOrder(db.activities, NotActivityOf(u));
    SelectKeepsOrder(db.transactions, NotBoughtBy(u));
    SelectKeepsOrder(db.history, NotHistoryOf(u));
    SelectKeepsOrder(db.bonuses, NotBonusOf(u));
    SelectKeepsOrder(db.edges, NotTouching(u));
    SelectKeepsOrder(db.users, NotUser(u));
    db.(interactions := Select(db.interactions, NotInteractionOf(u)),
        profiles := Select(db.profiles, NotProfileOf(u)),
        cart := Select(db.cart, NotCartOf(u)),
        activities := Select(db.activities, NotActivityOf(u)),
        transactions := Select(db.transactions, NotBoughtBy(u)),
        history := Select(db.history, NotHistoryOf(u)),
        bonuses := Select(db.bonuses, NotBonusOf(u)),
        edges := Select(db.edges, NotTouching(u)),
        users := Select(db.users, NotUser(u)))
  }

  /** Deleting twice is deleting once. */
  lemma PurgeIdempotent(db: Db, u: Id)
    ensures Purge(Purge(db, u), u) == Purge(db, u)
  {
    SelectTwice(db.interactions, NotInteractionOf(u));
    SelectTwice(db.profiles, NotProfileOf(u));
    SelectTwice(db.cart, NotCartOf(u));
    SelectTwice(db.activities, NotActivityOf(u));
    SelectTwice(db.transactions, NotBoughtBy(u));
    SelectTwice(db.history, NotHistoryOf(u));
    SelectTwice(db.bonuses, NotBonusOf(u));
    SelectTwice(db.edges, NotTouching(u));
    SelectTwice(db.users, NotUser(u));
  }

  /** `delete_user_me`: the caller's account must exist, and an admin may
      not delete their own account this way. */
  function DeleteMe(db: Db, caller: User): (r: Result<Db, Failure>)
    ensures FindUser(db.users, caller.id).None? ==> r == Err(NoSuchUser)
    ensures FindUser(db.users, caller.id).Some? && caller.role == Admin ==> r == Err(SelfDelete)
    ensures r.Ok? <==> FindUser(db.users, caller.id).Some? && caller.role != Admin
    ensures r.Ok? ==> r.value == Purge(db, caller.id)
  {
    if FindUser(db.users, caller.id).None? then Err(NoSuchUser)
    else if caller.role == Admin then Err(SelfDelete)
    else Ok(Purge(db, caller.id))
  }

  /** `delete_user` (an admin deleting an account by id): the target must
      exist and must not be the caller. */
  function DeleteUser(db: Db, caller: Id, target: Id): (r: Result<Db, Failure>)
    ensures FindUser(db.users, target).None? ==> r == Err(NotFound)
    ensures FindUser(db.users, target).Some? && target == caller ==> r == Err(SelfDelete)
    ensures r.Ok? <==> FindUser(db.users, target).Some? && target != caller
    ensures r.Ok? ==> r.value == Purge(db, target)
  {
    if FindUser(db.users, target).None? then Err(NotFound)
    else if target == caller then Err(SelfDelete)
    else Ok(Purge(db, target))
  }

  /** No row the cascade removes refers to `u`. */
  ghost predicate Unreferenced(db: Db, u: Id)
  {
    && (forall x :: x in db.interactions ==> x.userId != u)
    && (forall x :: x in db.profiles ==> x.userId != u)
    && (forall x :: x in db.cart ==> x.userId != u)
    && (forall x :: x in db.activities ==> x.userId != u)
    && (forall x :: x in db.transactions ==> x.buyerId != u)
    && (forall x :: x in db.history ==> x.userId != u)
    && (forall x :: x in db.bonuses ==> x.userId != u)
    && (forall e :: e in db.edges ==> e.ancestor != u && e.descendant != u)
  }

  /** Each table the cascade filters keeps all its rows when none refers
      to `u`. */
  lemma TablesKept(db: Db, u: Id)
    requires Unreferenced(db, u)
    ensures Select(db.interactions, NotInteractionOf(u)) == db.interactions
    ensures Select(db.profiles, NotProfileOf(u)) == db.profiles
    ensures Select(db.cart, NotCartOf(u)) == db.cart
    ensures Select(db.activities, NotActivityOf(u)) == db.activities
    ensures Select(db.transactions, NotBoughtBy(u)) == db.transactions
    ensures Select(db.history, NotHistoryOf(u)) == db.history
    ensures Select(db.bonuses, NotBonusOf(u)) == db.bonuses
    ensures Select(db.edges, NotTouching(u)) == db.edges
  {
    SelectKeepsMembers(db.interactions, NotInteractionOf(u));
    SelectKeepsMembers(db.profiles, NotProfileOf(u));
    SelectKeepsMembers(db.cart, NotCartOf(u));
    SelectKeepsMembers(db.activities, NotActivityOf(u));
    SelectKeepsMembers(db.transactions, NotBoughtBy(u));
    SelectKeepsMembers(db.history, NotHistoryOf(u));
    SelectKeepsMembers(db.bonuses, NotBonusOf(u));
    SelectKeepsMembers(db.edges, NotTouching(u));
  }

  /** A user table without the id keeps all its rows. */
  lemma UsersKept(users: seq<User>, u: Id)
    requires u !in UserIds(users)
    ensures Select(users, NotUser(u)) == users
  {
    assert forall i :: 0 <= i < |users| ==> users[i].id == UserIds(users)[i];
    SelectKeepsAll(users, NotUser(u));
  }

  /** The cascade leaves the database alone when nothing refers to `u`. */
  lemma PurgeUnreferenced(db: Db, u: Id)
    requires Unreferenced(db, u)
    requires u !in UserIds(db.users)
    ensures Purge(db, u) == db
  {
    TablesKept(db, u);
    UsersKept(db.users, u);
  }

  /** Removing a fresh user's edges undoes the chain created for them. */
  lemma ChainRemoved(edges: seq<Edge>, sponsor: Id, u: Id)
    requires forall e :: e in edges ==> e.ancestor != u && e.descendant != u
    ensures Select(Hierarchy.CreateChain(edges, sponsor, u), NotTouching(u)) == edges
  {
    var r := Hierarchy.CreateChain(edges, sponsor, u);
    var added := r[|edges|..];
    assert r == edges + added;
    SelectAppend(edges, added, NotTouching(u));
    SelectDropsAll(added, NotTouching(u));
    assert forall i :: 0 <= i < |edges| ==> edges[i] in edges;
    SelectKeepsAll(edges, NotTouching(u));
  }

  /** Removing the rows of `u` undoes appending rows of `u`. */
  lemma AppendedRemoved<T(!new)>(s: seq<T>, added: seq<T>, p: T -> bool)
    requires Select(s, p) == s
    requires forall i :: 0 <= i < |added| ==> !p(added[i])
    ensures Select(s + added, p) == s
  {
    SelectAppend(s, added, p);
    SelectDropsAll(added, p);
  }

  /** A key outside `PersonIds` is referred to by no row the cascade
      removes. */
  lemma FreshIsUnreferenced(db: Db, n: Id)
    requires n !in PersonIds(db)
    ensures Unreferenced(db, n)
    ensures n !in UserIds(db.users)
  {
    assert forall x :: x in db.interactions ==> x.userId in Column(db.interactions, (x: Interaction) => x.userId);
    assert forall x :: x in db.profiles ==> x.userId in Column(db.profiles, (p: Profile) => p.userId);
    assert forall x :: x in db.cart ==> x.userId in Column(db.cart, (x: CartItem) => x.userId);
    assert forall x :: x in db.activities ==> x.userId in Column(db.activities, (x: Activity) => x.userId);
    assert forall x :: x in db.transactions ==> x.buyerId in Column(db.transactions, (t: Transaction) => t.buyerId);
    assert forall x :: x in db.history ==> x.userId in Column(db.history, (h: RankHistory) => h.userId);
    assert forall x :: x in db.bonuses ==> x.userId in Column(db.bonuses, (b: Bonus) => b.userId);
    assert forall e :: e in db.edges ==> e.ancestor in Column(db.edges, (e: Edge) => e.ancestor);
    assert forall e :: e in db.edges ==> e.descendant in Column(db.edges, (e: Edge) => e.descendant);
  }

  /** Deleting a user right after signup restores the database: the new
      key is fresh, so nothing referred to it beforehand. */
  lemma DeleteUndoesRegister(db: Db, s: Signup, isClient: bool, token: string, hash: string)
    requires |token| == 32
    requires Register(db, s, isClient, token, hash).Ok?
    ensures Purge(Register(db, s, isClient, token, hash).value.0, Register(db, s, isClient, token, hash).value.1.id) == db
  {
    var (db', user) := Register(db, s, isClient, token, hash).value;
    var sponsor := SponsorOf(db.users, s.referralCode).value;
    FreshIsUnreferenced(db, user.id);
    if isClient {
      UndoSignup(db, db', user, db.profiles, db.edges);
    } else {
      UndoSignup(db, db', user, db.profiles + [db'.profiles[|db.profiles|]],
        Hierarchy.CreateChain(db.edges, sponsor.id, user.id));
    }
  }

  /** The shape of a signup's writes, for either kind of registrant, and the
      purge that undoes them. */
  lemma UndoSignup(db: Db, db': Db, user: User, profiles: seq<Profile>, edges: seq<Edge>)
    requires Unreferenced(db, user.id) && user.id !in UserIds(db.users)
    requires db' == db.(users := db.users + [user], profiles := profiles, edges := edges)
    requires profiles == db.profiles || (|profiles| == |db.profiles| + 1 && profiles == db.profiles + [profiles[|db.profiles|]] && profiles[|db.profiles|].userId == user.id)
    requires edges == db.edges || exists sponsor :: edges == Hierarchy.CreateChain(db.edges, sponsor, user.id)
    ensures Purge(db', user.id) == db
  {
    var u := user.id;
    TablesKept(db, u);
    UsersKept(db.users, u);
    AppendedRemoved(db.users, [user], NotUser(u));
    if profiles != db.profiles {
      AppendedRemoved(db.profiles, [profiles[|db.profiles|]], NotProfileOf(u));
    }
    if edges != db.edges {
      var sponsor :| edges == Hierarchy.CreateChain(db.edges, sponsor, u);
      ChainRemoved(db.edges, sponsor, u);
    }
    PurgeGrown(db, db', u);
  }

  /** A database that differs from an unreferenced one only by rows of `u`
      in the user, profile and edge tables purges back to it. */
  lemma PurgeGrown(db: Db, db': Db, u: Id)
    requires Unreferenced(db, u)
    requires db' == db.(users := db'.users, profiles := db'.profiles, edges := db'.edges)
    requires Select(db'.users, NotUser(u)) == db.users
    requires Select(db'.profiles, NotProfileOf(u)) == db.profiles
    requires Select(db'.edges, NotTouching(u)) == db.edges
    ensures Purge(db', u) == db
  {
    TablesKept(db, u);
  }

  // ------------------------------------------------------------ key discipline

  /** Every user key, profile key, center owner and history row of `db` is
      among its person ids. */
  lemma PersonIdsCover(db: Db)
    ensures forall x :: x in db.users ==> x.id in PersonIds(db)
    ensures forall p :: p in db.profiles ==> p.id in PersonIds(db)
    ensures forall c :: c in db.centers ==> c.ownerId in PersonIds(db)
    ensures forall h :: h in db.history ==> h.userId in PersonIds(db)
  {
    forall x | x in db.users ensures x.id in UserIds(db.users) {
      var i :| 0 <= i < |db.users| && db.users[i] == x;
      assert UserIds(db.users)[i] == x.id;
    }
    forall p | p in db.profiles ensures p.id in ProfileIds(db.profiles) {
      var i :| 0 <= i < |db.profiles| && db.profiles[i] == p;
      assert ProfileIds(db.profiles)[i] == p.id;
    }
    assert forall c :: c in db.centers ==> c.ownerId in Column(db.centers, (c: Center) => c.ownerId);
    assert forall h :: h in db.history ==> h.userId in Column(db.history, (h: RankHistory) => h.userId);
  }

  /** Signup keeps the columns that hold profile keys apart from user keys:
      both new keys are drawn outside every person id. */
  lemma RegisterKeepsIdsApart(db: Db, s: Signup, isClient: bool, token: string, hash: string)
    requires |token| == 32
    requires IdsApart(db)
    requires Register(db, s, isClient, token, hash).Ok?
    ensures IdsApart(Register(db, s, isClient, token, hash).value.0)
  {
    var (db', user) := Register(db, s, isClient, token, hash).value;
    PersonIdsCover(db);
    var db1 := db.(users := db.users + [user]);
    UserAppendApart(db, user);
    if !isClient {
      var p := db'.profiles[|db.profiles|];
      assert db'.profiles == db.profiles + [p];
      assert forall x :: x in db1.users ==> x.id != p.id;
      ProfileAppendApart(db1.users, db.profiles, p);
    }
  }

  /** A user whose key is no person id may be appended. */
  lemma UserAppendApart(db: Db, user: User)
    requires IdsApart(db)
    requires user.id !in PersonIds(db)
    ensures IdsApart(db.(users := db.users + [user]))
  {
    PersonIdsCover(db);
    forall x | x in db.users + [user] ensures x in db.users || x == user { }
  }

  /** A profile whose key is no user key may be appended. */
  lemma ProfileAppendApart(users: seq<User>, profiles: seq<Profile>, p: Profile)
    requires ProfilesApart(users, profiles)
    requires forall x :: x in users ==> x.id != p.id
    ensures ProfilesApart(users, profiles + [p])
  {
    forall q, x | q in profiles + [p] && x in users ensures q.id != x.id {
      assert q in profiles || q == p;
    }
  }

  /** The cascade only removes rows, so it keeps the key discipline. */
  lemma PurgeKeepsIdsApart(db: Db, u: Id)
    requires IdsApart(db)
    ensures IdsApart(Purge(db, u))
  {
  }

  /** The cascade filters rank history by the user's key, but the rows hold
      profile keys, so under the key discipline it removes none of them. */
  lemma PurgeKeepsRankHistory(db: Db, u: Id)
    requires IdsApart(db)
    requires FindUser(db.users, u).Some?
    ensures Purge(db, u).history == db.history
  {
    SelectKeepsMembers(db.history, NotHistoryOf(u));
  }
}

=== FILE: wallet.dfy ===
/** WalletService over the wallet table. WalletDAO's `get_user_wallet` and
    `update_balance` are not part of this model's source; they are modelled
    as the first wallet of the user with that type, and as an addition to
    that wallet's balance. */
module Wallets {
  import opened Wrappers
  import opened Domain
  import Repository

  function Keyed(u: Id, kind: WalletType): Wallet -> bool
  {
    (w: Wallet) => w.userId == u && w.kind == kind
  }

  /** `get_user_wallet(user_id, type)`. */
  function FindWallet(ws: seq<Wallet>, u: Id, kind: WalletType): (r: Option<Wallet>)
    ensures r.Some? ==> r.value in ws && r.value.userId == u && r.value.kind == kind
    ensures r.Some? ==> Repository.IsFirst(ws, Keyed(u, kind), r.value)
    ensures r.None? <==> forall w :: w in ws ==> !(w.userId == u && w.kind == kind)
  {
    Repository.First(ws, Keyed(u, kind))
  }

  /** The balance `get_user_wallet` reports, 0 when there is no wallet. */
  function Balance(ws: seq<Wallet>, u: Id, kind: WalletType): real
  {
    match FindWallet(ws, u, kind)
    case None => 0.0
    case Some(w) => w.balance
  }

  /** Sum of all wallet balances. */
  function Total(ws: seq<Wallet>): real
  {
    if |ws| == 0 then 0.0 else ws[0].balance + Total(ws[1..])
  }

  /** The two tables hold the same wallets up to their balances. */
  ghost predicate SameWallets(ws: seq<Wallet>, ws': seq<Wallet>)
  {
    |ws| == |ws'| && forall j :: 0 <= j < |ws| ==> ws'[j].(balance := ws[j].balance) == ws[j]
  }

  /** `update_balance(user_id, type, amount)`: adds `amount` to the user's
      wallet of that type; no floor is enforced. */
  function UpdateBalance(ws: seq<Wallet>, u: Id, kind: WalletType, amount: real): (r: Result<seq<Wallet>, Failure>)
    ensures r.Err? <==> FindWallet(ws, u, kind).None?
    ensures r.Err? ==> r.error == ValueError("Wallet not found")
    ensures r.Ok? ==> SameWallets(ws, r.value)
    ensures r.Ok? ==> Total(r.value) == Total(ws) + amount
    ensures r.Ok? ==> Balance(r.value, u, kind) == Balance(ws, u, kind) + amount
  {
    match Repository.FirstIndex(ws, Keyed(u, kind))
    case None => Err(ValueError("Wallet not found"))
    case Some(i) =>
      var w := ws[i].(balance := ws[i].balance + amount);
      var ws' := ws[i := w];
      TotalReplace(ws, i, w);
      SameKeysSameLookup(ws, ws', u, kind);
      Ok(ws')
  }

  /** An update leaves every other wallet's existence and balance alone. */
  lemma UpdateBalanceElsewhere(ws: seq<Wallet>, u: Id, kind: WalletType, amount: real, u': Id, kind': WalletType)
    requires UpdateBalance(ws, u, kind, amount).Ok?
    ensures FindWallet(UpdateBalance(ws, u, kind, amount).value, u', kind').Some? == FindWallet(ws, u', kind').Some?
    ensures u' != u || kind' != kind ==>
      Balance(UpdateBalance(ws, u, kind, amount).value, u', kind') == Balance(ws, u', kind')
  {
    var ws' := UpdateBalance(ws, u, kind, amount).value;
    var i := Repository.FirstIndex(ws, Keyed(u, kind)).value;
    assert ws' == ws[i := ws[i].(balance := ws[i].balance + amount)];
    SameKeysSameLookup(ws, ws', u', kind');
  }

  /** Replacing one wallet changes the total by the change of that wallet. */
  lemma {:induction false} TotalReplace(ws: seq<Wallet>, i: nat, w: Wallet)
    requires i < |ws|
    ensures Total(ws[i := w]) == Total(ws) - ws[i].balance + w.balance
    decreases |ws|
  {
    if i > 0 {
      assert ws[i := w][1..] == ws[1..][i - 1 := w];
      TotalReplace(ws[1..], i - 1, w);
    } else {
      assert ws[i := w][1..] == ws[1..];
    }
  }

  /** Two wallet tables that differ only in balances find the same position. */
  lemma SameKeysSameLookup(ws: seq<Wallet>, ws': seq<Wallet>, u: Id, kind: WalletType)
    requires SameWallets(ws, ws')
    ensures Repository.FirstIndex(ws, Keyed(u, kind)) == Repository.FirstIndex(ws', Keyed(u, kind))
  {
    var a := Repository.FirstIndex(ws, Keyed(u, kind));
    var b := Repository.FirstIndex(ws', Keyed(u, kind));
    assert forall j :: 0 <= j < |ws| ==> (ws[j].userId == ws'[j].userId && ws[j].kind == ws'[j].kind) by {
      forall j | 0 <= j < |ws| ensures ws[j].userId == ws'[j].userId && ws[j].kind == ws'[j].kind {
        assert ws'[j].(balance := ws[j].balance) == ws[j];
      }
    }
  }

  /** `credit_bonus`: adds to the user's BONUS wallet. */
  function CreditBonus(ws: seq<Wallet>, u: Id, amount: real): (r: Result<seq<Wallet>, Failure>)
    ensures r.Err? <==> FindWallet(ws, u, BonusWallet).None?
    ensures r.Ok? ==> Balance(r.value, u, BonusWallet) == Balance(ws, u, BonusWallet) + amount
    ensures r.Ok? ==> Total(r.value) == Total(ws) + amount
    ensures r.Ok? ==> forall v, k :: v != u || k != BonusWallet ==> Balance(r.value, v, k) == Balance(ws, v, k)
  {
    var r := UpdateBalance(ws, u, BonusWallet, amount);
    assert r.Ok? ==> forall v, k :: v != u || k != BonusWallet ==> Balance(r.value, v, k) == Balance(ws, v, k) by {
      if r.Ok? {
        forall v, k | v != u || k != BonusWallet
          ensures Balance(r.value, v, k) == Balance(ws, v, k)
        {
          UpdateBalanceElsewhere(ws, u, BonusWallet, amount, v, k);
        }
      }
    }
    r
  }

  /** `create_default_wallets`: a BONUS and then a GIFT wallet with zero balance. */
  function CreateDefaultWallets(ws: seq<Wallet>, u: Id, currency: Currency): (r: seq<Wallet>)
    ensures |r| == |ws| + 2 && r[..|ws|] == ws
    ensures r[|ws|].userId == u && r[|ws|].kind == BonusWallet && r[|ws|].currency == currency
    ensures r[|ws| + 1].userId == u && r[|ws| + 1].kind == GiftWallet && r[|ws| + 1].currency == currency
    ensures r[|ws|].id !in WalletIds(ws) && r[|ws| + 1].id !in WalletIds(ws + [r[|ws|]])
    ensures Total(r) == Total(ws)
  {
    var bonus := Wallet(NextId(WalletIds(ws)), u, currency, BonusWallet, 0.0);
    var ws1 := ws + [bonus];
    var gift := Wallet(NextId(WalletIds(ws1)), u, currency, GiftWallet, 0.0);
    TotalAppend(ws, bonus);
    TotalAppend(ws1, gift);
    ws1 + [gift]
  }

  lemma {:induction false} TotalAppend(ws: seq<Wallet>, w: Wallet)
    ensures Total(ws + [w]) == Total(ws) + w.balance
    decreases |ws|
  {
    if |ws| == 0 {
      assert (ws + [w])[1..] == [];
    } else {
      assert (ws + [w])[1..] == ws[1..] + [w];
      TotalAppend(ws[1..], w);
    }
  }

  /** After `create_default_wallets` on a user without wallets, both of the
      user's wallets exist and hold nothing. */
  lemma DefaultWalletsFound(ws: seq<Wallet>, u: Id, currency: Currency)
    requires forall w :: w in ws ==> w.userId != u
    ensures FindWallet(CreateDefaultWallets(ws, u, currency), u, BonusWallet).Some?
    ensures FindWallet(CreateDefaultWallets(ws, u, currency), u, GiftWallet).Some?
    ensures Balance(CreateDefaultWallets(ws, u, currency), u, BonusWallet) == 0.0
    ensures Balance(CreateDefaultWallets(ws, u, currency), u, GiftWallet) == 0.0
  {
    var r := CreateDefaultWallets(ws, u, currency);
    assert r[|ws|] in r && r[|ws| + 1] in r;
    forall w | w in r && w.userId == u
      ensures w == r[|ws|] || w == r[|ws| + 1]
    {
      var k :| 0 <= k < |r| && r[k] == w;
    }
  }

  /** Tables holding the same wallets up to balances compose. */
  lemma SameWalletsTrans(a: seq<Wallet>, b: seq<Wallet>, c: seq<Wallet>)
    requires SameWallets(a, b) && SameWallets(b, c)
    ensures SameWallets(a, c)
  {
    forall j | 0 <= j < |a|
      ensures c[j].(balance := a[j].balance) == a[j]
    {
      assert b[j].(balance := a[j].balance) == a[j];
      assert c[j].(balance := b[j].balance) == b[j];
    }
  }

  /** Tables holding the same wallets have the same wallets to find. */
  lemma SameWalletsFind(ws: seq<Wallet>, ws': seq<Wallet>, u: Id, kind: WalletType)
    requires SameWallets(ws, ws')
    ensures FindWallet(ws', u, kind).Some? == FindWallet(ws, u, kind).Some?
  {
    SameKeysSameLookup(ws, ws', u, kind);
  }

  /** Two balance updates in a row: the second succeeds exactly when its
      wallet existed before the first, and their effects add up. */
  lemma UpdateTwice(ws: seq<Wallet>, u1: Id, k1: WalletType, d1: real, u2: Id, k2: WalletType, d2: real)
    requires FindWallet(ws, u1, k1).Some?
    ensures UpdateBalance(ws, u1, k1, d1).Ok?
    ensures var ws1 := UpdateBalance(ws, u1, k1, d1).value;
      && (UpdateBalance(ws1, u2, k2, d2).Ok? <==> FindWallet(ws, u2, k2).Some?)
      && (UpdateBalance(ws1, u2, k2, d2).Ok? ==>
           var ws2 := UpdateBalance(ws1, u2, k2, d2).value;
           && Total(ws2) == Total(ws) + d1 + d2
           && ((u1 != u2 || k1 != k2) ==>
                 Balance(ws2, u1, k1) == Balance(ws, u1, k1) + d1 && Balance(ws2, u2, k2) == Balance(ws, u2, k2) + d2)
           && ((u1 == u2 && k1 == k2) ==> Balance(ws2, u1, k1) == Balance(ws, u1, k1) + d1 + d2))
  {
    var ws1 := UpdateBalance(ws, u1, k1, d1).value;
    UpdateBalanceElsewhere(ws, u1, k1, d1, u2, k2);
    if UpdateBalance(ws1, u2, k2, d2).Ok? && (u1 != u2 || k1 != k2) {
      UpdateBalanceElsewhere(ws1, u2, k2, d2, u1, k1);
    }
  }

  /** `transfer_to_gift`: moves `amount` from the BONUS to the GIFT wallet,
      refusing with 400 when the BONUS balance is below it. */
  function TransferToGift(ws: seq<Wallet>, u: Id, amount: real): (r: Result<seq<Wallet>, Failure>)
    ensures FindWallet(ws, u, BonusWallet).None? ==> r == Err(AttributeError("balance"))
    ensures FindWallet(ws, u, BonusWallet).Some? && Balance(ws, u, BonusWallet) < amount ==>
      r == Err(HttpError(400, "Not enough funds"))
    ensures r.Ok? <==>
      FindWallet(ws, u, BonusWallet).Some? && FindWallet(ws, u, GiftWallet).Some? && Balance(ws, u, BonusWallet) >= amount
    ensures r.Ok? ==> Total(r.value) == Total(ws)
    ensures r.Ok? ==> Balance(r.value, u, BonusWallet) == Balance(ws, u, BonusWallet) - amount
    ensures r.Ok? ==> Balance(r.value, u, GiftWallet) == Balance(ws, u, GiftWallet) + amount
  {
    match FindWallet(ws, u, BonusWallet)
    case None => Err(AttributeError("balance"))
    case Some(bonus) =>
      if bonus.balance < amount then Err(HttpError(400, "Not enough funds"))
      else
        var debit := -amount;
        UpdateTwice(ws, u, BonusWallet, debit, u, GiftWallet, amount);
        match UpdateBalance(ws, u, BonusWallet, debit)
        case Err(e) => Err(e)
        case Ok(ws1) =>
          match UpdateBalance(ws1, u, GiftWallet, amount)
          case Err(e) => Err(e)
          case Ok(ws2) =>
            Ok(ws2)
  }

  /** `move_funds_and_log_transaction`: moves `amount` between the two users'
      BONUS wallets and logs a completed transaction. */
  function MoveFunds(ws: seq<Wallet>, txs: seq<Transaction>, source: Id, target: Id, amount: real,
                     kind: TransactionType, pv: real, product: Option<Id>, note: string)
    : (r: Result<(seq<Wallet>, seq<Transaction>), Failure>)
    ensures FindWallet(ws, source, BonusWallet).None? ==> r == Err(AttributeError("balance"))
    ensures FindWallet(ws, source, BonusWallet).Some? && Balance(ws, source, BonusWallet) < amount ==>
      r == Err(HttpError(400, "Not enough funds"))
    ensures r.Ok? <==>
      FindWallet(ws, source, BonusWallet).Some? && FindWallet(ws, target, BonusWallet).Some?
      && Balance(ws, source, BonusWallet) >= amount
    ensures (FindWallet(ws, source, BonusWallet).Some? && Balance(ws, source, BonusWallet) >= amount
      && FindWallet(ws, target, BonusWallet).None?) ==> r == Err(ValueError("Wallet not found"))
    ensures r.Ok? ==> SameWallets(ws, r.value.0)
    ensures r.Ok? ==> Total(r.value.0) == Total(ws)
    ensures r.Ok? ==> source != target ==>
      && Balance(r.value.0, source, BonusWallet) == Balance(ws, source, BonusWallet) - amount
      && Balance(r.value.0, target, BonusWallet) == Balance(ws, target, BonusWallet) + amount
    ensures r.Ok? ==> source == target ==> Balance(r.value.0, source, BonusWallet) == Balance(ws, source, BonusWallet)
    ensures r.Ok? ==>
      && |r.value.1| == |txs| + 1 && r.value.1[..|txs|] == txs
      && r.value.1[|txs|].id !in TransactionIds(txs)
      && r.value.1[|txs|] == Transaction(r.value.1[|txs|].id, source, Some(target), amount, pv, kind, Completed, product, note)
  {
    match FindWallet(ws, source, BonusWallet)
    case None => Err(AttributeError("balance"))
    case Some(from) =>
      if from.balance < amount then Err(HttpError(400, "Not enough funds"))
      else
        var debit := -amount;
        UpdateTwice(ws, source, BonusWallet, debit, target, BonusWallet, amount);
        match UpdateBalance(ws, source, BonusWallet, debit)
        case Err(e) => Err(e)
        case Ok(ws1) =>
          match UpdateBalance(ws1, target, BonusWallet, amount)
          case Err(e) => Err(e)
          case Ok(ws2) =>
            SameWalletsTrans(ws, ws1, ws2);
            var tx := Transaction(NextId(TransactionIds(txs)), source, Some(target), amount, pv, kind, Completed, product, note);
            Ok((ws2, txs + [tx]))
  }

  /** `move_funds_and_log_transaction` as written: `TransactionCreate` is
      built without `achievement_id`, which the schema declares with no
      default, so every move that gets past both balance updates fails
      validation instead of logging. The failure carries the wallet table
      as it stands when the exception is raised. */
  function MoveFundsAsWritten(ws: seq<Wallet>, txs: seq<Transaction>, source: Id, target: Id, amount: real,
                              kind: TransactionType, pv: real, product: Option<Id>, note: string)
    : (r: Result<(seq<Wallet>, seq<Transaction>), (Failure, seq<Wallet>)>)
    ensures r.Err?
    ensures FindWallet(ws, source, BonusWallet).None? ==> r.error == (AttributeError("balance"), ws)
    ensures FindWallet(ws, source, BonusWallet).Some? && Balance(ws, source, BonusWallet) < amount ==>
      r.error == (HttpError(400, "Not enough funds"), ws)
    ensures r.error.0 == ValidationError("achievement_id") <==>
      FindWallet(ws, source, BonusWallet).Some? && FindWallet(ws, target, BonusWallet).Some?
      && Balance(ws, source, BonusWallet) >= amount
  {
    match FindWallet(ws, source, BonusWallet)
    case None => Err((AttributeError("balance"), ws))
    case Some(from) =>
      if from.balance < amount then Err((HttpError(400, "Not enough funds"), ws))
      else
        var debit := -amount;
        match UpdateBalance(ws, source, BonusWallet, debit)
        case Err(e) => Err((e, ws))
        case Ok(ws1) =>
          match UpdateBalance(ws1, target, BonusWallet, amount)
          case Err(e) => Err((e, ws1))
          case Ok(ws2) => Err((ValidationError("achievement_id"), ws2))
  }

  /** Every transfer the corrected service logs fails as written, after the
      same balance updates; the other failures are the same in both. */
  lemma AsWrittenNeverLogs(ws: seq<Wallet>, txs: seq<Transaction>, source: Id, target: Id, amount: real,
                           kind: TransactionType, pv: real, product: Option<Id>, note: string)
    ensures var fixed := MoveFunds(ws, txs, source, target, amount, kind, pv, product, note);
      var asWritten := MoveFundsAsWritten(ws, txs, source, target, amount, kind, pv, product, note);
      && (fixed.Ok? ==> asWritten == Err((ValidationError("achievement_id"), fixed.value.0)))
      && (fixed.Err? ==> asWritten.error.0 == fixed.error)
  {
    if MoveFunds(ws, txs, source, target, amount, kind, pv, product, note).Ok? {
      AsWrittenFailsWhereFixedLogs(ws, txs, source, target, amount, kind, pv, product, note);
    } else {
      AsWrittenFailsLikeFixed(ws, txs, source, target, amount, kind, pv, product, note);
    }
  }

  /** The half of `AsWrittenNeverLogs` where the corrected service logs. */
  lemma AsWrittenFailsWhereFixedLogs(ws: seq<Wallet>, txs: seq<Transaction>, source: Id, target: Id, amount: real,
                                     kind: TransactionType, pv: real, product: Option<Id>, note: string)
    requires MoveFunds(ws, txs, source, target, amount, kind, pv, product, note).Ok?
    ensures MoveFundsAsWritten(ws, txs, source, target, amount, kind, pv, product, note)
         == Err((ValidationError("achievement_id"), MoveFunds(ws, txs, source, target, amount, kind, pv, product, note).value.0))
  {
    MoveFundsUpdates(ws, txs, source, target, amount, kind, pv, product, note);
    AsWrittenUpdates(ws, txs, source, target, amount, kind, pv, product, note);
  }

  /** A completed transfer holds the two balance updates in order. */
  lemma MoveFundsUpdates(ws: seq<Wallet>, txs: seq<Transaction>, source: Id, target: Id, amount: real,
                         kind: TransactionType, pv: real, product: Option<Id>, note: string)
    requires MoveFunds(ws, txs, source, target, amount, kind, pv, product, note).Ok?
    ensures FindWallet(ws, source, BonusWallet).Some? && FindWallet(ws, source, BonusWallet).value.balance >= amount
    ensures UpdateBalance(ws, source, BonusWallet, -amount).Ok?
    ensures UpdateBalance(UpdateBalance(ws, source, BonusWallet, -amount).value, target, BonusWallet, amount).Ok?
    ensures MoveFunds(ws, txs, source, target, amount, kind, pv, product, note).value.0
         == UpdateBalance(UpdateBalance(ws, source, BonusWallet, -amount).value, target, BonusWallet, amount).value
  {
  }

  /** As written, the same two updates end in the validation error. */
  lemma AsWrittenUpdates(ws: seq<Wallet>, txs: seq<Transaction>, source: Id, target: Id, amount: real,
                         kind: TransactionType, pv: real, product: Option<Id>, note: string)
    requires FindWallet(ws, source, BonusWallet).Some? && FindWallet(ws, source, BonusWallet).value.balance >= amount
    requires UpdateBalance(ws, source, BonusWallet, -amount).Ok?
    requires UpdateBalance(UpdateBalance(ws, source, BonusWallet, -amount).value, target, BonusWallet, amount).Ok?
    ensures MoveFundsAsWritten(ws, txs, source, target, amount, kind, pv, product, note)
         == Err((ValidationError("achievement_id"),
                 UpdateBalance(UpdateBalance(ws, source, BonusWallet, -amount).value, target, BonusWallet, amount).value))
  {
  }

  /** The half of `AsWrittenNeverLogs` where the corrected service fails. */
  lemma AsWrittenFailsLikeFixed(ws: seq<Wallet>, txs: seq<Transaction>, source: Id, target: Id, amount: real,
                                kind: TransactionType, pv: real, product: Option<Id>, note: string)
    requires MoveFunds(ws, txs, source, target, amount, kind, pv, product, note).Err?
    ensures MoveFundsAsWritten(ws, txs, source, target, amount, kind, pv, product, note).error.0
         == MoveFunds(ws, txs, source, target, amount, kind, pv, product, note).error
  {
    if FindWallet(ws, source, BonusWallet).Some? && Balance(ws, source, BonusWallet) >= amount {
      UpdateTwice(ws, source, BonusWallet, -amount, target, BonusWallet, amount);
    }
  }
}

=== FILE: wrappers.dfy ===
/** Failure-compatible wrappers used by every service model: `Option` for the
    source's `None` returns and `Result` for its raised exceptions. */
module Wrappers {

  datatype Option<+T> = None | Some(value: T) {
    predicate IsFailure() { None? }

    function PropagateFailure<U>(): Option<U>
      requires None?
    {
      None
    }

    function Extract(): T
      requires Some?
    {
      value
    }
  }

  datatype Result<+T, +E> = Ok(value: T) | Err(error: E) {
    predicate IsFailure() { Err? }

    function PropagateFailure<U>(): Result<U, E>
      requires Err?
    {
      Err(error)
    }

    function Extract(): T
      requires Ok?
    {
      value
    }
  }
}
